=== FILE: README.md ===
# tools-for-devs generators in Dafny

The tools-for-devs WordPress plugin ships seven browser-side code generators. Each one turns a
small form into SQL or PHP text that a developer copies into a site. This project models the pure
core of each generator as Dafny functions over strings and sequences, and proves what the
generated text is:

- **WooCommerce product purge** (`wcdelete.dfy`, module `WcDelete`): a fixed 30-line script.
  It deletes products, their meta, relationships and attachments, then clears six lookup tables
  with `TRUNCATE` or `DELETE`, all inside one transaction.
- **Site migration** (`migration.dfy`, `Migration`): eight `UPDATE ... REPLACE(...)` statements
  that rewrite an old site URL into a new one, with URL normalisation and SQL quote doubling.
- **Plugin header** (`header.dfy`, `PluginHeader`): the WordPress plugin header comment.
  Optional lines appear in a fixed order, and the `Requires Plugins` list is de-duplicated.
- **Table prefix change** (`prefix.dfy`, `Prefixes` and `PrefixTool`): `RENAME TABLE` and
  `UPDATE` statements that move a site, and optionally each multisite subsite, from one table
  prefix to another.
- **ACF field type** (`acf.dfy`, `AcfField`): a bundle of a PHP field class and optional
  script and stylesheet for Advanced Custom Fields.
- **Database CRUD plugin** (`crud.dfy`, `CrudGenerator`): from a table of columns, the
  `CREATE TABLE` column lines, the allow-list of writable columns and an example payload.
- **REST route** (`rest.dfy`, `RestRoute`): a `register_rest_route` callback or controller.
  It covers path-parameter detection, the argument table, the permission check and the
  generated identifiers.

Shared modules hold what several generators use:

- `Strings`: JavaScript `trim`, ASCII case mapping, `join` and `split`.
- `Lists`: `Array.from(new Set(...))`, `map` and `filter`.
- `Slugs`: the slug, Pascal-case and identifier regular expressions.
- `Escaping`: SQL quote doubling and the `phpString` escaper, each with a reader that parses the
  literal back.
- `Results`: `Option` and `Result`.

The migration, WooCommerce-delete, prefix, header and ACF handlers are modelled as functions
that take the form fields as strings and return either the refusal the handler shows or the
generated text. The REST route handler (`RestRoute.Generate`) returns instead the cleaned request
record with its merged argument rows, and the CRUD handler the records it builds (see below);
for their large PHP templates the model holds the values placed into the text. Where the source has a
defect (see "## Findings"), the model keeps both versions side by side, and the rest of the
model builds on the corrected one:

- `Migration.GenerateAsWritten` is the handler as written; `Migration.Generate` applies the
  corrected URL guard.
- `AcfField.Generate(f, escape)` and `AcfField.BuildBundle(d, escape)` are the source's bundle
  when `escape` is false and the corrected one, whose PHP literals are escaped, when it is true.
- The CRUD handler never refuses and is modelled by the record it builds from the form:
  `CrudGenerator.DescribeAsWritten` as written, `CrudGenerator.Describe` with the corrected
  default table. `CrudGenerator.BuildPlugin` is the plugin as written, with the source's
  allow-list; `CrudGenerator.BuildPluginCorrected` uses the corrected allow-list.

The recurring properties are:

- normalisers are idempotent;
- escaped values read back as themselves (SQL literals under standard quote doubling);
- lists keep first occurrences in order;
- statement counts and positions are exact;
- in the corrected CRUD plugin, the names the DDL creates are exactly the names the allow-list
  admits; as written, a column named like an `Object.prototype` member is left out.

## Model

| member | source | states |
|---|---|---|
| Prefixes.NormalizePrefix | public/js/wc-delete-products-sql-tool.js:7-11 | blank input (after trimming) gives the empty prefix; otherwise the trimmed input, ending in `_`, with `_` added only when it was missing |
| Prefixes.NormalizePrefixIdempotent | public/js/wp-db-prefix-tool.js:7-11 | normalising an already normalised prefix changes nothing |
| Prefixes.NormalizePrefixChars | public/js/wc-delete-products-sql-tool.js:7-11 | normalisation introduces no character other than `_` |
| WcDelete.Clears | public/js/wc-delete-products-sql-tool.js:17-24 | exactly six clear statements, one per lookup table in the listed order, all in the chosen TRUNCATE/DELETE form |
| WcDelete.EntryAt | public/js/wc-delete-products-sql-tool.js:26-85 | the 30 pushed lines: entries 0-20 are the header and the four deletes, 21-26 the clears, 27-29 the blank, COMMIT and blank lines |
| WcDelete.BeginOnce | public/js/wc-delete-products-sql-tool.js:34 | `START TRANSACTION;` occurs exactly once, as line 6 |
| WcDelete.CommitOnce | public/js/wc-delete-products-sql-tool.js:84 | `COMMIT;` occurs exactly once, as line 28 |
| WcDelete.RunsInside | public/js/wc-delete-products-sql-tool.js:34-84 | the data-changing statements are exactly the lines at the fixed positions, all strictly between the transaction start and the commit |
| WcDelete.PurgeOrder | public/js/wc-delete-products-sql-tool.js:37-81 | term relationships, postmeta, attachments and products are deleted in that order, then the six lookup tables are cleared |
| WcDelete.PurgeText | public/js/wc-delete-products-sql-tool.js:37-81 | each statement's text is fixed pieces, independent of the prefix, with the prefix and one of the statement's listed tables in every gap, in order |
| WcDelete.TablesFixed | public/js/wc-delete-products-sql-tool.js:17-81 | every statement of the script is its fixed pieces with prefixed tables in the gaps, and every such table is the prefix plus one of nine fixed suffixes |
| WcDelete.ClearLines | public/js/wc-delete-products-sql-tool.js:75-81 | the clear lines read `TRUNCATE TABLE p+t;` or `DELETE FROM p+t;` for each lookup table t |
| WcDelete.SqlEnds | public/js/wc-delete-products-sql-tool.js:83-87 | the joined script ends with a newline, `COMMIT;` and a newline |
| WcDelete.EndsWithLine | public/js/wc-delete-products-sql-tool.js:83-87 | lines whose last two are `c` and the empty line join to text ending in separator, `c`, separator |
| WcDelete.PrefixNote | public/js/wc-delete-products-sql-tool.js:30 | the header line 2 names the prefix used by every statement |
| WcDelete.Generate | public/js/wc-delete-products-sql-tool.js:138-145 | refused exactly when the prefix is blank; otherwise the value is the script for the normalised prefix in the chosen TRUNCATE/DELETE form; it opens with the rule, title and prefix lines naming that prefix, which ends with `_`, and ends with the commit |
| WcDelete.SqlOpens | public/js/wc-delete-products-sql-tool.js:26-30 | the script opens with the rule line, the title and the line naming the prefix |
| WcDelete.GenerateClears | public/js/wc-delete-products-sql-tool.js:75-87 | an accepted script holds, on a line of its own, the clear of each lookup table under the normalised prefix, by TRUNCATE or DELETE as chosen |
| Migration.RemoveSpace | public/js/wp-migration-sql-tool.js:18 | the result holds no white space and exactly the non-space characters of the input |
| Migration.StripSlashes | public/js/wp-migration-sql-tool.js:19 | the result is a prefix of the input, does not end in `/`, and only `/` characters were removed |
| Migration.NormalizeUrl | public/js/wp-migration-sql-tool.js:15-20 | a normalised URL holds no white space and does not end in `/` |
| Migration.NormalizeUrlIdempotent | public/js/wp-migration-sql-tool.js:15-20 | normalising twice is normalising once |
| Migration.NormalizeUrlPlain | public/js/wp-migration-sql-tool.js:15-20 | a URL without white space or trailing slash is its own normal form |
| Migration.SchemeSlashes | public/js/wp-migration-sql-tool.js:15-20 | a printable scheme followed by `//` normalises to the bare scheme |
| Migration.BareSchemes | public/js/wp-migration-sql-tool.js:15-20 | `http://` and `https://` normalise to the bare schemes `http:` and `https:` |
| Migration.NormalizeUrlSpaceFree | public/js/wp-migration-sql-tool.js:15-20 | on input without white space normalising only strips trailing slashes |
| Migration.GuardComparisonsDead | public/js/wp-migration-sql-tool.js:109-117 | the guard as written accepts a normalised URL exactly when it is non-empty: the `http://`/`https://` comparisons never match |
| Migration.ValidRefusesSchemes | public/js/wp-migration-sql-tool.js:109-117 | the corrected guard refuses exactly the inputs that normalise like empty, `http://` or `https://` |
| Migration.EffectivePrefix | public/js/wp-migration-sql-tool.js:103-107 | the prefix always ends in `_`; empty field gives `wp_`, white-space-only gives `_`, otherwise it agrees with the prefix tools' normalisation |
| Migration.UpdatesShape | public/js/wp-migration-sql-tool.js:31-55 | eight statements, each rewriting a real column of its table; only the first (home/siteurl options) and the last (attachment guids) are restricted |
| Migration.ReplaceCallReads | public/js/wp-migration-sql-tool.js:22-28 | in each `REPLACE(col, 'f', 't')` the two SQL literals, read back with standard quote doubling (MySQL's `NO_BACKSLASH_ESCAPES` mode), are exactly the two URLs |
| Migration.UpdateText | public/js/wp-migration-sql-tool.js:31-55 | each statement starts with `UPDATE p+table SET column = ` and ends with its row restriction and `;` |
| Migration.Statements | public/js/wp-migration-sql-tool.js:31-55 | one statement per update, in order |
| Migration.BuildQueries | public/js/wp-migration-sql-tool.js:26-57 | the text opens with the options update under the prefix and ends with the attachments restriction and a newline |
| Migration.QueriesAt | public/js/wp-migration-sql-tool.js:26-57 | the text is exactly the eight statements in order: each one between the statements before it and a blank line, and a blank line and the statements after it, the last followed by the closing newline |
| Migration.GenerateAsWritten | public/js/wp-migration-sql-tool.js:101-119 | as written, the handler refuses only empty normalised URLs, the source URL first; otherwise the value is the queries for the normalised URLs under the effective prefix |
| Migration.SchemeOnlyAccepted | public/js/wp-migration-sql-tool.js:109 | `http://` as the source URL passes the guard as written, while the corrected handler refuses it |
| Migration.Generate | public/js/wp-migration-sql-tool.js:101-119 | the corrected handler: refuses a source URL that normalises to empty or a bare scheme first, then such a target; otherwise the value is the queries for the two normalised URLs under the effective prefix, opening with the options update and closing with the attachment line |
| Migration.QueriesCall | public/js/wp-migration-sql-tool.js:26-57 | each of the eight statements holds the REPLACE call of its column with the two URLs |
| Migration.GenerateReplaces | public/js/wp-migration-sql-tool.js:101-119 | an accepted request's script holds, for each of the eight columns, the REPLACE call whose literals are the normalised source and target URLs |
| PluginHeader.NormalizeList | public/js/wp-plugin-header-generator.js:11-16 | every item is non-empty, trimmed and comma-free |
| PluginHeader.NormalizeListRoundTrip | public/js/wp-plugin-header-generator.js:11-16 | splitting a `", "`-joined list of such items gives the items back |
| PluginHeader.Listed | public/js/wp-plugin-header-generator.js:36-37 | the listed plugins, plus `woocommerce` exactly when ticked |
| PluginHeader.Required | public/js/wp-plugin-header-generator.js:36-38 | no duplicates, the same members as the listed plugins plus `woocommerce` when ticked, empty exactly when nothing is listed or ticked |
| PluginHeader.RequiredOrder | public/js/wp-plugin-header-generator.js:18-20 | first occurrences keep their relative order |
| PluginHeader.RequiredRoundTrip | public/js/wp-plugin-header-generator.js:36-41 | the rendered `Requires Plugins` value reads back through the list parser as the same list |
| PluginHeader.RequiredJoinEmpty | public/js/wp-plugin-header-generator.js:40-41 | the rendered list is empty exactly when the list is |
| PluginHeader.OptionalCover | public/js/wp-plugin-header-generator.js:28-46 | every header field but the plugin name is optional |
| PluginHeader.OptionalValues | public/js/wp-plugin-header-generator.js:28-46 | an optional line carries exactly its own field's value |
| PluginHeader.FieldPresent | public/js/wp-plugin-header-generator.js:26-46 | a field's line is in the header exactly when its value is non-empty (the name always), with that value |
| PluginHeader.FieldsOrdered | public/js/wp-plugin-header-generator.js:26-46 | the field lines follow WordPress's order, each label at most once |
| PluginHeader.NetworkLine | public/js/wp-plugin-header-generator.js:46 | the network line is present exactly when the field is the string `true` |
| PluginHeader.RequiresLine | public/js/wp-plugin-header-generator.js:36-42 | a `Requires Plugins` line is present exactly when a plugin is listed or WooCommerce is ticked |
| PluginHeader.BuildHeader | public/js/wp-plugin-header-generator.js:22-57 | the header opens with `<?php`, `/**` and the plugin name line, and closes with the ABSPATH guard lines |
| PluginHeader.Clean | public/js/wp-plugin-header-generator.js:129-143 | each of the twelve text fields is the trimmed form field of the same name; the WooCommerce flag is passed through |
| PluginHeader.CleanIdempotent | public/js/wp-plugin-header-generator.js:129-143 | cleaning a cleaned form changes nothing |
| PluginHeader.Generate | public/js/wp-plugin-header-generator.js:124-145 | refused exactly when the trimmed name is blank; otherwise the header opens with the trimmed name and closes with the guard |
| PrefixTool.SignLength | public/js/wp-db-prefix-tool.js:18 | `parseInt` accepts one leading `+` or `-` and no more |
| PrefixTool.ParseIntPrefix | public/js/wp-db-prefix-tool.js:18 | `parseInt` yields a number exactly when a digit follows the optional sign; a `-` makes it non-positive, otherwise it is non-negative; a string of decimal digits reads as its value |
| PrefixTool.ParseIntReads | public/js/wp-db-prefix-tool.js:18 | a sign, a digit run and a tail that does not start with a digit read as the signed value of the run, the tail ignored |
| PrefixTool.SiteId | public/js/wp-db-prefix-tool.js:18-19 | an item yields an ID exactly when `parseInt` of the trimmed item is a positive number, and the ID is that number |
| PrefixTool.SiteIdIgnoresTail | public/js/wp-db-prefix-tool.js:18-19 | `" 7abc"` names site 7: white space is trimmed and trailing text ignored |
| PrefixTool.SiteIdPlus | public/js/wp-db-prefix-tool.js:18-19 | `"+5"` names site 5 |
| PrefixTool.SiteIdNegative | public/js/wp-db-prefix-tool.js:18-19 | `"-3"` names no site |
| PrefixTool.SiteIdZero | public/js/wp-db-prefix-tool.js:18-19 | `"0"` names no site |
| PrefixTool.SiteIdText | public/js/wp-db-prefix-tool.js:18-19 | `"x"` is NaN and names no site |
| PrefixTool.CollectIds | public/js/wp-db-prefix-tool.js:16-19 | at most one ID per item, every ID positive |
| PrefixTool.CollectIdsConcat | public/js/wp-db-prefix-tool.js:16-19 | the IDs of a concatenation of item lists are the IDs of the first list followed by those of the second |
| PrefixTool.CollectIdsOne | public/js/wp-db-prefix-tool.js:16-19 | one item contributes its ID when it names one, and nothing otherwise |
| PrefixTool.CollectIdsMembers | public/js/wp-db-prefix-tool.js:16-19 | an ID is collected exactly when some item names it |
| PrefixTool.ParseSiteIds | public/js/wp-db-prefix-tool.js:13-20 | every ID is positive; blank input gives no IDs |
| PrefixTool.ParseSiteIdsMembers | public/js/wp-db-prefix-tool.js:13-20 | an ID is in the list exactly when the trimmed input is not blank and one of its comma-separated items names it |
| PrefixTool.SiteIdOfNumber | public/js/wp-db-prefix-tool.js:18 | a rendered positive number parses back to itself |
| PrefixTool.CollectRendered | public/js/wp-db-prefix-tool.js:16-19 | rendering positive IDs and collecting them gives the same IDs |
| PrefixTool.ParseSiteIdsRoundTrip | public/js/wp-db-prefix-tool.js:13-20 | a comma-separated list of positive IDs parses back to the same IDs in the same order |
| PrefixTool.Renames | public/js/wp-db-prefix-tool.js:81-93 | one rename per table, `o+t` to `n+t`, in table order |
| PrefixTool.RenamesPaired | public/js/wp-db-prefix-tool.js:65-67 | each rename moves `o+T` to `n+T` for one and the same suffix `T` |
| PrefixTool.MainStatements | public/js/wp-db-prefix-tool.js:81-106 | the main site has 13 statements, plus 38 with WooCommerce |
| PrefixTool.SiteStatements | public/js/wp-db-prefix-tool.js:110-131 | a subsite has 11 statements, plus 38 with WooCommerce |
| PrefixTool.Statements | public/js/wp-db-prefix-tool.js:77-136 | the statement count, and only the main site's statements when not multisite or no IDs |
| PrefixTool.StatementsCount | public/js/wp-db-prefix-tool.js:77-136 | 13 statements for the main site, 11 per subsite, 38 more per site with WooCommerce |
| PrefixTool.BlockAt | public/js/wp-db-prefix-tool.js:110-132 | block `j` of equal-sized blocks laid end to end sits right after the `j` before it |
| PrefixTool.AllSitesBlock | public/js/wp-db-prefix-tool.js:110-132 | subsite `j`'s statements follow the blocks of the sites before it |
| PrefixTool.SiteBlockPlacement | public/js/wp-db-prefix-tool.js:77-136 | subsite `ids[j]`'s statements sit at offset `13 + 38·woo + j·(11 + 38·woo)` of the script |
| PrefixTool.MainPaired | public/js/wp-db-prefix-tool.js:93-106 | every main-site rename moves `o+T` to `n+T`; the user-meta update targets `n+usermeta` |
| PrefixTool.SitePaired | public/js/wp-db-prefix-tool.js:110-131 | every subsite rename moves `o+T` to `n+T`; its user-meta update targets the network table `n+usermeta` |
| PrefixTool.StatementsPaired | public/js/wp-db-prefix-tool.js:77-136 | across the whole script every rename keeps its suffix and every user-meta update targets `n+usermeta` |
| PrefixTool.StatementsOneLine | public/js/wp-db-prefix-tool.js:65-136 | for prefixes without a line break no statement field holds a newline |
| PrefixTool.RenderOneLine | public/js/wp-db-prefix-tool.js:65-75 | a rendered statement is non-empty and holds no newline |
| PrefixTool.BuildSqlLines | public/js/wp-db-prefix-tool.js:77-136 | the script splits at newlines into exactly the rendered statements, one non-empty line each, and the count above |
| PrefixTool.Generate | public/js/wp-db-prefix-tool.js:207-227 | refuses a blank old prefix first, then a blank new one; otherwise the line count of the script for the parsed site IDs |
| CrudGenerator.CleanColumn | public/js/wp-db-crud-generator.js:86-92 | every field of a read column is trimmed |
| CrudGenerator.SlugTrim | public/js/wp-db-crud-generator.js:16-21 | cleaning a value first does not change its slug |
| CrudGenerator.ReadRow | public/js/wp-db-crud-generator.js:80-99 | a row yields at most one column, cleaned, with a slug that is neither empty nor `id` |
| CrudGenerator.ReadColumns | public/js/wp-db-crud-generator.js:76-100 | no more columns than rows, each cleaned and kept by the slug filter |
| CrudGenerator.KeptNames | public/js/wp-db-crud-generator.js:111-115 | the kept slugs are slugs, never empty and never `id` |
| CrudGenerator.KeptNamesConcat | public/js/wp-db-crud-generator.js:111-115 | the slug filter works column by column: filtering a concatenation concatenates the results |
| CrudGenerator.ReadColumnsNames | public/js/wp-db-crud-generator.js:76-100 | reading the table keeps exactly the kept slugs of the editable rows, in order; the locked `id` row contributes nothing |
| CrudGenerator.ReadColumnsKept | public/js/wp-db-crud-generator.js:96-99 | every column read passes the builders' own filter, so they drop nothing more |
| CrudGenerator.UnsignedDecimalIff | public/js/wp-db-crud-generator.js:129 | the number test accepts exactly a digit string, or two digit strings joined by one dot |
| CrudGenerator.DefaultClause | public/js/wp-db-crud-generator.js:121-135 | no clause exactly for an empty default; otherwise the clause starts with ` DEFAULT ` |
| CrudGenerator.DefaultClauseMeaning | public/js/wp-db-crud-generator.js:121-135 | read back as SQL: no clause, NULL for any casing of `null`, an unquoted token for a timestamp or unsigned number, else a string literal whose value, read with standard quote doubling, is exactly the default |
| CrudGenerator.ColumnLineTrimNoop | public/js/wp-db-crud-generator.js:137-146 | the final `.trim()` of a column line removes nothing |
| CrudGenerator.ColumnLine | public/js/wp-db-crud-generator.js:137-146 | a column line is the backticked slug followed by its definition, and reads back as named by that slug |
| CrudGenerator.ColumnLines | public/js/wp-db-crud-generator.js:111-147 | one line per kept column |
| CrudGenerator.ColumnSqlLines | public/js/wp-db-crud-generator.js:105-155 | the primary key line first, one line per kept column, the two timestamp lines last when asked for |
| CrudGenerator.ColumnLinesNames | public/js/wp-db-crud-generator.js:111-147 | the column lines are named by the kept slugs, in input order |
| CrudGenerator.DdlNames | public/js/wp-db-crud-generator.js:105-155 | the DDL defines `id`, the kept slugs, then `created_at` and `updated_at` when asked for, in that order |
| CrudGenerator.AllowedColumns | public/js/wp-db-crud-generator.js:157-181 | the corrected allow-list starts with `id`, has no duplicates, and holds the timestamp columns when asked for |
| CrudGenerator.AllowedMatchesDdl | public/js/wp-db-crud-generator.js:157-181 | the corrected allow-list names exactly the columns the DDL creates |
| CrudGenerator.AllowedColumnsAsWritten | public/js/wp-db-crud-generator.js:171-180 | as written, the de-duplication over a plain object never admits a name inherited from `Object.prototype` |
| CrudGenerator.PrototypeColumnDropped | public/js/wp-db-crud-generator.js:171-180 | a kept column named like an `Object.prototype` member is created by the DDL and in the corrected allow-list, but missing from the list as written |
| CrudGenerator.ConstructorColumnDropped | public/js/wp-db-crud-generator.js:171-180 | a column named `constructor` is such a column |
| CrudGenerator.WithTitle | public/js/wp-db-crud-generator.js:192-194 | `title` is present, and nothing else is added |
| CrudGenerator.ExampleKeys | public/js/wp-db-crud-generator.js:183-197 | at least one key, no duplicates |
| CrudGenerator.ExamplePairs | public/js/wp-db-crud-generator.js:199-206 | one or two pairs |
| CrudGenerator.RenderPayload | public/js/wp-db-crud-generator.js:208 | the payload is a PHP `array( … )` literal |
| CrudGenerator.ExamplePayloadKeys | public/js/wp-db-crud-generator.js:183-208 | the example always sets `title` and always uses the first kept column, if there is one |
| CrudGenerator.TableNameAsWritten | public/js/wp-db-crud-generator.js:587-590 | as written, the default table is a non-empty slug; the slugged table field wins when non-empty |
| CrudGenerator.TableName | public/js/wp-db-crud-generator.js:219 | the table name is a non-empty slug; the slugged table field wins when non-empty |
| CrudGenerator.TableNameDefault | public/js/wp-db-crud-generator.js:219 | with a blank table field the name is `tfd_` + entity slug + `s` |
| CrudGenerator.BlankEntityTable | public/js/wp-db-crud-generator.js:587-590 | an entity field of spaces becomes entity `item`, but the table as written becomes `tfd_s`; the corrected rule gives `tfd_items` |
| CrudGenerator.Describe | public/js/wp-db-crud-generator.js:586-607 | the corrected handler record: REST forces the repository on; entity and table are never empty; the default table follows the entity used; namespace, capability and option key are the trimmed fields or their defaults; the version is `1.0.0`; entity and version constant are the cleaned fields or `item` and `TFD_DBCRUD_VERSION`; the timestamp and charset choices are copied; the columns are exactly the columns read from the editable rows |
| CrudGenerator.DescribeBlankEntity | public/js/wp-db-crud-generator.js:587-590 | with no table given and an entity field of only spaces, the corrected record has entity `item` and table `tfd_items`, where the rule as written gives `tfd_s` |
| CrudGenerator.DescribeAsWritten | public/js/wp-db-crud-generator.js:586-607 | the handler record as written is the corrected record with the table derived from the raw entity field, still a non-empty slug |
| CrudGenerator.DescribeAgrees | public/js/wp-db-crud-generator.js:587-590 | the two records are equal unless the entity field is non-empty white space and the table field slugs to nothing |
| CrudGenerator.ConstPrefix | public/js/wp-db-crud-generator.js:217-243 | the constant prefix is `TFD_DBCRUD_` + upper-cased entity slug; lower-cased it is `tfd_dbcrud_` + the slug |
| CrudGenerator.ColumnEntries | public/js/wp-db-crud-generator.js:221-226 | one array entry per DDL line, in order |
| CrudGenerator.PluginWith | public/js/wp-db-crud-generator.js:214-263 | every value slot of the plugin: name, constant prefix, slug table (the slugged table field when non-empty, else `tfd_` + entity slug + `s`), REST base, trimmed-or-default namespace and capability, the version or `1.0.0` and the option key or `tfd_dbcrud_version` when empty, one column entry per DDL line, payload, and an example URL built from the same namespace and REST base |
| CrudGenerator.BuildPlugin | public/js/wp-db-crud-generator.js:214-246 | the plugin as written carries the allow-list de-duplicated over a plain object, which holds only DDL names and never an `Object.prototype` member name |
| CrudGenerator.BuildPluginCorrected | public/js/wp-db-crud-generator.js:214-246 | the corrected plugin carries the corrected allow-list: `id` first, no duplicates |
| CrudGenerator.CorrectedPluginAllowsDdl | public/js/wp-db-crud-generator.js:219-231 | the corrected plugin's allow-list names exactly the columns its table is created with |
| CrudGenerator.PluginDropsPrototypeColumn | public/js/wp-db-crud-generator.js:219-231 | the plugin as written omits from its allow-list a created column named like an `Object.prototype` member |
| CrudGenerator.PluginStamps | public/js/wp-db-crud-generator.js:253-263 | the plugin built from the form stamps version `1.0.0` and names the option key from the form, or `tfd_dbcrud_version` when that field is blank |
| CrudGenerator.PluginKeepsRecord | public/js/wp-db-crud-generator.js:219-244 | from a normalised record the plugin keeps the table, namespace and capability unchanged, and its example URL uses that namespace |
| CrudGenerator.TypeSqlDefault | public/js/wp-db-crud-generator.js:117 | the column type is the cleaned type field, never empty, and `VARCHAR(255)` exactly when the field is blank or says so |
| CrudGenerator.NullSqlIff | public/js/wp-db-crud-generator.js:118 | the nullability is `NULL` for exactly `YES` and `NOT NULL` for anything else |
| CrudGenerator.ColumnSpecHead | public/js/wp-db-crud-generator.js:137-146 | a column's definition opens with its type and then its nullability |
| RestRoute.EnsureLeadingSlash | public/js/wp-rest-route-generator.js:8-12 | blank exactly when the trimmed route is blank; otherwise starts with `/` and is the trimmed route, with one `/` put in front only when it was missing |
| RestRoute.EnsureLeadingSlashIdempotent | public/js/wp-rest-route-generator.js:8-12 | applying the normalisation to its own result changes nothing |
| RestRoute.MethodToWpConst | public/js/wp-rest-route-generator.js:18-27 | `POST` maps to CREATABLE, `PUT` and `PATCH` to EDITABLE, `DELETE` to DELETABLE, and every other string, unknown ones included, to READABLE, each as an if-and-only-if |
| RestRoute.MethodAccepted | public/js/wp-rest-route-generator.js:18-27 | each of the five HTTP verbs is among the verbs the WordPress constant it maps to accepts |
| RestRoute.PermissionFor | public/js/wp-rest-route-generator.js:29-35 | `public` and `logged_in` select their fixed checks exactly; any other mode checks the cleaned capability, which defaults to `manage_options` and is never blank |
| RestRoute.CapabilityReadBack | public/js/wp-rest-route-generator.js:29-35 | in capability mode the PHP literal given to `current_user_can` reads back as exactly the chosen capability, followed by ` );` |
| RestRoute.CapabilityLine | public/js/wp-rest-route-generator.js:34 | the capability line under any indentation reads back as the capability |
| RestRoute.MatchParam | public/js/wp-rest-route-generator.js:40 | one match of the parameter pattern yields a valid name and pattern, and the input is exactly the rendered `(?P<name>pattern)` followed by the rest |
| RestRoute.MatchRender | public/js/wp-rest-route-generator.js:40 | matching a rendered valid parameter gives back that parameter and the rest unchanged |
| RestRoute.IdentRun | public/js/wp-rest-route-generator.js:40 | the longest leading run of `[a-zA-Z0-9_]` |
| RestRoute.CloseParen | public/js/wp-rest-route-generator.js:40 | the longest leading run without `)` |
| RestRoute.DetectParams | public/js/wp-rest-route-generator.js:38-63 | every parameter found by the global scan has a valid name and pattern |
| RestRoute.DetectLiteral | public/js/wp-rest-route-generator.js:38-63 | text without `(` contributes no parameters |
| RestRoute.DetectRoute | public/js/wp-rest-route-generator.js:38-63 | a route built from literal segments and valid parameters is scanned back to exactly those parameters, in order |
| RestRoute.DetectedArg | public/js/wp-rest-route-generator.js:43-60 | a detected parameter is a required path argument marked as coming from the route, of type `integer` with `absint` exactly when its pattern mentions `\d` or `[0-9]`, otherwise `string` with `sanitize_text_field` |
| RestRoute.DetectPathParams | public/js/wp-rest-route-generator.js:38-63 | one argument per parameter found, in order, each the detected argument of that parameter |
| RestRoute.DetectedNamed | public/js/wp-rest-route-generator.js:43-60 | a detected argument always has a non-blank trimmed name |
| RestRoute.ReadArg | public/js/wp-rest-route-generator.js:370-379 | every field is trimmed, location and type default to `query` and `string`, and required holds exactly when the cell reads `yes` |
| RestRoute.ReadArgs | public/js/wp-rest-route-generator.js:368-381 | reading the table keeps only rows with a non-blank name |
| RestRoute.ReadArgsConcat | public/js/wp-rest-route-generator.js:368-381 | reading two tables one after the other is reading their concatenation |
| RestRoute.ReadArgsMembers | public/js/wp-rest-route-generator.js:368-381 | the read arguments are exactly the named rows, each read from some row |
| RestRoute.RowRoundTrip | public/js/wp-rest-route-generator.js:350-360 | a row created from a well-read argument is read back as that argument, the select cells taken as text (in the form, only values the selects list survive) |
| RestRoute.Missing | public/js/wp-rest-route-generator.js:390-393 | the detected arguments whose names are not yet present, and all of them |
| RestRoute.MergePathParams | public/js/wp-rest-route-generator.js:383-394 | the existing rows stay in place, and every appended row is a path argument from the route whose name was not already in the table |
| RestRoute.MergeDetected | public/js/wp-rest-route-generator.js:383-394 | the same for a given list of detected arguments, returning early when the list is empty |
| RestRoute.Appended | public/js/wp-rest-route-generator.js:390-393 | every appended row is a path row from the route with a new name |
| RestRoute.ReadRowsFor | public/js/wp-rest-route-generator.js:392 | rows created for named arguments are read back as those arguments |
| RestRoute.NamesCover | public/js/wp-rest-route-generator.js:388-393 | after the merge every detected name is either already present or appended |
| RestRoute.NoneMissing | public/js/wp-rest-route-generator.js:391 | when every detected name is present nothing is appended |
| RestRoute.MergeDetectedCovers | public/js/wp-rest-route-generator.js:383-394 | after the merge every detected name is among the names read from the table |
| RestRoute.MergeDetectedNoop | public/js/wp-rest-route-generator.js:391 | merging into a table that already has every detected name leaves it unchanged |
| RestRoute.MergeComplete | public/js/wp-rest-route-generator.js:383-394 | after merging, every parameter of the route names an argument read from the table |
| RestRoute.MergeIdempotent | public/js/wp-rest-route-generator.js:383-394 | merging the same route twice is merging it once |
| RestRoute.ArgItemLines | public/js/wp-rest-route-generator.js:76-84 | two lines, or three when the sanitizer is not blank: the type literal reads back as the type or `string`, then the required flag, then the sanitizer literal reading back as the cleaned sanitizer |
| RestRoute.ArgItem | public/js/wp-rest-route-generator.js:86-90 | the entry starts with the indented key literal, which reads back as the cleaned argument name |
| RestRoute.ArgsToPhpArray | public/js/wp-rest-route-generator.js:65-96 | `array()` exactly when no argument has a name; otherwise an `array(` block closed on the base indentation, which defaults to three tabs |
| RestRoute.PhpArrayEmpty | public/js/wp-rest-route-generator.js:72-93 | the array is `array()` exactly when every argument's cleaned name is blank |
| RestRoute.ReadArgsListed | public/js/wp-rest-route-generator.js:72-74 | every argument read from the table is emitted into the PHP array |
| RestRoute.FunctionName | public/js/wp-rest-route-generator.js:136-144 | starts with `tfd_rest_`, followed by a slug, and holds only lower-case letters, digits and `_` |
| RestRoute.FunctionNameLetters | public/js/wp-rest-route-generator.js:136-144 | the letters and digits of the name after the prefix are those of namespace, route and method, lower-cased, in that order |
| RestRoute.ControllerClassName | public/js/wp-rest-route-generator.js:146-157 | the class name starts with `TFD_REST_` and ends with `_Controller` |
| RestRoute.ControllerWords | public/js/wp-rest-route-generator.js:146-157 | the middle splits at `_` into capitalised words, one per non-empty word of the lower-cased slug and equal to it up to case |
| RestRoute.RestBase | public/js/wp-rest-route-generator.js:221-223 | the guessed base is never empty and holds no `/` |
| RestRoute.RestBaseSegment | public/js/wp-rest-route-generator.js:221-223 | for `/seg/...` the base is `seg` |
| RestRoute.RestBaseItems | public/js/wp-rest-route-generator.js:221-223 | a blank route, `/`, or one starting with `//` falls back to `items` |
| RestRoute.SampleFor | public/js/wp-rest-route-generator.js:119-127 | the sample value is the string `value` exactly when the type, defaulting to `string`, is none of the five other types |
| RestRoute.BodyJsonKeys | public/js/wp-rest-route-generator.js:117-127 | the JSON body has a key exactly for each named body argument, except one named `__proto__`, whose assignment sets the object's prototype instead |
| RestRoute.BodyKeysNamed | public/js/wp-rest-route-generator.js:117-127 | every key of the JSON body comes from a named body argument other than `__proto__` |
| RestRoute.BodyNamesKept | public/js/wp-rest-route-generator.js:117-127 | every named body argument other than `__proto__` is a key of the JSON body |
| RestRoute.BodyProtoDropped | public/js/wp-rest-route-generator.js:118-126 | an argument named `__proto__` never becomes a key of the JSON body |
| RestRoute.BodyLastWins | public/js/wp-rest-route-generator.js:119-127 | when a name repeats, the last body argument with it decides the sample |
| RestRoute.CurlExample | public/js/wp-rest-route-generator.js:98-134 | the verb is upper-cased; `GET` and `DELETE` carry no body, every other verb carries the JSON body of the body arguments |
| RestRoute.BuildCode | public/js/wp-rest-route-generator.js:159-298 | the controller flag picks the template; the WordPress method constant, the function or class name shapes, and the empty-array case agree with the parts above |
| RestRoute.Generate | public/js/wp-rest-route-generator.js:467-496 | refused for a blank namespace, then for a blank route; otherwise the request holds the cleaned namespace, the slash-led route, `GET` and `public` as defaults, the capability field trimmed, and the merged table, whose arguments name every parameter of the route |
| AcfField.SlugHeadAlnum | public/js/wp-acf-field-generator.js:6-11 | a non-empty slug has at least one letter or digit |
| AcfField.DefaultLabelNonEmpty | public/js/wp-acf-field-generator.js:236 | the default label of a valid field name is never empty |
| AcfField.Settings | public/js/wp-acf-field-generator.js:228-245 | refused exactly when the name slugifies to nothing; otherwise the field name is that slug, the label is the cleaned label or the Pascal-cased name and never empty, and category, text domain and version constant fall back to `basic`, `my-plugin` and `MY_PLUGIN_VERSION`; the script, stylesheet, REST and required switches are copied from the form |
| AcfField.IdentAppend | public/js/wp-acf-field-generator.js:21 | identifier characters appended to a PHP identifier keep it an identifier |
| AcfField.ClassPrefixIdent | public/js/wp-acf-field-generator.js:21 | `CFB_Field_` is a PHP identifier |
| AcfField.ClassName | public/js/wp-acf-field-generator.js:21 | a given class name is kept; otherwise the name is a PHP identifier starting with `CFB_Field_` |
| AcfField.ClassNameLetters | public/js/wp-acf-field-generator.js:21 | the default class name carries, after the prefix, exactly the field name's letters and digits up to case |
| AcfField.Supports | public/js/wp-acf-field-generator.js:23-25 | two entries: HTML escaping off, and `required` ending in `true` exactly when the checkbox is set and in `false` exactly when it is not |
| AcfField.PhpHead | public/js/wp-acf-field-generator.js:27-32 | the class line declares the chosen class as an `acf_field` subclass |
| AcfField.Constructor | public/js/wp-acf-field-generator.js:34-50 | the constructor's third line is the label line for the field's label and text domain |
| AcfField.ConstructorHead | public/js/wp-acf-field-generator.js:34-37 | the name, label and category lines, the label line third |
| AcfField.Enqueue | public/js/wp-acf-field-generator.js:79-98 | the script is enqueued exactly when the JS section is asked for and the stylesheet exactly when the CSS section is, each under the field's own asset path |
| AcfField.Register | public/js/wp-acf-field-generator.js:102-103 | the registration line names the class |
| AcfField.DeclaredIsRegistered | public/js/wp-acf-field-generator.js:32-103 | the class the file declares is the class it registers, whatever the methods between them |
| AcfField.Surrounding | public/js/wp-acf-field-generator.js:27-104 | positions in the first and last part of the file carry over to the whole |
| AcfField.LabelBreaksLiteral | public/js/wp-acf-field-generator.js:36 | as written, the label `Don't` is read back by PHP as `Don` followed by stray code |
| AcfField.ReadPlainCons | public/js/wp-acf-field-generator.js:36 | a character that is neither quote nor backslash is read as itself inside a PHP literal |
| AcfField.LabelLineReads | public/js/wp-acf-field-generator.js:36 | escaped, the label line's two literals read back as exactly the label and the text domain |
| AcfField.SectionsConcat | public/js/wp-acf-field-generator.js:142-168 | the files listed by two runs of parts are those of the first then those of the second |
| AcfField.SectionsCons | public/js/wp-acf-field-generator.js:142-168 | one part in front adds its file, if it is one |
| AcfField.SectionsOfParts | public/js/wp-acf-field-generator.js:143-165 | each of the three sections contributes exactly its one file; its banner lines are not files |
| AcfField.SectionFile | public/js/wp-acf-field-generator.js:143-165 | banner lines followed by one generated file list exactly that file |
| AcfField.NoSections | public/js/wp-acf-field-generator.js:143-165 | banner lines alone list no file |
| AcfField.SectionOrder | public/js/wp-acf-field-generator.js:142-168 | the PHP class always comes first, then the script exactly when asked for, then the stylesheet exactly when asked for |
| AcfField.JsBannerIff | public/js/wp-acf-field-generator.js:149-156 | the banner naming the script's file appears exactly when the script does |
| AcfField.BuildBundle | public/js/wp-acf-field-generator.js:142-168 | the bundle, as written (`escape` false) or corrected, opens with the three-line PHP banner |
| AcfField.PlainPhpAgrees | public/js/wp-acf-field-generator.js:35-60 | when the label, category and text domain hold no quote or backslash, the PHP file as written equals the corrected one |
| AcfField.CategoryLineReads | public/js/wp-acf-field-generator.js:37 | escaped, the category line's literal reads back as exactly the category |
| AcfField.Generate | public/js/wp-acf-field-generator.js:225-247 | the handler as written (`escape` false) and the corrected one (`escape` true): refused exactly when the name slugifies to nothing; otherwise the bundle built from the field's settings, opening with the PHP banner |
| AcfField.FormSections | public/js/wp-acf-field-generator.js:225-247 | for any named field, the parts the handler's bundle is rendered from hold the PHP class, then the script exactly when the form asks for one, then the stylesheet exactly when it asks for one |
| Slugs.ReplaceRuns | public/js/wp-acf-field-generator.js:10 | the result holds only characters of the kept class and is no longer than the input |
| Slugs.ReplaceRunsInClass | public/js/wp-acf-field-generator.js:10 | text already inside the class is left unchanged |
| Slugs.ReplaceRunsAlnums | public/js/wp-acf-field-generator.js:10 | replacing runs loses and invents no letter or digit the class keeps: only `_` are inserted |
| Slugs.TrimUnderscores | public/js/wp-acf-field-generator.js:11 | the result neither starts nor ends with `_` and stays inside the character class of its input |
| Slugs.AlnumsTrimUnderscores | public/js/wp-acf-field-generator.js:11 | stripping the `_` at both ends keeps every letter and digit |
| Slugs.Slug | public/js/wp-db-crud-generator.js:16-21 | a slug holds only `[a-z0-9_]` and has no `_` at either end |
| Slugs.SlugOfSlug | public/js/wp-acf-field-generator.js:6-11 | a string that already has the slug shape is its own slug |
| Slugs.SlugIdempotent | public/js/wp-acf-field-generator.js:6-11 | slugifying twice is slugifying once |
| Slugs.SlugAlnums | public/js/wp-db-crud-generator.js:16-21 | the slug keeps exactly the ASCII letters, lower-cased, and digits of its input, in order |
| Slugs.Words | public/js/wp-acf-field-generator.js:15-16 | the pieces kept by `.split("_").filter(Boolean)` are non-empty and hold no `_` |
| Slugs.CapitalizeAll | public/js/wp-db-crud-generator.js:26-28 | one capitalised word per word, in order |
| Slugs.CapitalizeLowerWord | public/js/wp-acf-field-generator.js:17 | capitalising a lower-case word gives a capitalised word that lower-cases back to it |
| Slugs.SlugWordsLower | public/js/wp-acf-field-generator.js:14-16 | the words of a slug are non-empty runs of `[a-z0-9]` |
| Slugs.CapitalWords | public/js/wp-db-crud-generator.js:23-28 | one capitalised word per word of the slug, lower-casing back to that word |
| Slugs.CapitalWordsSplit | public/js/wp-db-crud-generator.js:23-29 | joining the capitalised words with `_` and splitting at `_` gives them back |
| Slugs.PascalWords | public/js/wp-db-crud-generator.js:23-28 | the capitalised words both Pascal forms are built from, one per slug word |
| Slugs.PascalCase | public/js/wp-acf-field-generator.js:13-18 | the ACF Pascal form holds only letters and digits |
| Slugs.PascalCaseLetters | public/js/wp-acf-field-generator.js:13-18 | the ACF Pascal form keeps exactly the letters and digits of its input, up to case |
| Slugs.PascalSplit | public/js/wp-db-crud-generator.js:23-29 | the `_` of the CRUD Pascal form are exactly its word separators |
| Slugs.ConcatWords | public/js/wp-acf-field-generator.js:15-18 | the words of a `[a-z0-9_]` string glued together are its letters and digits |
| Slugs.IdentSlug | public/js/wp-rest-route-generator.js:139-142 | the cleaned identifier has the slug shape |
| Slugs.IdentSlugAlnums | public/js/wp-rest-route-generator.js:139-142 | the cleaned identifier keeps exactly the ASCII letters, lower-cased, and digits of its input |
| Escaping.ReplaceChar | public/js/wp-migration-sql-tool.js:23 | when the replacement lacks the character, the result does too |
| Escaping.ReplaceCharConcat | public/js/wp-migration-sql-tool.js:23 | a global one-character replace acts piecewise on a concatenation |
| Escaping.ReplaceCharAbsent | public/js/wp-migration-sql-tool.js:23 | replacing a character that does not occur changes nothing |
| Escaping.SqlEscapeRoundTrip | public/js/wp-migration-sql-tool.js:22-24 | an escaped value between single quotes is read back by standard SQL (quote doubling, backslash not special) as exactly the value, with what follows the closing quote untouched |
| Escaping.ReadSqlDoubled | public/js/wp-migration-sql-tool.js:22-24 | a doubled quote inside a SQL literal reads as one quote |
| Escaping.ReadSqlPlain | public/js/wp-migration-sql-tool.js:22-24 | any other character inside a SQL literal reads as itself |
| Escaping.SqlEscapeInverse | public/js/wp-migration-sql-tool.js:22-24 | escaping leaves no lone quote, and collapsing the doubled quotes recovers the input |
| Escaping.SqlUnescapeInverse | public/js/wp-migration-sql-tool.js:22-24 | every text without a lone quote is the escape of exactly one value |
| Escaping.PhpStringCons | public/js/wp-db-crud-generator.js:31-33 | the two escaping passes act character by character: backslash to two, quote to backslash-quote |
| Escaping.PhpStringPlain | public/js/wp-db-crud-generator.js:31-33 | text without backslashes or quotes is emitted unchanged |
| Escaping.PhpStringRoundTrip | public/js/wp-db-crud-generator.js:31-33 | PHP reads the emitted single-quoted literal back as exactly the value, whatever follows it |
| Escaping.PhpLiteralAt | public/js/wp-rest-route-generator.js:14-16 | the same for a literal embedded after any text, read from just past its opening quote |
| Lists.Uniq | public/js/wp-plugin-header-generator.js:18-20 | no duplicates, nothing new, nothing lost |
| Lists.UniqPrefix | public/js/wp-plugin-header-generator.js:18-20 | reading more input only appends to the result |
| Lists.UniqHead | public/js/wp-plugin-header-generator.js:18-20 | the first element of the input comes first in the result |
| Lists.UniqAt | public/js/wp-plugin-header-generator.js:18-20 | a first occurrence lands right after everything seen before it |
| Lists.UniqOrder | public/js/wp-plugin-header-generator.js:18-20 | elements keep the relative order of their first occurrences |
| Lists.UniqNoDups | public/js/wp-plugin-header-generator.js:18-20 | a list without duplicates is left as it is |
| Lists.UniqIdempotent | public/js/wp-plugin-header-generator.js:18-20 | de-duplicating twice is de-duplicating once |
| Lists.Filter | public/js/wp-plugin-header-generator.js:15 | the kept elements satisfy the test, come from the input and are no more than it |
| Lists.FilterKeeps | public/js/wp-plugin-header-generator.js:15 | nothing that passes the test is dropped |
| Lists.FilterIncreasing | public/js/wp-plugin-header-generator.js:15 | filtering keeps the order of what it keeps |
| Strings.Trim | public/js/wp-plugin-header-generator.js:7-9 | the trimmed string is no longer than the input and neither starts nor ends with white space |
| Strings.TrimRange | public/js/wp-plugin-header-generator.js:7-9 | only white space lies outside the kept range, and none at its edges |
| Strings.TrimNoop | public/js/wp-plugin-header-generator.js:7-9 | trimming leaves a string alone exactly when it neither starts nor ends with white space |
| Strings.TrimIdempotent | public/js/wp-plugin-header-generator.js:7-9 | trimming twice is trimming once |
| Strings.BlankIffAllSpace | public/js/wp-plugin-header-generator.js:7-9 | a string is blank after cleaning exactly when it is all white space |
| Strings.OrDefault | public/js/wp-acf-field-generator.js:237 | the cleaned value when it is not blank, the fallback otherwise; a non-empty trimmed fallback gives a non-empty trimmed result |
| Strings.Lower | public/js/wp-acf-field-generator.js:9 | same length, each ASCII capital lowered and every other character kept |
| Strings.Upper | public/js/wp-rest-route-generator.js:111 | same length, each ASCII lower-case letter raised and every other character kept |
| Strings.Join | public/js/wp-acf-field-generator.js:167 | a single part joins to itself and no parts to the empty string |
| Strings.JoinConcat | public/js/wp-acf-field-generator.js:167 | joining two non-empty lists is joining their joins with one separator between |
| Strings.Split | public/js/wp-plugin-header-generator.js:13 | splitting gives at least one piece and no piece holds the separator |
| Strings.JoinSplit | public/js/wp-plugin-header-generator.js:13 | splitting and joining back with the same separator gives the string back |
| Strings.SplitJoin | public/js/wp-plugin-header-generator.js:13 | joining pieces without the separator and splitting again gives the pieces back |
| Strings.NonEmpty | public/js/wp-plugin-header-generator.js:15 | the falsy filter keeps exactly the non-empty strings |
| Strings.NatToString | public/js/wp-db-prefix-tool.js:111-112 | the decimal rendering is non-empty, all digits, with no leading zero except for zero itself |
| Strings.NatToStringValue | public/js/wp-db-prefix-tool.js:111-112 | reading back the rendered digits gives the number |

## Left out

- The page plumbing around every generator is left out because it is UI and asynchronous I/O. This covers DOM reads and event wiring, CodeMirror set-up, `alert` messages, toasts, the clipboard and the `__` translation wrapper. Form fields arrive as string parameters. A refusal is an error constructor, not the message text.
- The PHP side of the plugin (shortcode markup, asset enqueueing, hook registration and bootstrap) is not part of this model; it only renders the forms and wires hooks.
- The byte-exact bodies of the large templates are left out. These are `buildSingleFilePluginPhp`, `buildSimpleCode` and `buildControllerCode`. They are modelled by the values placed into them, and the properties are stated about those values.
- The generated PHP's own runtime behaviour, such as pagination and timestamp updates, is emitted text, not logic of this program.
- General JavaScript regular-expression semantics are left out. Each regular expression used is modelled by hand over the characters it matches.
- `toLowerCase` and `toUpperCase` are modelled on ASCII letters only. Unicode case mappings such as the Kelvin sign are left out.
- `Number.isInteger` and `parseInt` are modelled on unbounded naturals: an optional sign, then the leading ASCII digits, with the rest ignored. Precision loss above 2^53 is left out.
- RestRoute.CurlExample: states the verb and the JSON body's keys and sample kinds only. The example URL with path parameters replaced by samples is left out, and so is the `JSON.stringify` layout. The `1.5` sample is a tag, not a floating-point value.
- RestRoute.BuildCode: states the slot values of the template, not its text.
- CrudGenerator.PluginWith: states the values placed into the PHP template, not the template text itself. The escaping of the allow-list names with `phpString` and of the DDL lines' double quotes is stated only as the entry function, not as a read-back.
- AcfField.Generate: states the refusal and the opening banner only; the bundle's contents are stated by AcfField.BuildBundle, AcfField.SectionOrder and AcfField.JsBannerIff.
- AcfField.BuildBundle: states only the opening banner. Which sections the bundle holds, and their order, is stated over its parts by AcfField.SectionOrder and AcfField.JsBannerIff.
- PrefixTool.Generate: states the line count only when neither prefix field holds a line break. A line break inside a prefix would split one statement over several lines.
- The DOM form of the REST argument table is modelled as a sequence of row records. Removing a row is list deletion, which is not modelled separately.
- The migration prefix field modelled as written: a field of spaces gives the prefix `_`, not `wp_` (Migration.EffectivePrefix). Nothing shows this was unintended.
- Escaping.SqlEscapeRoundTrip: the reader is standard SQL quote doubling, which MySQL applies only with `NO_BACKSLASH_ESCAPES`. MySQL's default mode also treats a backslash as an escape: a value `C:\new` would read back with a newline, and a value holding `\'` would close its literal early. The escapers double quotes only, so no round trip is promised for values holding a backslash under MySQL's default mode.
- Migration.ReplaceCallReads: read with standard quote doubling only; MySQL's default backslash escapes are not modelled, for the reason given under Escaping.SqlEscapeRoundTrip.
- CrudGenerator.DefaultClauseMeaning: the string-literal case is read with standard quote doubling only; MySQL's default backslash escapes are not modelled, for the reason given under Escaping.SqlEscapeRoundTrip. The generated clause also passes through a PHP double-quoted string, whose own backslash escapes are not modelled either.
- RestRoute.RowRoundTrip: the location, type and required `<select>` cells are modelled as free text; a value with no matching option, which the form would read back as `""`, is not modelled.
- RestRoute.MergePathParams: modelled as written, a route that names the same parameter twice appends two rows. Only names already in the table are skipped.

## Findings

| source | as written | input that shows it | evidently intended | confidence | as-written member | corrected member |
|---|---|---|---|---|---|---|
| public/js/wp-db-crud-generator.js:171-180 | the allow-list is de-duplicated through a plain object `map = {}`, so `map[name]` is already truthy for names inherited from `Object.prototype` | a column named `constructor` | every column the DDL creates is admitted by the allow-list | not executed | CrudGenerator.PrototypeColumnDropped | CrudGenerator.AllowedMatchesDdl |
| public/js/wp-db-crud-generator.js:587-590 | the default table slugs the raw entity field `entity.value \|\| "item"`, while the entity itself is the cleaned field or `item` | an entity field holding only spaces gives entity `item` but table `tfd_s` | the table follows the entity actually used: `tfd_items` | not executed | CrudGenerator.BlankEntityTable | CrudGenerator.DescribeBlankEntity |
| public/js/wp-migration-sql-tool.js:109-117 | the guard compares the normalised URL with `http://` and `https://`, but normalisation has already stripped trailing slashes | source URL `http://` becomes `http:` and is accepted | a bare scheme is refused like an empty URL | not executed | Migration.SchemeOnlyAccepted | Migration.ValidRefusesSchemes |
| public/js/wp-acf-field-generator.js:36-60 | the label, the category and the text domain are placed inside single-quoted PHP literals without escaping | label `Don't` | these values escaped with `phpString`, as the other generators do | not executed | AcfField.LabelBreaksLiteral | AcfField.LabelLineReads |

=== FILE: acf.dfy ===
/**
 * The ACF field-type generator: from a field name it derives a slug and a class name, and emits a
 * bundle of the PHP field class, optionally the `acf.Field.extend` script and optionally a
 * stylesheet, each under its own banner.
 */
module AcfField {
  import opened Strings
  import opened Lists
  import opened Results
  import opened Escaping
  import opened Slugs

  // ---------------------------------------------------------------------------
  // Settings
  // ---------------------------------------------------------------------------

  /** The form as read by the Generate handler. */
  datatype Form = Form(
    name: string, fieldLabel: string, category: string, className: string, textDomain: string,
    versionConst: string, hasJs: bool, hasCss: bool, showInRest: bool, supportsRequired: bool)

  /** The settings object `d` that the builders receive. */
  datatype Field = Field(
    fieldName: string, fieldLabel: string, category: string, className: string, textDomain: string,
    versionConst: string, hasJs: bool, hasCss: bool, showInRest: bool, supportsRequired: bool)

  datatype AcfError = InvalidFieldName

  /** A non-empty slug starts with a letter or digit. */
  lemma SlugHeadAlnum(s: string)
    requires IsSlug(s) && s != []
    ensures Alnums(s) != []
  {
    assert InClass(s[0], LowerIdent);
  }

  /** The default label, `pascalCase(fieldName)`, of a valid field name is never empty. */
  lemma DefaultLabelNonEmpty(fieldName: string)
    requires IsSlug(fieldName) && fieldName != []
    ensures PascalCase(fieldName) != []
  {
    PascalCaseLetters(fieldName);
    SlugHeadAlnum(fieldName);
    assert |Lower(Alnums(fieldName))| > 0;
  }

  /**
   * The handler: the field name is `slugify(name)` and must be non-empty; the label defaults to
   * `pascalCase(fieldName)`, the category to `basic`, the text domain to `my-plugin` and the version
   * constant to `MY_PLUGIN_VERSION`; the class name is only trimmed.
   */
  function Settings(f: Form): (r: Result<Field, AcfError>)
    ensures r.Err? <==> Slug(f.name) == []
    ensures r.Ok? ==> IsSlug(r.value.fieldName) && r.value.fieldName != []
    ensures r.Ok? ==> r.value.fieldName == Slug(f.name) && r.value.fieldLabel != []
    ensures r.Ok? && Trim(f.fieldLabel) != [] ==> r.value.fieldLabel == Trim(f.fieldLabel)
    ensures r.Ok? && Trim(f.fieldLabel) == [] ==> r.value.fieldLabel == PascalCase(Slug(f.name))
    ensures r.Ok? ==> r.value.category == OrDefault(f.category, "basic")
    ensures r.Ok? ==> r.value.textDomain == OrDefault(f.textDomain, "my-plugin")
    ensures r.Ok? ==> r.value.versionConst == OrDefault(f.versionConst, "MY_PLUGIN_VERSION")
    ensures r.Ok? ==> r.value.className == Trim(f.className)
    ensures r.Ok? ==> r.value.hasJs == f.hasJs && r.value.hasCss == f.hasCss
    ensures r.Ok? ==> r.value.showInRest == f.showInRest && r.value.supportsRequired == f.supportsRequired
  {
    var name := Slug(f.name);
    if name == [] then Err(InvalidFieldName)
    else
      DefaultLabelNonEmpty(name);
      Ok(Field(name, OrDefault(f.fieldLabel, PascalCase(name)), OrDefault(f.category, "basic"),
               Trim(f.className), OrDefault(f.textDomain, "my-plugin"),
               OrDefault(f.versionConst, "MY_PLUGIN_VERSION"),
               f.hasJs, f.hasCss, f.showInRest, f.supportsRequired))
  }

  // ---------------------------------------------------------------------------
  // The class name and the supports list
  // ---------------------------------------------------------------------------

  /** A PHP class name: a letter or `_`, then letters, digits and `_`. */
  predicate IsPhpIdent(s: string) {
    && s != []
    && (IsLowerAscii(s[0]) || IsUpperAscii(s[0]) || s[0] == '_')
    && IdentChars(s)
  }

  predicate IdentChars(s: string) {
    forall i :: 0 <= i < |s| ==> IsAlnum(s[i]) || s[i] == '_'
  }

  /** Identifier characters may follow an identifier. */
  lemma IdentAppend(a: string, b: string)
    requires IsPhpIdent(a) && IdentChars(b)
    ensures IsPhpIdent(a + b)
  {
    forall i | 0 <= i < |a + b| ensures IsAlnum((a + b)[i]) || (a + b)[i] == '_' {
      if i < |a| {
        assert (a + b)[i] == a[i];
      } else {
        assert (a + b)[i] == b[i - |a|];
      }
    }
  }

  const ClassPrefix := "CFB_Field_"

  lemma ClassPrefixIdent()
    ensures IsPhpIdent(ClassPrefix)
  {
    var p := ClassPrefix;
    assert p[0] == 'C' && p[1] == 'F' && p[2] == 'B' && p[3] == '_' && p[4] == 'F';
    assert p[5] == 'i' && p[6] == 'e' && p[7] == 'l' && p[8] == 'd' && p[9] == '_';
    forall i | 0 <= i < |p| ensures IsAlnum(p[i]) || p[i] == '_' {
      assert i < 10;
    }
  }

  /** `d.className || "CFB_Field_" + pascalCase(d.fieldName)`. */
  function ClassName(d: Field): (r: string)
    ensures d.className != [] ==> r == d.className
    ensures d.className == [] ==> IsPhpIdent(r) && StartsWith(r, ClassPrefix)
  {
    if d.className != [] then d.className
    else
      var tail := PascalCase(d.fieldName);
      StartsWithConcat(ClassPrefix, tail);
      ClassPrefixIdent();
      IdentAppend(ClassPrefix, tail);
      ClassPrefix + tail
  }

  /** The default class name carries exactly the field name's letters and digits after the prefix. */
  lemma ClassNameLetters(d: Field)
    requires d.className == []
    ensures Lower(ClassName(d)[|ClassPrefix|..]) == Lower(Alnums(d.fieldName))
  {
    assert ClassName(d)[|ClassPrefix|..] == PascalCase(d.fieldName);
    PascalCaseLetters(d.fieldName);
  }

  function Flag(b: bool): string {
    if b then "true" else "false"
  }

  /** The `supports` entries: HTML escaping off, and `required` as the checkbox says. */
  function Supports(d: Field): (r: seq<string>)
    ensures |r| == 2 && r[0] == "'escaping_html' => false"
    ensures StartsWith(r[1], "'required'      => ")
    ensures EndsWith(r[1], "true") <==> d.supportsRequired
    ensures EndsWith(r[1], "false") <==> !d.supportsRequired
  {
    var head := "'required'      => ";
    StartsWithConcat(head, Flag(d.supportsRequired));
    EndsWithConcat(head, Flag(d.supportsRequired));
    assert !EndsWith(head + "false", "true") by {
      assert (head + "false")[|head| + 1] == 'a';
    }
    assert !EndsWith(head + "true", "false") by {
      assert (head + "true")[|head| - 1] == ' ';
    }
    ["'escaping_html' => false", head + Flag(d.supportsRequired)]
  }

  // ---------------------------------------------------------------------------
  // The PHP class
  // ---------------------------------------------------------------------------

  /**
   * A free-text value placed inside a PHP single-quoted literal: as written it is inserted as it
   * is; escaped, it goes through `phpString` as the other generators do.
   */
  function Quote(escape: bool, s: string): string {
    if escape then PhpString(s) else s
  }

  function PhpHead(cls: string): (r: seq<string>)
    ensures |r| == 7 && r[5] == "class " + cls + " extends acf_field {"
  {
    ["<?php", "if ( ! class_exists( 'acf_field' ) ) {", "\treturn;", "}", "",
     "class " + cls + " extends acf_field {", ""]
  }

  const LabelHead := "\t\t$this->label    = __( '"

  /** The constructor's label line. */
  function LabelLine(escape: bool, text: string, textDomain: string): string {
    LabelHead + Quote(escape, text) + "'" + (", '" + Quote(escape, textDomain) + "' );")
  }

  const CategoryHead := "\t\t$this->category = '"

  /** The constructor's category line. */
  function CategoryLine(escape: bool, category: string): string {
    CategoryHead + Quote(escape, category) + "'" + ";"
  }

  /** The constructor: the field's name, label and category, then its defaults and supports. */
  function Constructor(d: Field, escape: bool): (r: seq<string>)
    ensures |r| > 2 && r[2] == LabelLine(escape, d.fieldLabel, d.textDomain)
  {
    ConstructorHead(d, escape) + ConstructorBody(d)
  }

  function ConstructorHead(d: Field, escape: bool): (r: seq<string>)
    ensures |r| == 4 && r[2] == LabelLine(escape, d.fieldLabel, d.textDomain)
  {
    ["\tpublic function __construct() {",
     "\t\t$this->name     = '" + d.fieldName + "';",
     LabelLine(escape, d.fieldLabel, d.textDomain),
     CategoryLine(escape, d.category)]
  }

  function ConstructorBody(d: Field): seq<string> {
    ["",
     "\t\t$this->defaults = array(",
     "\t\t\t'placeholder' => '',",
     "\t\t);",
     "",
     "\t\t$this->supports = array(",
     "\t\t\t" + Join(Supports(d), ",\n\t\t\t"),
     "\t\t);",
     "",
     "\t\t$this->show_in_rest = " + Flag(d.showInRest) + ";",
     "",
     "\t\tparent::__construct();",
     "\t}",
     ""]
  }

  function FieldSettings(textDomain: string, escape: bool): seq<string> {
    ["\tpublic function render_field_settings( $field ) : void {",
     "",
     "\t\tacf_render_field_setting(",
     "\t\t\t$field,",
     "\t\t\tarray(",
     "\t\t\t\t'label'        => __( 'Placeholder', '" + Quote(escape, textDomain) + "' ),",
     "\t\t\t\t'name'         => 'placeholder',",
     "\t\t\t\t'type'         => 'text',",
     "\t\t\t\t'placeholder'  => __( 'Type something\U{2026}', '" + Quote(escape, textDomain) + "' ),",
     "\t\t\t)",
     "\t\t);",
     "",
     "\t}",
     ""]
  }

  function RenderField(fieldName: string): seq<string> {
    ["\tpublic function render_field( $field ) : void {",
     "",
     "\t\t$placeholder = isset( $field['placeholder'] ) ? (string) $field['placeholder'] : '';",
     "",
     "\t\tprintf(",
     "\t\t\t'<input type=\"text\" class=\"%s\" name=\"%s\" value=\"%s\" placeholder=\"%s\" />',",
     "\t\t\tesc_attr( 'acf-" + fieldName + "-input' ),",
     "\t\t\tesc_attr( $field['name'] ),",
     "\t\t\tesc_attr( (string) $field['value'] ),",
     "\t\t\tesc_attr( $placeholder )",
     "\t\t);",
     "\t}",
     ""]
  }

  function JsPath(fieldName: string): string {
    "assets/js/acf-" + fieldName + ".js"
  }

  function CssPath(fieldName: string): string {
    "assets/css/acf-" + fieldName + ".css"
  }

  function ScriptCall(fieldName: string): string {
    Join(["wp_enqueue_script(",
          "\t\t\t'acf-" + fieldName + "',",
          "\t\t\tplugin_dir_url( __FILE__ ) . '" + JsPath(fieldName) + "',",
          "\t\t\tarray( 'acf-input' ),",
          "\t\t\t$version,",
          "\t\t\ttrue",
          "\t\t);"], "\n")
  }

  function StyleCall(fieldName: string): string {
    Join(["wp_enqueue_style(",
          "\t\t\t'acf-" + fieldName + "',",
          "\t\t\tplugin_dir_url( __FILE__ ) . '" + CssPath(fieldName) + "',",
          "\t\t\tarray(),",
          "\t\t\t$version",
          "\t\t);"], "\n")
  }

  /** The enqueue method: the script only with the JS section, the style only with the CSS section. */
  function Enqueue(d: Field): (r: seq<string>)
    ensures |r| == 12
    ensures r[4] == "\t\t" + (if d.hasJs then ScriptCall(d.fieldName) else "")
    ensures r[6] == "\t\t" + (if d.hasCss then StyleCall(d.fieldName) else "")
  {
    var vc := d.versionConst;
    ["\tpublic function input_admin_enqueue_scripts() : void {",
     "",
     "\t\t$version = defined( '" + vc + "' ) ? " + vc + " : '1.0.0';",
     "",
     "\t\t" + (if d.hasJs then ScriptCall(d.fieldName) else ""),
     "",
     "\t\t" + (if d.hasCss then StyleCall(d.fieldName) else ""),
     "",
     "\t}",
     "",
     "}",
     ""]
  }

  function Register(cls: string): (r: seq<string>)
    ensures |r| == 3 && r[1] == "acf_register_field_type( '" + cls + "' );"
  {
    ["// Register.", "acf_register_field_type( '" + cls + "' );", ""]
  }

  /** The lines of `buildPhp(d)`. */
  function PhpLines(d: Field, escape: bool): seq<string> {
    PhpFile(ClassName(d), PhpMembers(d, escape))
  }

  /** The file around the class's methods: the class line first, the registration last. */
  function PhpFile(cls: string, members: seq<string>): seq<string> {
    PhpHead(cls) + members + Register(cls)
  }

  /** The class's methods, between the class line and the registration. */
  function PhpMembers(d: Field, escape: bool): seq<string> {
    Constructor(d, escape) + FieldSettings(d.textDomain, escape) + RenderField(d.fieldName) + Enqueue(d)
  }

  /**
   * The class the file declares (line 5) is the class it registers (the line before the last),
   * whatever the methods between them.
   */
  lemma DeclaredIsRegistered(cls: string, members: seq<string>)
    ensures var r := PhpFile(cls, members);
      && |r| > 7
      && r[5] == "class " + cls + " extends acf_field {"
      && r[|r| - 2] == "acf_register_field_type( '" + cls + "' );"
  {
    Surrounding(PhpHead(cls), members, Register(cls), 5, 1);
  }

  /** Positions in the first and the last part carry over to the whole. */
  lemma Surrounding<T>(a: seq<T>, b: seq<T>, c: seq<T>, i: nat, j: nat)
    requires i < |a| && j < |c|
    ensures (a + b + c)[i] == a[i] && (a + b + c)[|a| + |b| + j] == c[j]
  {
  }

  /**
   * `buildPhp(d)`: as written (`escape` false) the free-text values go into their PHP literals as
   * they are; corrected (`escape` true) they go through `phpString` first.
   */
  function BuildPhp(d: Field, escape: bool): string {
    Join(PhpLines(d, escape), "\n")
  }

  /**
   * As written, a label with an apostrophe closes its PHP literal early: `Don't` is read back by
   * PHP as `Don` followed by stray code.
   */
  lemma LabelBreaksLiteral()
    ensures var line := LabelLine(false, "Don't", "my-plugin");
      ReadPhpQuoted(line[|LabelHead|..]) == Some(("Don", "t'" + ", 'my-plugin' );"))
  {
    var line := LabelLine(false, "Don't", "my-plugin");
    var r := "t'" + ", 'my-plugin' );";
    assert line[|LabelHead|..] == "Don'" + r;
    assert ReadPhpQuoted("'" + r) == Some(([], r));
    var s1 := "'" + r;
    ReadPlainCons('n', s1, [], r);
    assert ['n'] + [] == "n";
    var s2 := ['n'] + s1;
    ReadPlainCons('o', s2, "n", r);
    assert ['o'] + "n" == "on";
    var s3 := ['o'] + s2;
    ReadPlainCons('D', s3, "on", r);
    assert ['D'] + "on" == "Don";
    assert ['D'] + s3 == "Don'" + r;
  }

  /** A character that is neither a quote nor a backslash is read as itself. */
  lemma ReadPlainCons(c: char, s: string, v: string, rest: string)
    requires c != '\'' && c != '\\' && ReadPhpQuoted(s) == Some((v, rest))
    ensures ReadPhpQuoted([c] + s) == Some(([c] + v, rest))
  {
    assert ([c] + s)[1..] == s;
  }

  /** Escaped, the label line's two literals read back as exactly the label and the text domain. */
  lemma LabelLineReads(text: string, textDomain: string)
    ensures var line := LabelLine(true, text, textDomain);
      var after := ", '" + PhpString(textDomain) + "' );";
      && StartsWith(line, LabelHead)
      && ReadPhpQuoted(line[|LabelHead|..]) == Some((text, after))
      && ReadPhpQuoted(after[3..]) == Some((textDomain, " );"))
  {
    var after := ", '" + PhpString(textDomain) + "' );";
    PhpLiteralAt(LabelHead, text, after);
    assert after[3..] == PhpString(textDomain) + "'" + " );";
    PhpStringRoundTrip(textDomain, " );");
  }

  /** Escaped, the category line's literal reads back as exactly the category. */
  lemma CategoryLineReads(category: string)
    ensures var line := CategoryLine(true, category);
      && StartsWith(line, CategoryHead)
      && ReadPhpQuoted(line[|CategoryHead|..]) == Some((category, ";"))
  {
    PhpLiteralAt(CategoryHead, category, ";");
  }

  // ---------------------------------------------------------------------------
  // The script and the stylesheet
  // ---------------------------------------------------------------------------

  /** `buildJs(d)`. */
  function JsCode(fieldName: string): string {
    Join(["(function($){",
          "\t\"use strict\";",
          "",
          "\tif ( typeof acf === \"undefined\" ) {",
          "\t\treturn;",
          "\t}",
          "",
          "\tvar Field = acf.Field.extend({",
          "\t\ttype: \"" + fieldName + "\",",
          "",
          "\t\tevents: {",
          "\t\t\t\"input .acf-" + fieldName + "-input\": \"onChange\"",
          "\t\t},",
          "",
          "\t\tonChange: function(e){",
          "\t\t\t// Example: you can validate or transform input here.",
          "\t\t\t// console.log(\"Value:\", this.$(\".acf-" + fieldName + "-input\").val());",
          "\t\t}",
          "\t});",
          "",
          "\tacf.registerFieldType(Field);",
          "",
          "})(jQuery);",
          ""], "\n")
  }

  /** `buildCss(d)`. */
  function CssCode(fieldName: string): string {
    Join([".acf-" + fieldName + "-input{", "\twidth: 100%;", "\tmax-width: 100%;", "}", ""], "\n")
  }

  // ---------------------------------------------------------------------------
  // The bundle
  // ---------------------------------------------------------------------------

  datatype Section = Php | Js | Css

  /** One entry of `parts`: a banner or blank line, or a generated file. */
  datatype Part = Text(line: string) | Code(section: Section)

  const Rule := "/* ==============================="
  const RuleEnd := " * =============================== */"

  function JsBanner(fieldName: string): string {
    " * File: " + JsPath(fieldName)
  }

  function CssBanner(fieldName: string): string {
    " * File: " + CssPath(fieldName)
  }

  const PhpParts: seq<Part> := [Text(Rule), Text(" * PHP: Field Class"), Text(RuleEnd), Code(Php)]

  function JsParts(fieldName: string): seq<Part> {
    [Text(""), Text(Rule), Text(" * JS: acf.Field.extend"), Text(JsBanner(fieldName)), Text(RuleEnd), Code(Js)]
  }

  function CssParts(fieldName: string): seq<Part> {
    [Text(""), Text(Rule), Text(" * CSS: Field Styles"), Text(CssBanner(fieldName)), Text(RuleEnd), Code(Css)]
  }

  /** The parts of `buildBundle(d)`, in order. */
  function Parts(d: Field): seq<Part> {
    PhpParts
    + (if d.hasJs then JsParts(d.fieldName) else [])
    + (if d.hasCss then CssParts(d.fieldName) else [])
  }

  /** The generated files among the parts, in order. */
  function Sections(ps: seq<Part>): seq<Section> {
    if ps == [] then []
    else (if ps[0].Code? then [ps[0].section] else []) + Sections(ps[1..])
  }

  lemma {:induction false} SectionsConcat(a: seq<Part>, b: seq<Part>)
    ensures Sections(a + b) == Sections(a) + Sections(b)
    decreases |a|
  {
    if a == [] {
      assert a + b == b;
    } else {
      assert (a + b)[0] == a[0] && (a + b)[1..] == a[1..] + b;
      SectionsConcat(a[1..], b);
      var h := if a[0].Code? then [a[0].section] else [];
      assert Sections(a + b) == h + (Sections(a[1..]) + Sections(b));
      assert Sections(a) == h + Sections(a[1..]);
    }
  }

  lemma SectionsCons(p: Part, rest: seq<Part>)
    ensures Sections([p] + rest) == (if p.Code? then [p.section] else []) + Sections(rest)
  {
    assert ([p] + rest)[1..] == rest;
  }

  /** The banner lines of a section are not files: each section contributes exactly its one file. */
  lemma SectionsOfParts(fieldName: string)
    ensures Sections(PhpParts) == [Php]
    ensures Sections(JsParts(fieldName)) == [Js]
    ensures Sections(CssParts(fieldName)) == [Css]
  {
    var banner := [Text(Rule), Text(" * PHP: Field Class"), Text(RuleEnd)];
    SectionFile(banner, Php);
    assert PhpParts == banner + [Code(Php)];
    var js := [Text(""), Text(Rule), Text(" * JS: acf.Field.extend"), Text(JsBanner(fieldName)), Text(RuleEnd)];
    SectionFile(js, Js);
    assert JsParts(fieldName) == js + [Code(Js)];
    var css := [Text(""), Text(Rule), Text(" * CSS: Field Styles"), Text(CssBanner(fieldName)), Text(RuleEnd)];
    SectionFile(css, Css);
    assert CssParts(fieldName) == css + [Code(Css)];
  }

  /** Banner lines followed by one code part list exactly that part's section. */
  lemma SectionFile(ts: seq<Part>, s: Section)
    requires forall k :: 0 <= k < |ts| ==> ts[k].Text?
    ensures Sections(ts + [Code(s)]) == [s]
  {
    NoSections(ts);
    SectionsConcat(ts, [Code(s)]);
    SectionsCons(Code(s), []);
    assert [Code(s)] + [] == [Code(s)];
  }

  lemma {:induction false} NoSections(ts: seq<Part>)
    requires forall k :: 0 <= k < |ts| ==> ts[k].Text?
    ensures Sections(ts) == []
    decreases |ts|
  {
    if ts != [] {
      assert ts[0].Text?;
      NoSections(ts[1..]);
    }
  }

  /** The PHP class always comes first, then the script iff asked for, then the stylesheet iff asked for. */
  lemma SectionOrder(d: Field)
    ensures Sections(Parts(d)) ==
      [Php] + (if d.hasJs then [Js] else []) + (if d.hasCss then [Css] else [])
  {
    var js := if d.hasJs then JsParts(d.fieldName) else [];
    var css := if d.hasCss then CssParts(d.fieldName) else [];
    SectionsConcat(PhpParts + js, css);
    SectionsConcat(PhpParts, js);
    SectionsOfParts(d.fieldName);
  }

  /** The banner naming the script's file appears exactly when the script does. */
  lemma JsBannerIff(d: Field)
    ensures Text(JsBanner(d.fieldName)) in Parts(d) <==> d.hasJs
  {
    var b := JsBanner(d.fieldName);
    var c := CssBanner(d.fieldName);
    assert b[9 + 7] == 'j' && c[9 + 7] == 'c';
    assert b != c;
    assert b != Rule && b != RuleEnd && b != "" by {
      assert b[1] == '*' && Rule[1] == '*' && b[3] == 'F' && Rule[3] == '=' && RuleEnd[3] == '=';
    }
    assert b != " * PHP: Field Class" && b != " * JS: acf.Field.extend" && b != " * CSS: Field Styles" by {
      assert b[3] == 'F';
    }
    var js := if d.hasJs then JsParts(d.fieldName) else [];
    var css := if d.hasCss then CssParts(d.fieldName) else [];
    assert Parts(d) == PhpParts + js + css;
    if d.hasJs {
      assert JsParts(d.fieldName)[3] == Text(b);
      assert Parts(d)[|PhpParts| + 3] == Text(b);
    }
  }

  /** A part's text: a banner line as it is, a section as its generated code. */
  function RenderPart(d: Field, escape: bool, p: Part): string {
    match p
    case Text(line) => line
    case Code(Php) => BuildPhp(d, escape)
    case Code(Js) => JsCode(d.fieldName)
    case Code(Css) => CssCode(d.fieldName)
  }

  /** The bundle's lines: each part rendered in turn. */
  function BundleLines(d: Field, escape: bool): (r: seq<string>)
    ensures |r| == |Parts(d)|
  {
    MapSeq((p: Part) => RenderPart(d, escape, p), Parts(d))
  }

  /**
   * `buildBundle(d)`: the parts joined by newlines, opening with the PHP banner. The source's
   * bundle is `escape` false; `escape` true is the corrected one, whose PHP escapes its literals.
   */
  function BuildBundle(d: Field, escape: bool): (r: string)
    ensures StartsWith(r, Rule + "\n" + (" * PHP: Field Class" + "\n" + RuleEnd))
  {
    var lines := BundleLines(d, escape);
    assert lines[..3] == [Rule, " * PHP: Field Class", RuleEnd];
    assert lines == [Rule, " * PHP: Field Class"] + lines[2..];
    JoinOpens(Rule, " * PHP: Field Class", lines[2..], "\n");
    Join(lines, "\n")
  }

  /** The values the PHP literals carry hold neither a quote nor a backslash. */
  predicate PlainText(d: Field) {
    '\'' !in d.fieldLabel && '\\' !in d.fieldLabel
    && '\'' !in d.category && '\\' !in d.category
    && '\'' !in d.textDomain && '\\' !in d.textDomain
  }

  /** Escaping changes nothing when no literal holds a quote or a backslash: both PHP files agree. */
  lemma PlainPhpAgrees(d: Field)
    requires PlainText(d)
    ensures BuildPhp(d, false) == BuildPhp(d, true)
  {
    PhpStringPlain(d.fieldLabel);
    PhpStringPlain(d.category);
    PhpStringPlain(d.textDomain);
    assert Quote(false, d.fieldLabel) == Quote(true, d.fieldLabel);
    assert Quote(false, d.category) == Quote(true, d.category);
    assert Quote(false, d.textDomain) == Quote(true, d.textDomain);
    assert ConstructorHead(d, false) == ConstructorHead(d, true);
    assert FieldSettings(d.textDomain, false) == FieldSettings(d.textDomain, true);
  }

  /**
   * The Generate handler: refused when the name slugifies to nothing; otherwise the bundle for
   * the settings derived from the form. The source's handler is `escape` false, whose PHP
   * literals carry the label, category and text domain unescaped; `escape` true is the corrected
   * handler.
   */
  function Generate(f: Form, escape: bool): (r: Result<string, AcfError>)
    ensures r.Err? <==> Slug(f.name) == []
    ensures r.Ok? ==> StartsWith(r.value, Rule + "\n" + (" * PHP: Field Class" + "\n" + RuleEnd))
    ensures r.Ok? ==> Settings(f).Ok? && r.value == BuildBundle(Settings(f).value, escape)
  {
    match Settings(f)
    case Err(e) => Err(e)
    case Ok(d) => Ok(BuildBundle(d, escape))
  }

  /**
   * For an accepted form the bundle holds the PHP class, then the script exactly when the form
   * asks for it, then the stylesheet exactly when the form asks for it.
   */
  lemma FormSections(f: Form)
    requires Slug(f.name) != []
    ensures Settings(f).Ok?
    ensures Sections(Parts(Settings(f).value)) ==
      [Php] + (if f.hasJs then [Js] else []) + (if f.hasCss then [Css] else [])
  {
    SectionOrder(Settings(f).value);
  }
}

=== FILE: crud.dfy ===
/**
 * The DB CRUD generator: from a table of user-defined columns it emits one PHP plugin file
 * holding the `CREATE TABLE` column list, a repository whose writes are filtered through an
 * allow-list of column names, and usage examples.
 *
 * The column pipeline is modelled exactly: reading the table (`readColumns`), the DDL lines
 * (`buildColumnSqlLines`) with their three-way DEFAULT rule, the allow-list
 * (`buildAllowedColumns`) and the example payload (`buildExamplePayload`). The emitted PHP
 * around them is modelled by the values placed into it: the constant prefix, the table
 * name and the form defaults.
 */
module CrudGenerator {
  import opened Strings
  import opened Lists
  import opened Slugs
  import opened Escaping
  import opened Results

  /** One row of the columns table, as typed: name, SQL type, NULL (`YES`/`NO`), default, extra. */
  datatype Column = Column(name: string, sqlType: string, nullable: string, defaultValue: string, extra: string)

  /** A row of the table; the locked `id` row belongs to the generator and is never read as a column. */
  datatype Row = Row(locked: bool, column: Column)

  // ---------------------------------------------------------------------------
  // Reading the columns table
  // ---------------------------------------------------------------------------

  /** Every field as `clean` leaves it: trimming it again would change nothing. */
  predicate IsClean(c: Column) {
    Trimmed(c.name) && Trimmed(c.sqlType) && Trimmed(c.nullable) && Trimmed(c.defaultValue) && Trimmed(c.extra)
  }

  /** Every field passed through `clean`. */
  function CleanColumn(c: Column): (r: Column)
    ensures IsClean(r)
  {
    Column(Trim(c.name), Trim(c.sqlType), Trim(c.nullable), Trim(c.defaultValue), Trim(c.extra))
  }

  /** `!!n && n !== "id"` for `n = slug(name)`: the test every stage of the pipeline applies. */
  predicate Kept(c: Column) {
    Slug(c.name) != [] && Slug(c.name) != "id"
  }

  /** Cleaning a value first does not change its slug, since `slug` trims anyway. */
  lemma SlugTrim(v: string)
    ensures Slug(Trim(v)) == Slug(v)
  {
    TrimIdempotent(v);
  }

  /** The columns of the non-locked rows, in table order. */
  function UserColumns(rows: seq<Row>): (r: seq<Column>)
    ensures |r| <= |rows|
  {
    if |rows| == 0 then []
    else UserColumns(rows[..|rows| - 1]) + (if rows[|rows| - 1].locked then [] else [rows[|rows| - 1].column])
  }

  /** A column as `readColumns` returns it: cleaned, and kept by the slug filter. */
  predicate Readable(c: Column) {
    Kept(c) && IsClean(c)
  }

  /** What `readColumns` takes from one row: its cleaned column, unless the row is locked or the slug is empty or `id`. */
  function ReadRow(row: Row): (r: seq<Column>)
    ensures |r| <= 1
    ensures All(Readable, r)
  {
    if !row.locked && Kept(CleanColumn(row.column)) then [CleanColumn(row.column)] else []
  }

  /** `readColumns`: clean every non-locked row, then drop those whose slug is empty or `id`. */
  function ReadColumns(rows: seq<Row>): (r: seq<Column>)
    ensures |r| <= |rows|
    ensures All(Readable, r)
  {
    if |rows| == 0 then []
    else
      var prev, last := ReadColumns(rows[..|rows| - 1]), ReadRow(rows[|rows| - 1]);
      AllConcat(Readable, prev, last);
      prev + last
  }

  /** The slug of every column name, in order. */
  function NameSlugs(cols: seq<Column>): (r: seq<string>)
    ensures |r| == |cols|
  {
    MapSeq((c: Column) => Slug(c.name), cols)
  }

  lemma NameSlugsConcat(a: seq<Column>, b: seq<Column>)
    ensures NameSlugs(a + b) == NameSlugs(a) + NameSlugs(b)
  {
    MapSeqConcat((c: Column) => Slug(c.name), a, b);
  }

  /** The filter every stage applies to a slug. */
  predicate KeptSlug(n: string) {
    n != [] && n != "id"
  }

  /** The slugs that pass the filter, in order and with repetitions. */
  function KeptSlugs(ns: seq<string>): (r: seq<string>)
    ensures |r| <= |ns|
    ensures forall k :: 0 <= k < |r| ==> r[k] in ns && KeptSlug(r[k])
  {
    if |ns| == 0 then []
    else KeptSlugs(ns[..|ns| - 1]) + (if KeptSlug(ns[|ns| - 1]) then [ns[|ns| - 1]] else [])
  }

  lemma KeptSlugsSnoc(ns: seq<string>, n: string)
    ensures KeptSlugs(ns + [n]) == KeptSlugs(ns) + (if KeptSlug(n) then [n] else [])
  {
    assert (ns + [n])[..|ns|] == ns;
  }

  lemma {:induction false} KeptSlugsConcat(a: seq<string>, b: seq<string>)
    ensures KeptSlugs(a + b) == KeptSlugs(a) + KeptSlugs(b)
    decreases |b|
  {
    if |b| == 0 {
      assert a + b == a;
    } else {
      var init, last := b[..|b| - 1], b[|b| - 1];
      KeptSlugsConcat(a, init);
      assert b == init + [last];
      assert a + b == (a + init) + [last];
      var x := if KeptSlug(last) then [last] else [];
      KeptSlugsSnoc(a + init, last);
      KeptSlugsSnoc(init, last);
      var ka, ki := KeptSlugs(a), KeptSlugs(init);
      assert KeptSlugs(a + b) == ka + ki + x;
      assert ka + ki + x == ka + (ki + x);
    }
  }

  /** When every slug passes the filter, nothing is dropped. */
  lemma {:induction false} KeptSlugsAll(ns: seq<string>)
    requires forall k :: 0 <= k < |ns| ==> KeptSlug(ns[k])
    ensures KeptSlugs(ns) == ns
  {
    if |ns| > 0 {
      KeptSlugsAll(ns[..|ns| - 1]);
      assert ns == ns[..|ns| - 1] + [ns[|ns| - 1]];
    }
  }

  /** The slugs of the kept columns, in input order and with repetitions: what every stage lists. */
  function KeptNames(cols: seq<Column>): (r: seq<string>)
    ensures |r| <= |cols|
    ensures forall k :: 0 <= k < |r| ==> IsSlug(r[k]) && r[k] != [] && r[k] != "id"
  {
    KeptSlugs(NameSlugs(cols))
  }

  /** One more column adds its slug exactly when it passes the filter. */
  lemma KeptNamesSnoc(xs: seq<Column>, x: Column)
    ensures KeptNames(xs + [x]) == KeptNames(xs) + (if Kept(x) then [Slug(x.name)] else [])
  {
    NameSlugsConcat(xs, [x]);
    KeptSlugsSnoc(NameSlugs(xs), Slug(x.name));
  }

  lemma KeptNamesLast(cols: seq<Column>)
    requires |cols| > 0
    ensures var x := cols[|cols| - 1];
      KeptNames(cols) == KeptNames(cols[..|cols| - 1]) + (if Kept(x) then [Slug(x.name)] else [])
  {
    assert cols == cols[..|cols| - 1] + [cols[|cols| - 1]];
    KeptNamesSnoc(cols[..|cols| - 1], cols[|cols| - 1]);
  }

  lemma KeptNamesConcat(a: seq<Column>, b: seq<Column>)
    ensures KeptNames(a + b) == KeptNames(a) + KeptNames(b)
  {
    NameSlugsConcat(a, b);
    KeptSlugsConcat(NameSlugs(a), NameSlugs(b));
  }

  /** When every column passes the filter, each contributes its slug. */
  lemma KeptNamesAll(cols: seq<Column>)
    requires forall k :: 0 <= k < |cols| ==> Kept(cols[k])
    ensures KeptNames(cols) == NameSlugs(cols)
  {
    KeptSlugsAll(NameSlugs(cols));
  }

  /** Cleaning a row never changes whether it is kept, nor the slug it contributes. */
  lemma KeptNamesRow(row: Row)
    ensures KeptNames(ReadRow(row)) == KeptNames(if row.locked then [] else [row.column])
  {
    SlugTrim(row.column.name);
    KeptNamesSnoc([], row.column);
    KeptNamesSnoc([], CleanColumn(row.column));
    assert [] + [row.column] == [row.column];
    assert [] + [CleanColumn(row.column)] == [CleanColumn(row.column)];
  }

  /**
   * Reading loses no column the later stages would keep, and keeps no other: the kept names
   * of what `readColumns` returns are those of the table's editable rows, in order.
   */
  lemma {:induction false} ReadColumnsNames(rows: seq<Row>)
    ensures KeptNames(ReadColumns(rows)) == KeptNames(UserColumns(rows))
  {
    if |rows| > 0 {
      var init := rows[..|rows| - 1];
      var row := rows[|rows| - 1];
      ReadColumnsNames(init);
      KeptNamesConcat(ReadColumns(init), ReadRow(row));
      KeptNamesConcat(UserColumns(init), if row.locked then [] else [row.column]);
      KeptNamesRow(row);
    }
  }

  /** Every column read is kept, so the builders that filter again drop nothing more. */
  lemma ReadColumnsKept(rows: seq<Row>)
    ensures KeptNames(ReadColumns(rows)) == NameSlugs(ReadColumns(rows))
  {
    KeptNamesAll(ReadColumns(rows));
  }

  // ---------------------------------------------------------------------------
  // The DEFAULT clause
  // ---------------------------------------------------------------------------

  /** `/^\d+(\.\d+)?$/`: digits, optionally a dot and more digits; no sign, no exponent. */
  predicate IsUnsignedDecimal(s: string) {
    var k := DigitRunEnd(s, 0);
    k > 0 && (k == |s| || (s[k] == '.' && k + 1 < |s| && AllDigits(s[k + 1..])))
  }

  /** The regular expression read declaratively: a digit string, or two joined by one dot. */
  lemma UnsignedDecimalIff(s: string)
    ensures IsUnsignedDecimal(s) <==>
      (s != [] && AllDigits(s)) ||
      (exists p :: 0 < p < |s| - 1 && s[p] == '.' && AllDigits(s[..p]) && AllDigits(s[p + 1..]))
  {
    var k := DigitRunEnd(s, 0);
    if IsUnsignedDecimal(s) && k < |s| {
      assert AllDigits(s[..k]);
    }
    if exists p :: 0 < p < |s| - 1 && s[p] == '.' && AllDigits(s[..p]) && AllDigits(s[p + 1..]) {
      var p :| 0 < p < |s| - 1 && s[p] == '.' && AllDigits(s[..p]) && AllDigits(s[p + 1..]);
      assert forall j :: 0 <= j < p ==> s[..p][j] == s[j];
      assert k == p;
    }
  }

  /** `/^CURRENT_TIMESTAMP/i`: ASCII case-insensitive prefix (the `i` flag folds no other character onto ASCII). */
  predicate StartsWithCurrentTimestamp(s: string) {
    |s| >= 17 && Upper(s[..17]) == "CURRENT_TIMESTAMP"
  }

  /** How a (cleaned) default value is rendered, decided in the order the source tests. */
  datatype DefaultKind = NoDefault | NullDefault | Expression | Literal

  function DefaultKindOf(def: string): DefaultKind {
    if def == [] then NoDefault
    else if Upper(def) == "NULL" then NullDefault
    else if StartsWithCurrentTimestamp(def) || IsUnsignedDecimal(def) then Expression
    else Literal
  }

  /** `defSql`: nothing, ` DEFAULT NULL`, ` DEFAULT <def>` unquoted, or ` DEFAULT '<def>'` with quotes doubled. */
  function DefaultClause(def: string): (r: string)
    ensures r == [] <==> def == []
    ensures r != [] ==> StartsWith(r, " DEFAULT ")
  {
    match DefaultKindOf(def)
    case NoDefault => ""
    case NullDefault => " DEFAULT NULL"
    case Expression => " DEFAULT " + def
    case Literal => " DEFAULT '" + SqlEscape(def) + "'"
  }

  /** What MySQL takes a `DEFAULT` clause to mean. */
  datatype SqlDefault = SqlNull | Token(text: string) | Text(value: string)

  /**
   * Reads a clause back: a quoted literal is a string value (read with quote doubling only, as
   * `ReadSqlQuoted` does), `NULL` in any case is NULL, anything else a bare token.
   */
  function ReadDefault(clause: string): Option<SqlDefault> {
    if !StartsWith(clause, " DEFAULT ") then None
    else
      var v := clause[9..];
      if |v| > 0 && v[0] == '\'' then
        match ReadSqlQuoted(v[1..])
        case Some(p) => if p.1 == [] then Some(Text(p.0)) else None
        case None => None
      else if Upper(v) == "NULL" then Some(SqlNull)
      else Some(Token(v))
  }

  /**
   * The three-way rule, read back: no clause for an empty default, SQL NULL for any casing of
   * `null`, the value itself as an unquoted token for a timestamp expression or an unsigned
   * number, and otherwise a string literal whose value, under the standard quote-doubling
   * reading, is exactly the default as typed.
   */
  lemma DefaultClauseMeaning(def: string)
    ensures ReadDefault(DefaultClause(def)) ==
      match DefaultKindOf(def)
      case NoDefault => None
      case NullDefault => Some(SqlNull)
      case Expression => Some(Token(def))
      case Literal => Some(Text(def))
  {
    var r := DefaultClause(def);
    match DefaultKindOf(def)
    case NoDefault =>
    case NullDefault =>
      assert r[9..] == "NULL";
    case Expression =>
      assert r[9..] == def;
      assert def[0] == 'C' || def[0] == 'c' || IsDigit(def[0]) by {
        if StartsWithCurrentTimestamp(def) {
          assert Upper(def[..17])[0] == 'C';
        }
      }
    case Literal =>
      var q := SqlEscape(def) + "'";
      assert r[9..] == "'" + q;
      assert ("'" + q)[1..] == q;
      SqlEscapeRoundTrip(def, []);
      assert q + [] == q;
  }

  // ---------------------------------------------------------------------------
  // Column lines of the DDL
  // ---------------------------------------------------------------------------

  /** `clean(type) || "VARCHAR(255)"`. */
  function TypeSql(c: Column): string {
    if Trim(c.sqlType) == [] then "VARCHAR(255)" else Trim(c.sqlType)
  }

  /** `NULL` only for exactly `YES` (after trimming); anything else is `NOT NULL`. */
  function NullSql(c: Column): string {
    if Trim(c.nullable) == "YES" then "NULL" else "NOT NULL"
  }

  function ExtraSql(c: Column): string {
    if Trim(c.extra) == [] then "" else " " + Trim(c.extra)
  }

  /** A DDL line: a backtick-quoted column name, then its definition. */
  function DdlLine(name: string, spec: string): string {
    "`" + name + "`" + spec
  }

  /** What follows a column's name: ` TYPE NULLABILITY[ DEFAULT …][ extra]`. */
  function ColumnSpec(c: Column): string {
    " " + TypeSql(c) + " " + NullSql(c) + DefaultClause(Trim(c.defaultValue)) + ExtraSql(c)
  }

  /** The column type is the cleaned type field, or `VARCHAR(255)` exactly when that is blank or says so. */
  lemma TypeSqlDefault(c: Column)
    ensures TypeSql(c) != [] && Trimmed(TypeSql(c))
    ensures TypeSql(c) == "VARCHAR(255)" <==> Trim(c.sqlType) == [] || Trim(c.sqlType) == "VARCHAR(255)"
  {
    var v := "VARCHAR(255)";
    assert v[0] == 'V' && v[|v| - 1] == ')';
  }

  /** The nullability is `NULL` for exactly `YES`, and `NOT NULL` for anything else. */
  lemma NullSqlIff(c: Column)
    ensures NullSql(c) == "NULL" <==> Trim(c.nullable) == "YES"
    ensures NullSql(c) == "NULL" || NullSql(c) == "NOT NULL"
  {
    assert |"NOT NULL"| != |"NULL"|;
  }

  /** The definition opens with the type and then the nullability. */
  lemma ColumnSpecHead(c: Column)
    ensures StartsWith(ColumnSpec(c), " " + TypeSql(c) + " " + NullSql(c))
  {
    var head := " " + TypeSql(c) + " " + NullSql(c);
    var def, extra := DefaultClause(Trim(c.defaultValue)), ExtraSql(c);
    assert ColumnSpec(c) == head + def + extra;
    StartsWithTwoMore(head, def, extra);
  }

  lemma StartsWithTwoMore(head: string, def: string, extra: string)
    ensures StartsWith(head + def + extra, head)
  {
    assert head + def + extra == head + (def + extra);
    StartsWithConcat(head, def + extra);
  }

  /** A clause built from a value that ends in a non-space ends in a non-space. */
  lemma ClauseEnd(def: string)
    requires def == [] || !IsSpace(def[|def| - 1])
    ensures var cl := DefaultClause(def); cl == [] || !IsSpace(cl[|cl| - 1])
  {
    var cl := DefaultClause(def);
    match DefaultKindOf(def)
    case NoDefault =>
    case NullDefault =>
      assert cl == " DEFAULT NULL";
    case Expression =>
      assert cl == " DEFAULT " + def;
      assert cl[|cl| - 1] == def[|def| - 1];
    case Literal =>
      var q := " DEFAULT '" + SqlEscape(def);
      assert cl == q + "'";
      assert cl[|cl| - 1] == '\'';
  }

  lemma LineTrimNoop(name: string, head: string, clause: string, extra: string)
    requires |head| > 0 && !IsSpace(head[|head| - 1])
    requires clause == [] || !IsSpace(clause[|clause| - 1])
    requires extra == [] || !IsSpace(extra[|extra| - 1])
    ensures var l := DdlLine(name, head + clause + (if extra == [] then "" else " " + extra)); Trim(l) == l
  {
    var tail := clause + (if extra == [] then "" else " " + extra);
    var front := "`" + name + "`" + head;
    assert DdlLine(name, head + tail) == front + tail;
    assert front[|front| - 1] == head[|head| - 1];
    assert tail != [] ==> tail[|tail| - 1] == (if extra == [] then clause[|clause| - 1] else extra[|extra| - 1]);
    TrimNoopConcat(front, tail);
  }

  /** The final `.trim()` of a column line never removes anything: it opens with a backtick and ends in a non-space. */
  lemma ColumnLineTrimNoop(c: Column)
    ensures Trim(DdlLine(Slug(c.name), ColumnSpec(c))) == DdlLine(Slug(c.name), ColumnSpec(c))
  {
    var def := Trim(c.defaultValue);
    var head := " " + TypeSql(c) + " " + NullSql(c);
    assert head[|head| - 1] == 'L';
    ClauseEnd(def);
    LineTrimNoop(Slug(c.name), head, DefaultClause(def), Trim(c.extra));
  }

  /** The backtick-quoted name a DDL line opens with (empty if it opens otherwise). */
  function LineName(l: string): string {
    if |l| > 0 && l[0] == '`' then UpToBacktick(l[1..]) else []
  }

  function UpToBacktick(s: string): (r: string)
    ensures |r| <= |s|
  {
    if |s| == 0 || s[0] == '`' then [] else [s[0]] + UpToBacktick(s[1..])
  }

  lemma {:induction false} UpToBacktickOf(n: string, rest: string)
    requires '`' !in n
    ensures UpToBacktick(n + "`" + rest) == n
    decreases |n|
  {
    if |n| > 0 {
      assert (n + "`" + rest)[1..] == n[1..] + "`" + rest;
      UpToBacktickOf(n[1..], rest);
      assert n == [n[0]] + n[1..];
    } else {
      assert n + "`" + rest == "`" + rest;
    }
  }

  /** A line built from a name reads back as that name. */
  lemma LineNameOf(n: string, spec: string)
    requires '`' !in n
    ensures LineName(DdlLine(n, spec)) == n
  {
    assert DdlLine(n, spec)[1..] == n + "`" + spec;
    UpToBacktickOf(n, spec);
  }

  lemma SlugNoBacktick(n: string)
    requires IsSlug(n)
    ensures '`' !in n
  {
  }

  lemma ColumnLineFacts(c: Column)
    ensures Trim(DdlLine(Slug(c.name), ColumnSpec(c))) == DdlLine(Slug(c.name), ColumnSpec(c))
    ensures LineName(DdlLine(Slug(c.name), ColumnSpec(c))) == Slug(c.name)
  {
    ColumnLineTrimNoop(c);
    SlugNoBacktick(Slug(c.name));
    LineNameOf(Slug(c.name), ColumnSpec(c));
  }

  /**
   * One column of the DDL, `` `name` TYPE NULLABILITY[ DEFAULT …][ extra] `` trimmed: the trim
   * removes nothing, and the line is named by the column's slug.
   */
  function ColumnLine(c: Column): (r: string)
    ensures r == DdlLine(Slug(c.name), ColumnSpec(c))
    ensures LineName(r) == Slug(c.name)
  {
    ColumnLineFacts(c);
    Trim(DdlLine(Slug(c.name), ColumnSpec(c)))
  }

  /** The kept columns' lines, in input order, without de-duplication. */
  function ColumnLines(cols: seq<Column>): (r: seq<string>)
    ensures |r| == |KeptNames(cols)|
  {
    if |cols| == 0 then []
    else
      var c := cols[|cols| - 1];
      KeptNamesLast(cols);
      ColumnLines(cols[..|cols| - 1]) + (if Kept(c) then [ColumnLine(c)] else [])
  }

  /** The primary key line, always first. */
  function IdLine(): string {
    DdlLine("id", " BIGINT(20) UNSIGNED NOT NULL AUTO_INCREMENT")
  }

  function CreatedAtLine(): string {
    DdlLine("created_at", " DATETIME NOT NULL DEFAULT CURRENT_TIMESTAMP")
  }

  function UpdatedAtLine(): string {
    DdlLine("updated_at", " DATETIME NULL DEFAULT NULL")
  }

  function TimestampLines(timestamps: bool): seq<string> {
    if timestamps then [CreatedAtLine(), UpdatedAtLine()] else []
  }

  /** `buildColumnSqlLines`: the fixed primary key, the kept columns, then the two timestamp columns if asked for. */
  function ColumnSqlLines(cols: seq<Column>, timestamps: bool): (r: seq<string>)
    ensures |r| == 1 + |KeptNames(cols)| + (if timestamps then 2 else 0)
    ensures r[0] == IdLine()
    ensures timestamps ==> r[|r| - 2] == CreatedAtLine() && r[|r| - 1] == UpdatedAtLine()
  {
    [IdLine()] + ColumnLines(cols) + TimestampLines(timestamps)
  }

  function LineNames(lines: seq<string>): (r: seq<string>)
    ensures |r| == |lines|
  {
    MapSeq(LineName, lines)
  }

  lemma LineNamesConcat(a: seq<string>, b: seq<string>)
    ensures LineNames(a + b) == LineNames(a) + LineNames(b)
  {
    MapSeqConcat(LineName, a, b);
  }

  /** The line a column contributes is named by its slug. */
  lemma ColumnLineName(c: Column)
    ensures LineNames(if Kept(c) then [ColumnLine(c)] else []) == (if Kept(c) then [Slug(c.name)] else [])
  {
  }

  /** Every name the table defines, in DDL order: `id`, the kept slugs, then the timestamp columns. */
  function AllNames(cols: seq<Column>, timestamps: bool): seq<string> {
    ["id"] + KeptNames(cols) + (if timestamps then ["created_at", "updated_at"] else [])
  }

  /** Each kept column contributes one line, named by its slug, in input order. */
  lemma {:induction false} ColumnLinesNames(cols: seq<Column>)
    ensures LineNames(ColumnLines(cols)) == KeptNames(cols)
  {
    if |cols| > 0 {
      var init := cols[..|cols| - 1];
      var c := cols[|cols| - 1];
      ColumnLinesNames(init);
      KeptNamesLast(cols);
      var last := if Kept(c) then [ColumnLine(c)] else [];
      LineNamesConcat(ColumnLines(init), last);
      ColumnLineName(c);
    }
  }

  lemma FixedLineName(n: string, spec: string)
    requires n == "id" || n == "created_at" || n == "updated_at"
    ensures LineNames([DdlLine(n, spec)]) == [n]
  {
    assert '`' !in n;
    LineNameOf(n, spec);
  }

  lemma FixedLineNames(timestamps: bool)
    ensures LineNames([IdLine()]) == ["id"]
    ensures LineNames(TimestampLines(timestamps)) == if timestamps then ["created_at", "updated_at"] else []
  {
    FixedLineName("id", " BIGINT(20) UNSIGNED NOT NULL AUTO_INCREMENT");
    FixedLineName("created_at", " DATETIME NOT NULL DEFAULT CURRENT_TIMESTAMP");
    FixedLineName("updated_at", " DATETIME NULL DEFAULT NULL");
    LineNamesConcat([CreatedAtLine()], [UpdatedAtLine()]);
    assert [CreatedAtLine()] + [UpdatedAtLine()] == [CreatedAtLine(), UpdatedAtLine()];
  }

  /** The DDL defines exactly the names of `AllNames`, in that order. */
  lemma DdlNames(cols: seq<Column>, timestamps: bool)
    ensures LineNames(ColumnSqlLines(cols, timestamps)) == AllNames(cols, timestamps)
  {
    ColumnLinesNames(cols);
    FixedLineNames(timestamps);
    LineNamesConcat([IdLine()] + ColumnLines(cols), TimestampLines(timestamps));
    LineNamesConcat([IdLine()], ColumnLines(cols));
  }

  // ---------------------------------------------------------------------------
  // The allow-list
  // ---------------------------------------------------------------------------

  /** `buildAllowedColumns`: `AllNames` with later repetitions removed, first-seen order kept. */
  function AllowedColumns(cols: seq<Column>, timestamps: bool): (r: seq<string>)
    ensures |r| > 0 && r[0] == "id"
    ensures NoDups(r)
    ensures timestamps ==> "created_at" in r && "updated_at" in r
  {
    var names := AllNames(cols, timestamps);
    UniqHead(names);
    assert timestamps ==> names[|names| - 2] == "created_at" && names[|names| - 1] == "updated_at";
    Uniq(names)
  }

  /** The allow-list names exactly the columns the DDL creates: the repository can write every column and no other. */
  lemma AllowedMatchesDdl(cols: seq<Column>, timestamps: bool, x: string)
    ensures x in AllowedColumns(cols, timestamps) <==> x in LineNames(ColumnSqlLines(cols, timestamps))
  {
    DdlNames(cols, timestamps);
    var names := AllNames(cols, timestamps);
    var r := Uniq(names);
    if x in r {
      var k :| 0 <= k < |r| && r[k] == x;
    }
    if x in names {
      var i :| 0 <= i < |names| && names[i] == x;
    }
  }

  /** Names an empty object literal already holds truthy values for: the members it inherits from `Object.prototype`. */
  predicate IsObjectPrototypeKey(n: string) {
    n in {
      "constructor", "__proto__", "__defineGetter__", "__defineSetter__", "__lookupGetter__",
      "__lookupSetter__", "hasOwnProperty", "isPrototypeOf", "propertyIsEnumerable",
      "toString", "toLocaleString", "valueOf"
    }
  }

  /** The source's de-duplication loop over `var map = {}`: a name is skipped when `map[name]` is truthy. */
  function MapDedup(names: seq<string>, seen: set<string>): (r: seq<string>)
    ensures forall k :: 0 <= k < |r| ==> r[k] in names && !IsObjectPrototypeKey(r[k])
    decreases |names|
  {
    if |names| == 0 then []
    else if names[0] in seen || IsObjectPrototypeKey(names[0]) then MapDedup(names[1..], seen)
    else [names[0]] + MapDedup(names[1..], seen + {names[0]})
  }

  /** `buildAllowedColumns` as written. */
  function AllowedColumnsAsWritten(cols: seq<Column>, timestamps: bool): (r: seq<string>)
    ensures forall k :: 0 <= k < |r| ==> r[k] in AllNames(cols, timestamps) && !IsObjectPrototypeKey(r[k])
  {
    MapDedup(AllNames(cols, timestamps), {})
  }

  /** Every kept column's slug is among the kept names. */
  lemma {:induction false} KeptNamesHas(cols: seq<Column>, i: nat)
    requires i < |cols| && Kept(cols[i])
    ensures Slug(cols[i].name) in KeptNames(cols)
    decreases |cols|
  {
    KeptNamesLast(cols);
    if i < |cols| - 1 {
      KeptNamesHas(cols[..|cols| - 1], i);
    }
  }

  /**
   * A kept column whose slug names a member of `Object.prototype` (`constructor`, `toString`, …)
   * is created by the DDL and admitted by the corrected allow-list, but missing from the
   * allow-list as written, because `({})[name]` is already truthy.
   */
  lemma PrototypeColumnDropped(cols: seq<Column>, timestamps: bool, i: nat)
    requires i < |cols| && Kept(cols[i]) && IsObjectPrototypeKey(Slug(cols[i].name))
    ensures Slug(cols[i].name) in LineNames(ColumnSqlLines(cols, timestamps))
    ensures Slug(cols[i].name) in AllowedColumns(cols, timestamps)
    ensures Slug(cols[i].name) !in AllowedColumnsAsWritten(cols, timestamps)
  {
    var x := Slug(cols[i].name);
    KeptNamesHas(cols, i);
    assert x in AllNames(cols, timestamps);
    DdlNames(cols, timestamps);
    AllowedMatchesDdl(cols, timestamps, x);
  }

  /** Such a column exists: one named `constructor`. */
  lemma ConstructorColumnDropped()
    ensures Kept(Column("constructor", "", "", "", ""))
    ensures IsObjectPrototypeKey(Slug("constructor"))
  {
    SlugOfSlug("constructor");
  }

  // ---------------------------------------------------------------------------
  // The example payload
  // ---------------------------------------------------------------------------

  function Take<T>(s: seq<T>, n: nat): (r: seq<T>)
    ensures |r| <= n && r <= s
    ensures |s| <= n ==> r == s
  {
    if |s| <= n then s else s[..n]
  }

  /** `title` put in front unless already present. */
  function WithTitle(first: seq<string>): (r: seq<string>)
    ensures "title" in r
    ensures forall k :: 0 <= k < |r| ==> r[k] == "title" || r[k] in first
  {
    if "title" in first then first else ["title"] + first
  }

  /** The keys of `buildExamplePayload`: the first two kept slugs, `title` put first if missing, blanks and repetitions removed. */
  function ExampleKeys(cols: seq<Column>): (r: seq<string>)
    ensures 1 <= |r|
    ensures NoDups(r)
  {
    var w := WithTitle(Take(KeptNames(cols), 2));
    assert "title" in NonEmpty(w);
    Uniq(NonEmpty(w))
  }

  function PairFor(key: string): string {
    if key == "title" then "'title' => 'Example'"
    else if key == "status" then "'status' => 'pending'"
    else "'" + PhpString(key) + "' => 'example'"
  }

  /** The rendered `key => value` pairs: one per key, stopping after two. */
  function ExamplePairs(cols: seq<Column>): (r: seq<string>)
    ensures 1 <= |r| <= 2
  {
    var ks := Take(ExampleKeys(cols), 2);
    seq(|ks|, i requires 0 <= i < |ks| => PairFor(ks[i]))
  }

  /** `buildExamplePayload`. */
  function ExamplePayload(cols: seq<Column>): string {
    RenderPayload(ExamplePairs(cols))
  }

  /** The PHP array literal around the pairs, with the lone `title` pair when there are none. */
  function RenderPayload(pairs: seq<string>): (r: string)
    ensures StartsWith(r, "array( ") && EndsWith(r, " )")
  {
    var body := if |pairs| > 0 then Join(pairs, ", ") else "'title' => 'Example'";
    StartsWithConcat("array( ", body + " )");
    EndsWithConcat("array( " + body, " )");
    assert "array( " + body + " )" == "array( " + (body + " )");
    "array( " + body + " )"
  }

  /** Of at most two non-empty candidates, `title` and the first candidate survive among the first two keys. */
  lemma TitleKeys(first: seq<string>)
    requires |first| <= 2
    requires forall k :: 0 <= k < |first| ==> first[k] != []
    ensures var ks := Take(Uniq(NonEmpty(WithTitle(first))), 2);
      "title" in ks && (|first| > 0 ==> first[0] in ks)
  {
    NonEmptyKeeps(WithTitle(first));
    if "title" in first {
      TitleKeysPresent(first);
    } else {
      TitleKeysAbsent(first);
    }
  }

  lemma TitleKeysPresent(first: seq<string>)
    requires |first| <= 2 && "title" in first
    ensures var ks := Take(Uniq(first), 2);
      "title" in ks && first[0] in ks
  {
    var u := Uniq(first);
    assert Take(u, 2) == u;
    assert first[0] in u;
    var i :| 0 <= i < |first| && first[i] == "title";
    assert first[i] in u;
  }

  lemma TitleKeysAbsent(first: seq<string>)
    requires |first| <= 2 && "title" !in first
    ensures var ks := Take(Uniq(["title"] + first), 2);
      "title" in ks && (|first| > 0 ==> first[0] in ks)
  {
    var w := ["title"] + first;
    if |first| == 0 {
      assert w == ["title"];
      UniqSingle("title");
    } else {
      assert first[0] != "title";
      assert w[..2] == ["title", first[0]];
      UniqPair("title", first[0]);
      UniqPrefix(w, 2);
      var u := Uniq(w);
      assert u[..2] == ["title", first[0]];
      assert Take(u, 2) == u[..2];
    }
  }

  /**
   * The example always sets `title`, and always uses the first kept column (if there is one):
   * both are among the two pairs emitted.
   */
  lemma ExamplePayloadKeys(cols: seq<Column>)
    ensures PairFor("title") in ExamplePairs(cols)
    ensures |KeptNames(cols)| > 0 ==> PairFor(KeptNames(cols)[0]) in ExamplePairs(cols)
  {
    var first := Take(KeptNames(cols), 2);
    TitleKeys(first);
    var ks := Take(ExampleKeys(cols), 2);
    var pairs := ExamplePairs(cols);
    var t :| 0 <= t < |ks| && ks[t] == "title";
    assert pairs[t] == PairFor("title");
    if |KeptNames(cols)| > 0 {
      assert first[0] == KeptNames(cols)[0];
      var j :| 0 <= j < |ks| && ks[j] == first[0];
      assert pairs[j] == PairFor(first[0]);
    }
  }

  // ---------------------------------------------------------------------------
  // Form defaults and derived names
  // ---------------------------------------------------------------------------

  /** The generator form, as typed. */
  datatype Form = Form(
    entity: string, table: string, namespace: string, capability: string,
    optionKey: string, versionConst: string,
    timestamps: bool, charset: bool, repo: bool, rest: bool,
    rows: seq<Row>)

  /** The record the generator builds from the form (`d` in the source). */
  datatype Descriptor = Descriptor(
    entity: string, table: string, namespace: string, capability: string,
    optionKey: string, versionConst: string, version: string,
    timestamps: bool, charset: bool, repo: bool, rest: bool,
    columns: seq<Column>)

  /** The table name as the source derives it from the raw entity field: `slug(table) || "tfd_" + slug(clean(entity || "item")) + "s"`. */
  function TableNameAsWritten(table: string, rawEntity: string): (r: string)
    ensures r != [] && IsSlug(r)
    ensures Slug(table) != [] ==> r == Slug(table)
  {
    if Slug(table) != [] then Slug(table)
    else
      var e := Slug(if rawEntity == [] then "item" else rawEntity);
      WrapSlug(e);
      "tfd_" + e + "s"
  }

  lemma WrapSlug(s: string)
    requires IsSlug(s)
    ensures IsSlug("tfd_" + s + "s")
  {
    var r := "tfd_" + s + "s";
    assert forall i :: 0 <= i < |s| ==> r[4 + i] == s[i];
  }

  /** The table name derived from the entity the plugin is generated for, as `buildSingleFilePluginPhp` does. */
  function TableName(table: string, entity: string): (r: string)
    ensures r != [] && IsSlug(r)
    ensures Slug(table) != [] ==> r == Slug(table)
  {
    if Slug(table) != [] then Slug(table)
    else
      WrapSlug(Slug(entity));
      "tfd_" + Slug(entity) + "s"
  }

  lemma SlugEmpty()
    ensures Slug("") == []
  {
    assert Trim("") == [];
    assert Lower([]) == [];
    assert ReplaceRuns([], LowerIdent) == [];
  }

  lemma SlugSpace()
    ensures Slug(" ") == []
  {
    assert TrimRange(" ") == (1, 1);
    assert Trim(" ") == [];
    SlugEmpty();
  }

  lemma SlugItem()
    ensures Slug("item") == "item"
  {
    SlugOfSlug("item");
  }

  /** An entity field of blank spaces becomes entity `item`, yet the table as written becomes `tfd_s`, not `tfd_items`. */
  lemma BlankEntityTable()
    ensures OrDefault(" ", "item") == "item"
    ensures TableNameAsWritten("", " ") == "tfd_s"
    ensures TableName("", OrDefault(" ", "item")) == "tfd_items"
  {
    BlankDefault();
    BlankTableAsWritten();
    BlankTableCorrected();
  }

  lemma BlankDefault()
    ensures OrDefault(" ", "item") == "item"
  {
    assert Trim(" ") == [];
  }

  lemma BlankTableAsWritten()
    ensures TableNameAsWritten("", " ") == "tfd_s"
  {
    SlugEmpty();
    SlugSpace();
    assert TableNameAsWritten("", " ") == "tfd_" + Slug(" ") + "s";
  }

  lemma BlankTableCorrected()
    ensures TableName("", "item") == "tfd_items"
  {
    SlugEmpty();
    SlugItem();
    TableNameDefault("", "item");
    ItemsLiteral();
  }

  lemma ItemsLiteral()
    ensures "tfd_" + "item" + "s" == "tfd_items"
  {
  }

  lemma TableNameDefault(table: string, entity: string)
    requires Slug(table) == [] && Slug(entity) == entity
    ensures TableName(table, entity) == "tfd_" + entity + "s"
  {
  }

  /** A record as the form handler builds it: a slug table, and a trimmed, non-blank namespace and capability. */
  predicate Normalized(d: Descriptor) {
    d.table != [] && IsSlug(d.table)
    && d.namespace != [] && Trimmed(d.namespace)
    && d.capability != [] && Trimmed(d.capability)
  }

  /** The form as the generator reads it, with the blank-field defaults and the REST-needs-repository rule. */
  function Describe(f: Form): (d: Descriptor)
    ensures d.rest ==> d.repo
    ensures d.repo == (f.repo || f.rest) && d.rest == f.rest
    ensures d.entity != []
    ensures d.table != [] && IsSlug(d.table)
    ensures Slug(f.table) == [] ==> d.table == "tfd_" + Slug(d.entity) + "s"
    ensures d.namespace == OrDefault(f.namespace, "tfd-dbcrud/v1")
    ensures d.capability == OrDefault(f.capability, "manage_options")
    ensures d.entity == OrDefault(f.entity, "item")
    ensures d.optionKey == OrDefault(f.optionKey, "tfd_dbcrud_version") && d.version == "1.0.0"
    ensures d.versionConst == OrDefault(f.versionConst, "TFD_DBCRUD_VERSION")
    ensures d.timestamps == f.timestamps && d.charset == f.charset
    ensures d.columns == ReadColumns(f.rows)
    ensures Normalized(d)
    ensures KeptNames(d.columns) == KeptNames(UserColumns(f.rows))
  {
    var ns, cap := "tfd-dbcrud/v1", "manage_options";
    assert Trimmed(ns) by { assert ns[0] == 't' && ns[|ns| - 1] == '1'; }
    assert Trimmed(cap) by { assert cap[0] == 'm' && cap[|cap| - 1] == 's'; }
    var entity := OrDefault(f.entity, "item");
    ReadColumnsNames(f.rows);
    Descriptor(
      entity, TableName(f.table, entity),
      OrDefault(f.namespace, "tfd-dbcrud/v1"), OrDefault(f.capability, "manage_options"),
      OrDefault(f.optionKey, "tfd_dbcrud_version"), OrDefault(f.versionConst, "TFD_DBCRUD_VERSION"),
      "1.0.0",
      f.timestamps, f.charset, f.repo || f.rest, f.rest,
      ReadColumns(f.rows))
  }

  /**
   * The form handler as written: the same record, except that the default table slugs the raw
   * entity field instead of the entity actually used.
   */
  function DescribeAsWritten(f: Form): (d: Descriptor)
    ensures d == Describe(f).(table := TableNameAsWritten(f.table, f.entity))
    ensures Normalized(d)
  {
    var c := Describe(f);
    c.(table := TableNameAsWritten(f.table, f.entity))
  }

  /** The two handlers differ only for an entity field of white space with no table field to override it. */
  lemma DescribeAgrees(f: Form)
    requires Slug(f.table) != [] || f.entity == [] || Trim(f.entity) != []
    ensures DescribeAsWritten(f) == Describe(f)
  {
    var c := Describe(f);
    assert c.table == TableName(f.table, OrDefault(f.entity, "item"));
    TableNamesAgree(f.table, f.entity);
    assert c.(table := c.table) == c;
  }

  lemma TableNamesAgree(table: string, rawEntity: string)
    requires Slug(table) != [] || rawEntity == [] || Trim(rawEntity) != []
    ensures TableNameAsWritten(table, rawEntity) == TableName(table, OrDefault(rawEntity, "item"))
  {
    if Slug(table) == [] {
      var written := Slug(if rawEntity == [] then "item" else rawEntity);
      assert TableNameAsWritten(table, rawEntity) == "tfd_" + written + "s";
      var entity := OrDefault(rawEntity, "item");
      assert TableName(table, entity) == "tfd_" + Slug(entity) + "s";
      if rawEntity == [] {
        assert Trim(rawEntity) == [];
        assert entity == "item";
      } else {
        assert entity == Trim(rawEntity);
        SlugTrim(rawEntity);
      }
    }
  }

  /** `"tfd-dbcrud-" + slug(entity)`. */
  function PluginSlug(entity: string): string {
    "tfd-dbcrud-" + Slug(entity)
  }

  lemma UpperPrefixLiteral()
    ensures Upper("tfd-dbcrud-") == "TFD-DBCRUD-"
  {
    assert "tfd-dbcrud-" == "tfd-" + "dbcrud-";
    UpperConcat("tfd-", "dbcrud-");
    assert Upper("tfd-") == "TFD-";
    assert Upper("dbcrud-") == "DBCRUD-";
  }

  lemma ReplacePrefixLiteral()
    ensures ReplaceChar("TFD-DBCRUD-", '-', "_") == "TFD_DBCRUD_"
  {
    assert "TFD-DBCRUD-" == "TFD" + "-" + ("DBCRUD" + "-");
    assert "TFD_DBCRUD_" == "TFD" + "_" + ("DBCRUD" + "_");
    ReplaceDashes("TFD", "DBCRUD");
  }

  lemma ReplaceDashes(w1: string, w2: string)
    requires '-' !in w1 && '-' !in w2
    ensures ReplaceChar(w1 + "-" + (w2 + "-"), '-', "_") == w1 + "_" + (w2 + "_")
  {
    ReplaceCharConcat(w1 + "-", w2 + "-", '-', "_");
    ReplaceDash(w1);
    ReplaceDash(w2);
  }

  lemma ReplaceDash(w: string)
    requires '-' !in w
    ensures ReplaceChar(w + "-", '-', "_") == w + "_"
  {
    ReplaceCharConcat(w, "-", '-', "_");
    ReplaceCharAbsent(w, '-', "_");
    ReplaceCharCons('-', [], '-', "_");
  }

  lemma LowerPrefixLiteral()
    ensures Lower("TFD_DBCRUD_") == "tfd_dbcrud_"
  {
    assert "TFD_DBCRUD_" == "TFD_" + "DBCRUD_";
    LowerConcat("TFD_", "DBCRUD_");
    assert Lower("TFD_") == "tfd_";
    assert Lower("DBCRUD_") == "dbcrud_";
  }

  lemma PrefixLiteral()
    ensures ReplaceChar(Upper("tfd-dbcrud-"), '-', "_") == "TFD_DBCRUD_"
    ensures Lower("TFD_DBCRUD_") == "tfd_dbcrud_"
  {
    UpperPrefixLiteral();
    ReplacePrefixLiteral();
    LowerPrefixLiteral();
  }

  lemma UpperSlugNoDash(s: string)
    requires IsSlug(s)
    ensures '-' !in Upper(s)
    ensures Lower(Upper(s)) == s
  {
    assert forall i :: 0 <= i < |s| ==> Upper(s)[i] != '-';
    LowerUpper(s);
  }

  lemma ConstPrefixShape(s: string)
    requires IsSlug(s)
    ensures ReplaceChar(Upper("tfd-dbcrud-" + s), '-', "_") == "TFD_DBCRUD_" + Upper(s)
    ensures Lower("TFD_DBCRUD_" + Upper(s)) == "tfd_dbcrud_" + s
  {
    PrefixLiteral();
    UpperSlugNoDash(s);
    UpperConcat("tfd-dbcrud-", s);
    ReplaceCharConcat(Upper("tfd-dbcrud-"), Upper(s), '-', "_");
    ReplaceCharAbsent(Upper(s), '-', "_");
    LowerConcat("TFD_DBCRUD_", Upper(s));
  }

  /** `pluginSlug.toUpperCase().replace(/-/g, "_")`: the prefix of every generated constant and class. */
  function ConstPrefix(entity: string): (r: string)
    ensures r == "TFD_DBCRUD_" + Upper(Slug(entity))
    ensures Lower(r) == "tfd_dbcrud_" + Slug(entity)
  {
    ConstPrefixShape(Slug(entity));
    ReplaceChar(Upper(PluginSlug(entity)), '-', "_")
  }

  /** The generated `*_columns_sql()` array entry for one DDL line: the line in a PHP double-quoted string. */
  function ColumnEntry(l: string): string {
    "\t\t\"" + ReplaceChar(l, '"', "\\\"") + "\""
  }

  /** The values the generated plugin is assembled from (`buildSingleFilePluginPhp`), slot by slot. */
  datatype Plugin = Plugin(
    pluginName: string, constPrefix: string, table: string, restBase: string,
    namespace: string, capability: string, version: string, optionKey: string,
    columnEntries: seq<string>,
    allowed: seq<string>, payload: string, curlBase: string,
    enableRest: bool, timestamps: bool, charset: bool)

  /** The `*_columns_sql()` array entries: one per DDL line, in order. */
  function ColumnEntries(lines: seq<string>): (r: seq<string>)
    ensures |r| == |lines|
    ensures forall i :: 0 <= i < |lines| ==> r[i] == ColumnEntry(lines[i])
  {
    seq(|lines|, i requires 0 <= i < |lines| => ColumnEntry(lines[i]))
  }

  /** The plugin's slots as `buildSingleFilePluginPhp` fills them, from a record whose allow-list is given. */
  function PluginWith(d: Descriptor, allowed: seq<string>): (p: Plugin)
    ensures p.pluginName == "TFD DB CRUD - " + Pascal(d.entity)
    ensures p.constPrefix == "TFD_DBCRUD_" + Upper(Slug(d.entity))
    ensures p.table != [] && IsSlug(p.table)
    ensures Slug(d.table) != [] ==> p.table == Slug(d.table)
    ensures Slug(d.table) == [] ==> p.table == "tfd_" + Slug(d.entity) + "s"
    ensures p.restBase == Slug(d.entity)
    ensures p.namespace == OrDefault(d.namespace, "tfd-dbcrud/v1") && p.namespace != []
    ensures p.capability == OrDefault(d.capability, "manage_options") && p.capability != []
    ensures p.version == OrElse(d.version, "1.0.0") && p.version != []
    ensures p.optionKey == OrElse(d.optionKey, "tfd_dbcrud_version") && p.optionKey != []
    ensures p.columnEntries == ColumnEntries(ColumnSqlLines(d.columns, d.timestamps))
    ensures |p.columnEntries| == 1 + |KeptNames(d.columns)| + (if d.timestamps then 2 else 0)
    ensures p.allowed == allowed && p.payload == ExamplePayload(d.columns)
    ensures p.curlBase == "https://example.com/wp-json/" + p.namespace + "/" + p.restBase
    ensures p.enableRest == d.rest && p.timestamps == d.timestamps && p.charset == d.charset
  {
    var ns := OrDefault(d.namespace, "tfd-dbcrud/v1");
    Plugin(
      "TFD DB CRUD - " + Pascal(d.entity), ConstPrefix(d.entity),
      TableName(d.table, d.entity), Slug(d.entity),
      ns, OrDefault(d.capability, "manage_options"),
      OrElse(d.version, "1.0.0"), OrElse(d.optionKey, "tfd_dbcrud_version"),
      ColumnEntries(ColumnSqlLines(d.columns, d.timestamps)),
      allowed,
      ExamplePayload(d.columns),
      "https://example.com/wp-json/" + ns + "/" + Slug(d.entity),
      d.rest, d.timestamps, d.charset)
  }

  /** `buildSingleFilePluginPhp(d)` as written: its allow-list comes from the de-duplication over a plain object. */
  function BuildPlugin(d: Descriptor): (p: Plugin)
    ensures p == PluginWith(d, AllowedColumnsAsWritten(d.columns, d.timestamps))
    ensures forall k :: 0 <= k < |p.allowed| ==>
      p.allowed[k] in AllNames(d.columns, d.timestamps) && !IsObjectPrototypeKey(p.allowed[k])
  {
    PluginWith(d, AllowedColumnsAsWritten(d.columns, d.timestamps))
  }

  /** The corrected plugin: its allow-list is `AllowedColumns`. */
  function BuildPluginCorrected(d: Descriptor): (p: Plugin)
    ensures p == PluginWith(d, AllowedColumns(d.columns, d.timestamps))
    ensures |p.allowed| > 0 && p.allowed[0] == "id" && NoDups(p.allowed)
  {
    PluginWith(d, AllowedColumns(d.columns, d.timestamps))
  }

  /** The corrected plugin's repository admits exactly the columns its table is created with. */
  lemma CorrectedPluginAllowsDdl(d: Descriptor, x: string)
    ensures x in BuildPluginCorrected(d).allowed <==> x in LineNames(ColumnSqlLines(d.columns, d.timestamps))
  {
    AllowedMatchesDdl(d.columns, d.timestamps, x);
  }

  /** The plugin as written leaves out of its allow-list a column its table is created with. */
  lemma PluginDropsPrototypeColumn(d: Descriptor, i: nat)
    requires i < |d.columns| && Kept(d.columns[i]) && IsObjectPrototypeKey(Slug(d.columns[i].name))
    ensures Slug(d.columns[i].name) in LineNames(ColumnSqlLines(d.columns, d.timestamps))
    ensures Slug(d.columns[i].name) !in BuildPlugin(d).allowed
  {
    PrototypeColumnDropped(d.columns, d.timestamps, i);
  }

  /**
   * Built from a normalised record, the plugin keeps its table, REST namespace and capability
   * unchanged, and its example URL uses that namespace.
   */
  lemma PluginKeepsRecord(d: Descriptor, allowed: seq<string>)
    requires Normalized(d)
    ensures var p := PluginWith(d, allowed);
      && p.table == d.table
      && p.namespace == d.namespace
      && p.capability == d.capability
      && p.curlBase == "https://example.com/wp-json/" + d.namespace + "/" + Slug(d.entity)
  {
    SlugOfSlug(d.table);
    TrimNoop(d.namespace);
    TrimNoop(d.capability);
  }

  /**
   * The plugin built from the form stamps version `1.0.0` and stores it under the option key
   * from the form, or `tfd_dbcrud_version` when that field is blank.
   */
  lemma PluginStamps(f: Form, allowed: seq<string>)
    ensures var p := PluginWith(Describe(f), allowed);
      && p.version == "1.0.0"
      && p.optionKey == OrDefault(f.optionKey, "tfd_dbcrud_version")
  {
  }

  /**
   * An entity field of white space with no table field: the entity is `item` and the corrected
   * table `tfd_items`, while the table as written is `tfd_s`.
   */
  lemma DescribeBlankEntity(f: Form)
    requires Slug(f.table) == [] && Trim(f.entity) == []
    ensures Describe(f).entity == "item" && Describe(f).table == "tfd_items"
    ensures f.entity != [] ==> DescribeAsWritten(f).table == "tfd_s"
  {
    var d := Describe(f);
    assert d.entity == "item";
    SlugItem();
    ItemsLiteral();
    assert d.table == "tfd_" + "item" + "s";
    if f.entity != [] {
      BlankWrittenTable(f.table, f.entity);
    }
  }

  lemma BlankWrittenTable(table: string, rawEntity: string)
    requires Slug(table) == [] && rawEntity != [] && Trim(rawEntity) == []
    ensures TableNameAsWritten(table, rawEntity) == "tfd_s"
  {
    SlugTrim(rawEntity);
    SlugEmpty();
    assert TableNameAsWritten(table, rawEntity) == "tfd_" + Slug(rawEntity) + "s";
  }
}

=== FILE: escaping.dfy ===
/** Option and Result, for parsers that may fail and generators that refuse bad input. */
module Results {
  datatype Option<+T> = None | Some(value: T)

  datatype Result<+T, +E> = Ok(value: T) | Err(error: E)
}

/**
 * The two escapers the generators apply before placing user text inside a quoted literal:
 *   SQL   `.replace(/'/g, "''")`                                   (CRUD DEFAULT values, migration URLs)
 *   PHP   `phpString`: `.replace(/\\/g, "\\\\").replace(/'/g, "\\'")` (every PHP single-quoted literal)
 * Each comes with the reader of the literal it targets, and the round trip: reading back an
 * escaped value, followed by the closing quote, yields the value and stops at that quote.
 */
module Escaping {
  import opened Strings
  import opened Results

  /** `s.replace(/c/g, rep)` for a one-character pattern. */
  function ReplaceChar(s: string, c: char, rep: string): (r: string)
    ensures c !in rep ==> c !in r
  {
    if |s| == 0 then []
    else (if s[0] == c then rep else [s[0]]) + ReplaceChar(s[1..], c, rep)
  }

  lemma {:induction false} ReplaceCharConcat(a: string, b: string, c: char, rep: string)
    ensures ReplaceChar(a + b, c, rep) == ReplaceChar(a, c, rep) + ReplaceChar(b, c, rep)
    decreases |a|
  {
    if |a| > 0 {
      assert (a + b)[1..] == a[1..] + b;
      ReplaceCharConcat(a[1..], b, c, rep);
    } else {
      assert a + b == b;
    }
  }

  lemma ReplaceCharCons(x: char, t: string, c: char, rep: string)
    ensures ReplaceChar([x] + t, c, rep) == (if x == c then rep else [x]) + ReplaceChar(t, c, rep)
  {
    assert ([x] + t)[1..] == t;
  }

  /** Replacing a character that does not occur changes nothing. */
  lemma {:induction false} ReplaceCharAbsent(s: string, c: char, rep: string)
    requires c !in s
    ensures ReplaceChar(s, c, rep) == s
    decreases |s|
  {
    if |s| > 0 {
      ReplaceCharAbsent(s[1..], c, rep);
      assert s == [s[0]] + s[1..];
    }
  }

  // ---------------------------------------------------------------------------
  // SQL single-quoted strings
  // ---------------------------------------------------------------------------

  /** `escapeSqlString` / the DEFAULT escaping: every `'` doubled. */
  function SqlEscape(s: string): string {
    ReplaceChar(s, '\'', "''")
  }

  /**
   * Reads the body of an SQL single-quoted literal (the opening quote already consumed) the way
   * standard SQL does, and MySQL with `NO_BACKSLASH_ESCAPES`: `''` stands for one quote, a lone
   * `'` closes the literal, and a backslash is an ordinary character. Returns the value and the
   * text after the closing quote, or None if the literal is never closed.
   */
  function ReadSqlQuoted(s: string): Option<(string, string)>
    decreases |s|
  {
    if |s| == 0 then None
    else if s[0] == '\'' then
      if |s| >= 2 && s[1] == '\'' then
        match ReadSqlQuoted(s[2..])
        case Some(p) => Some(("'" + p.0, p.1))
        case None => None
      else Some(([], s[1..]))
    else
      match ReadSqlQuoted(s[1..])
      case Some(p) => Some(([s[0]] + p.0, p.1))
      case None => None
  }

  /**
   * Under the standard reading, the escaped value between quotes reads back as exactly the value:
   * no quote can end the literal early.
   */
  lemma {:induction false} SqlEscapeRoundTrip(v: string, rest: string)
    requires rest == [] || rest[0] != '\''
    ensures ReadSqlQuoted(SqlEscape(v) + "'" + rest) == Some((v, rest))
    decreases |v|
  {
    if |v| == 0 {
      assert SqlEscape(v) + "'" + rest == "'" + rest;
    } else {
      SqlEscapeRoundTrip(v[1..], rest);
      assert v == [v[0]] + v[1..];
      ReplaceCharCons(v[0], v[1..], '\'', "''");
      var e := SqlEscape(v[1..]);
      var tail := e + "'" + rest;
      var head := if v[0] == '\'' then "''" else [v[0]];
      assert SqlEscape(v) == head + e;
      assert SqlEscape(v) + "'" + rest == head + tail;
      if v[0] == '\'' {
        ReadSqlDoubled(tail, v[1..], rest);
      } else {
        ReadSqlPlain(v[0], tail, v[1..], rest);
      }
    }
  }

  lemma ReadSqlDoubled(s: string, w: string, rest: string)
    requires ReadSqlQuoted(s) == Some((w, rest))
    ensures ReadSqlQuoted("''" + s) == Some(("'" + w, rest))
  {
    assert ("''" + s)[2..] == s;
  }

  lemma ReadSqlPlain(c: char, s: string, w: string, rest: string)
    requires c != '\'' && ReadSqlQuoted(s) == Some((w, rest))
    ensures ReadSqlQuoted([c] + s) == Some(([c] + w, rest))
  {
    assert ([c] + s)[1..] == s;
  }

  /** Collapses every `''` back to `'`. */
  function SqlUnescape(s: string): string
    decreases |s|
  {
    if |s| == 0 then []
    else if |s| >= 2 && s[0] == '\'' && s[1] == '\'' then "'" + SqlUnescape(s[2..])
    else [s[0]] + SqlUnescape(s[1..])
  }

  /** Quotes occur only in adjacent pairs: the text has no lone `'`. */
  predicate QuotesPaired(s: string)
    decreases |s|
  {
    if |s| == 0 then true
    else if s[0] == '\'' then |s| >= 2 && s[1] == '\'' && QuotesPaired(s[2..])
    else QuotesPaired(s[1..])
  }

  /** Escaping doubles every quote and leaves no lone one; collapsing the pairs recovers the input. */
  lemma {:induction false} SqlEscapeInverse(v: string)
    ensures QuotesPaired(SqlEscape(v))
    ensures SqlUnescape(SqlEscape(v)) == v
    decreases |v|
  {
    if |v| > 0 {
      SqlEscapeInverse(v[1..]);
      assert v == [v[0]] + v[1..];
      ReplaceCharCons(v[0], v[1..], '\'', "''");
      var tail := SqlEscape(v[1..]);
      if v[0] == '\'' {
        assert ("''" + tail)[2..] == tail;
      } else {
        assert ([v[0]] + tail)[1..] == tail;
      }
    }
  }

  /** Conversely, every text without a lone quote is the escape of exactly one value. */
  lemma {:induction false} SqlUnescapeInverse(t: string)
    requires QuotesPaired(t)
    ensures SqlEscape(SqlUnescape(t)) == t
    decreases |t|
  {
    if |t| > 0 {
      if t[0] == '\'' {
        SqlUnescapeInverse(t[2..]);
        ReplaceCharCons('\'', SqlUnescape(t[2..]), '\'', "''");
        assert t == "''" + t[2..];
      } else {
        SqlUnescapeInverse(t[1..]);
        ReplaceCharCons(t[0], SqlUnescape(t[1..]), '\'', "''");
        assert t == [t[0]] + t[1..];
      }
    }
  }

  // ---------------------------------------------------------------------------
  // PHP single-quoted strings
  // ---------------------------------------------------------------------------

  /** `phpString(s)`: backslashes doubled first, then every `'` preceded by a backslash. */
  function PhpString(s: string): string {
    ReplaceChar(ReplaceChar(s, '\\', "\\\\"), '\'', "\\'")
  }

  /** The two passes act character by character. */
  lemma PhpStringCons(x: char, t: string)
    ensures PhpString([x] + t) ==
      (if x == '\\' then "\\\\" else if x == '\'' then "\\'" else [x]) + PhpString(t)
  {
    ReplaceCharCons(x, t, '\\', "\\\\");
    var first: string := if x == '\\' then "\\\\" else [x];
    ReplaceCharConcat(first, ReplaceChar(t, '\\', "\\\\"), '\'', "\\'");
    if x == '\\' {
      assert ReplaceChar(first, '\'', "\\'") == "\\\\" by {
        assert first == ['\\'] + ['\\'];
        ReplaceCharCons('\\', ['\\'], '\'', "\\'");
        ReplaceCharCons('\\', [], '\'', "\\'");
      }
    } else {
      ReplaceCharCons(x, [], '\'', "\\'");
      assert [x] + [] == [x];
    }
  }

  /** Text without backslashes or quotes (every identifier and slug) is emitted as it is. */
  lemma PhpStringPlain(s: string)
    requires '\\' !in s && '\'' !in s
    ensures PhpString(s) == s
  {
    ReplaceCharAbsent(s, '\\', "\\\\");
    ReplaceCharAbsent(s, '\'', "\\'");
  }

  /**
   * Reads the body of a PHP single-quoted literal (opening quote consumed): `\\` is one
   * backslash, `\'` is one quote, any other backslash stands for itself, a bare `'` closes.
   */
  function ReadPhpQuoted(s: string): Option<(string, string)>
    decreases |s|
  {
    if |s| == 0 then None
    else if s[0] == '\'' then Some(([], s[1..]))
    else if s[0] == '\\' && |s| >= 2 && (s[1] == '\\' || s[1] == '\'') then
      match ReadPhpQuoted(s[2..])
      case Some(p) => Some(([s[1]] + p.0, p.1))
      case None => None
    else
      match ReadPhpQuoted(s[1..])
      case Some(p) => Some(([s[0]] + p.0, p.1))
      case None => None
  }

  /** PHP reads the emitted literal `'<phpString(v)>'` back as exactly `v`, whatever follows it. */
  lemma {:induction false} PhpStringRoundTrip(v: string, rest: string)
    ensures ReadPhpQuoted(PhpString(v) + "'" + rest) == Some((v, rest))
    decreases |v|
  {
    if |v| == 0 {
      assert PhpString(v) + "'" + rest == "'" + rest;
    } else {
      PhpStringRoundTrip(v[1..], rest);
      assert v == [v[0]] + v[1..];
      PhpStringCons(v[0], v[1..]);
      var tail := PhpString(v[1..]) + "'" + rest;
      if v[0] == '\\' || v[0] == '\'' {
        var whole := ['\\', v[0]] + tail;
        assert PhpString(v) + "'" + rest == whole;
        assert whole[2..] == tail;
      } else {
        assert PhpString(v) + "'" + rest == [v[0]] + tail;
        assert ([v[0]] + tail)[1..] == tail;
      }
    }
  }

  /** The same, for a literal embedded after any text: reading from just past the opening quote. */
  lemma PhpLiteralAt(head: string, v: string, rest: string)
    ensures StartsWith(head + PhpString(v) + "'" + rest, head)
    ensures ReadPhpQuoted((head + PhpString(v) + "'" + rest)[|head|..]) == Some((v, rest))
  {
    var s := head + PhpString(v) + "'" + rest;
    assert s == head + (PhpString(v) + "'" + rest);
    assert s[..|head|] == head;
    assert s[|head|..] == PhpString(v) + "'" + rest;
    PhpStringRoundTrip(v, rest);
  }
}

=== FILE: header.dfy ===
/**
 * The plugin-header generator: the `<?php` opening, the WordPress plugin header comment with one
 * ` * Label: value` line per filled-in field in a fixed order, and the ABSPATH guard.
 */
module PluginHeader {
  import opened Strings
  import opened Lists
  import opened Results

  // ---------------------------------------------------------------------------
  // The comma-separated plugin list
  // ---------------------------------------------------------------------------

  /** `normalizeList`: the trimmed, non-empty comma-separated items, in order. */
  function NormalizeList(s: string): (r: seq<string>)
    ensures forall k :: 0 <= k < |r| ==> r[k] != [] && Trimmed(r[k]) && ',' !in r[k]
  {
    var pieces := Split(Trim(s), ',');
    var items := MapSeq(Trim, pieces);
    forall k | 0 <= k < |items| ensures ',' !in items[k] {
      TrimChars(pieces[k], ',');
    }
    forall k | 0 <= k < |items| ensures Trimmed(items[k]) {
    }
    NonEmpty(items)
  }

  /** A character absent from a string is absent from its trim. */
  lemma TrimChars(s: string, c: char)
    requires c !in s
    ensures c !in Trim(s)
  {
    var ab := TrimRange(s);
    forall i | 0 <= i < |Trim(s)| ensures Trim(s)[i] != c {
      assert Trim(s)[i] == s[ab.0 + i];
    }
  }

  /** An item of a list as `normalizeList` returns it: non-empty, trimmed, comma-free. */
  predicate ListItem(w: string) {
    w != [] && Trimmed(w) && ',' !in w
  }

  /** `" " + w` for each item after the first. */
  function SpaceEach(ws: seq<string>): (r: seq<string>)
    ensures |r| == |ws|
    ensures forall k :: 0 <= k < |ws| ==> r[k] == " " + ws[k]
  {
    seq(|ws|, k requires 0 <= k < |ws| => " " + ws[k])
  }

  /** Joining with ", " is joining the space-prefixed items with ",". */
  lemma {:induction false} JoinSpaced(ws: seq<string>)
    requires |ws| > 0
    ensures " " + Join(ws, ", ") == Join(SpaceEach(ws), ",")
    decreases |ws|
  {
    if |ws| > 1 {
      JoinSpaced(ws[1..]);
      assert SpaceEach(ws) == [" " + ws[0]] + SpaceEach(ws[1..]);
      JoinCons(" " + ws[0], SpaceEach(ws[1..]), ",");
    }
  }

  /** A list of items joined by ", " has nothing for `trim` to strip. */
  lemma JoinTrimmed(ws: seq<string>)
    requires |ws| > 0 && forall k :: 0 <= k < |ws| ==> ListItem(ws[k])
    ensures Trim(Join(ws, ", ")) == Join(ws, ", ")
  {
    var s := Join(ws, ", ");
    JoinFirst(ws, ", ");
    JoinLast(ws, ", ");
    assert ListItem(ws[0]) && ListItem(ws[|ws| - 1]);
    assert s[0] == ws[0][0];
    assert s[|s| - 1] == ws[|ws| - 1][|ws[|ws| - 1]| - 1];
    TrimNoop(s);
  }

  lemma CommaSpace(x: string, j: string)
    ensures x + "," + (" " + j) == x + ", " + j
  {
    assert ", " == "," + " ";
  }

  /** Joining with ", " is joining with "," the first item and the others each after a space. */
  lemma JoinCommaParts(ws: seq<string>)
    requires |ws| > 0
    ensures Join(ws, ", ") == Join([ws[0]] + SpaceEach(ws[1..]), ",")
  {
    var parts := [ws[0]] + SpaceEach(ws[1..]);
    if |ws| > 1 {
      var j := Join(ws[1..], ", ");
      JoinSpaced(ws[1..]);
      assert parts[1..] == SpaceEach(ws[1..]);
      assert Join(parts, ",") == ws[0] + "," + Join(SpaceEach(ws[1..]), ",");
      assert Join(ws, ", ") == ws[0] + ", " + j;
      CommaSpace(ws[0], j);
    } else {
      assert parts == [ws[0]];
    }
  }

  /** Trimming the split pieces gives the items back. */
  lemma TrimParts(ws: seq<string>)
    requires |ws| > 0 && forall k :: 0 <= k < |ws| ==> ListItem(ws[k])
    ensures MapSeq(Trim, [ws[0]] + SpaceEach(ws[1..])) == ws
  {
    var parts := [ws[0]] + SpaceEach(ws[1..]);
    var items := MapSeq(Trim, parts);
    forall k | 0 <= k < |ws| ensures items[k] == ws[k] {
      if k == 0 {
        TrimNoop(ws[0]);
      } else {
        assert parts[k] == " " + ws[k];
        TrimSpaceCons(ws[k]);
      }
    }
  }

  /** `normalizeList(items.join(", "))` gives the items back. */
  lemma NormalizeListRoundTrip(ws: seq<string>)
    requires forall k :: 0 <= k < |ws| ==> ListItem(ws[k])
    ensures NormalizeList(Join(ws, ", ")) == ws
  {
    if |ws| > 0 {
      var s := Join(ws, ", ");
      var parts := [ws[0]] + SpaceEach(ws[1..]);
      JoinTrimmed(ws);
      JoinCommaParts(ws);
      PartsCommaFree(ws);
      SplitJoin(parts, ',');
      assert Trim(s) == Join(parts, ",");
      assert Split(Trim(s), ',') == parts;
      TrimParts(ws);
      assert MapSeq(Trim, Split(Trim(s), ',')) == ws;
      NonEmptyKeeps(ws);
    }
  }

  lemma PartsCommaFree(ws: seq<string>)
    requires |ws| > 0 && forall k :: 0 <= k < |ws| ==> ListItem(ws[k])
    ensures forall k :: 0 <= k < |ws| ==> ',' !in ([ws[0]] + SpaceEach(ws[1..]))[k]
  {
    var parts := [ws[0]] + SpaceEach(ws[1..]);
    forall k | 0 <= k < |parts| ensures ',' !in parts[k] {
      if k > 0 {
        assert parts[k] == " " + ws[k];
      }
    }
  }

  /** The listed plugins followed by WooCommerce when ticked, before duplicates are dropped. */
  function Listed(list: string, woo: bool): (xs: seq<string>)
    ensures forall k :: 0 <= k < |xs| ==> ListItem(xs[k])
    ensures forall x :: x in xs <==> x in NormalizeList(list) || (woo && x == "woocommerce")
  {
    var listed := NormalizeList(list);
    assert ListItem("woocommerce") by {
      assert "woocommerce"[0] == 'w' && "woocommerce"[10] == 'e';
    }
    listed + (if woo then ["woocommerce"] else [])
  }

  /** The `Requires Plugins` list: the listed plugins, then WooCommerce if ticked, each once. */
  function Required(list: string, woo: bool): (r: seq<string>)
    ensures NoDups(r)
    ensures forall x :: x in r <==> x in NormalizeList(list) || (woo && x == "woocommerce")
    ensures forall k :: 0 <= k < |r| ==> ListItem(r[k])
    ensures NormalizeList(list) == [] && !woo <==> r == []
  {
    var xs := Listed(list, woo);
    var r := Uniq(xs);
    assert forall x :: x in r <==> x in xs;
    assert xs != [] ==> xs[0] in r;
    r
  }

  /** The list keeps the order in which the plugins were first listed. */
  lemma RequiredOrder(list: string, woo: bool, i: nat, j: nat)
    requires var xs := NormalizeList(list); i < j < |xs| && xs[i] !in xs[..i] && xs[j] !in xs[..j]
    ensures var xs := NormalizeList(list);
      IndexOf(Required(list, woo), xs[i]) < IndexOf(Required(list, woo), xs[j])
  {
    var xs := NormalizeList(list);
    var all := Listed(list, woo);
    assert all[..i] == xs[..i] && all[..j] == xs[..j];
    UniqOrder(all, i, j);
  }

  /** The rendered `Requires Plugins` value reads back, through `normalizeList`, as the list itself. */
  lemma RequiredRoundTrip(list: string, woo: bool)
    ensures NormalizeList(Join(Required(list, woo), ", ")) == Required(list, woo)
  {
    NormalizeListRoundTrip(Required(list, woo));
  }

  /** The rendered list is empty exactly when there is nothing to require. */
  lemma RequiredJoinEmpty(list: string, woo: bool)
    ensures Join(Required(list, woo), ", ") == [] <==> Required(list, woo) == []
  {
    var r := Required(list, woo);
    if r != [] {
      JoinFirst(r, ", ");
    }
  }

  // ---------------------------------------------------------------------------
  // The header
  // ---------------------------------------------------------------------------

  /** The header fields, in the order WordPress lists them. */
  datatype Label =
    | PluginName | PluginUri | Description | Version | Author | AuthorUri
    | License | LicenseUri | RequiresPlugins | TextDomain | DomainPath | Network

  function Rank(l: Label): int {
    match l
    case PluginName => 0
    case PluginUri => 1
    case Description => 2
    case Version => 3
    case Author => 4
    case AuthorUri => 5
    case License => 6
    case LicenseUri => 7
    case RequiresPlugins => 8
    case TextDomain => 9
    case DomainPath => 10
    case Network => 11
  }

  function LabelText(l: Label): string {
    match l
    case PluginName => "Plugin Name"
    case PluginUri => "Plugin URI"
    case Description => "Description"
    case Version => "Version"
    case Author => "Author"
    case AuthorUri => "Author URI"
    case License => "License"
    case LicenseUri => "License URI"
    case RequiresPlugins => "Requires Plugins"
    case TextDomain => "Text Domain"
    case DomainPath => "Domain Path"
    case Network => "Network"
  }

  /** The form's values as the handler passes them to `buildHeader`. */
  datatype Form = Form(
    name: string, uri: string, description: string, version: string, author: string,
    authorUri: string, license: string, licenseUri: string, textDomain: string,
    domainPath: string, network: string, requiredPlugins: string, woocommerce: bool)

  /** What each label's line carries; an empty value means the line is left out. */
  function FieldValue(d: Form, l: Label): string {
    match l
    case PluginName => d.name
    case PluginUri => d.uri
    case Description => d.description
    case Version => d.version
    case Author => d.author
    case AuthorUri => d.authorUri
    case License => d.license
    case LicenseUri => d.licenseUri
    case RequiresPlugins => Join(Required(d.requiredPlugins, d.woocommerce), ", ")
    case TextDomain => d.textDomain
    case DomainPath => d.domainPath
    case Network => if d.network == "true" then "true" else ""
  }

  /** One ` * Label: value` line of the header comment. */
  datatype Line = Line(tag: Label, value: string)

  function Key(l: Line): int {
    Rank(l.tag)
  }

  predicate HasValue(l: Line) {
    l.value != []
  }

  /** The eleven optional fields, in the order `buildHeader` considers them. */
  const OptionalLabels: seq<Label> := [
    PluginUri, Description, Version, Author, AuthorUri, License, LicenseUri,
    RequiresPlugins, TextDomain, DomainPath, Network]

  lemma OptionalRanks()
    ensures |OptionalLabels| == 11
    ensures forall k :: 0 <= k < 11 ==> Rank(OptionalLabels[k]) == k + 1
  {
  }

  /** Every label but the name is optional. */
  lemma OptionalCover(l: Label)
    ensures l in OptionalLabels <==> l != PluginName
  {
    OptionalRanks();
    if l != PluginName {
      assert OptionalLabels[Rank(l) - 1] == l;
    }
  }

  /** The optional lines, each with its field's value. */
  function Optional(d: Form): (r: seq<Line>)
    ensures |r| == |OptionalLabels|
  {
    seq(|OptionalLabels|, k requires 0 <= k < |OptionalLabels| =>
      Line(OptionalLabels[k], FieldValue(d, OptionalLabels[k])))
  }

  /** The header's field lines: the name always, then each optional field that has a value. */
  function FieldLines(d: Form): seq<Line> {
    [Line(PluginName, d.name)] + Filter(HasValue, Optional(d))
  }

  /** The optional lines are those of the non-name labels, with their values. */
  lemma OptionalValues(d: Form, l: Label, v: string)
    ensures Line(l, v) in Optional(d) <==> l != PluginName && v == FieldValue(d, l)
  {
    var opt := Optional(d);
    OptionalCover(l);
    if l != PluginName && v == FieldValue(d, l) {
      var k :| 0 <= k < |OptionalLabels| && OptionalLabels[k] == l;
      assert opt[k] == Line(l, v);
    }
    if Line(l, v) in opt {
      var k :| 0 <= k < |opt| && opt[k] == Line(l, v);
      assert OptionalLabels[k] == l;
    }
  }

  /**
   * A label's line is in the header exactly when its value is non-empty (the name always), and
   * then it carries that value.
   */
  lemma FieldPresent(d: Form, l: Label, v: string)
    ensures Line(l, v) in FieldLines(d) <==> v == FieldValue(d, l) && (l == PluginName || v != [])
  {
    var opt := Optional(d);
    FilterKeeps(HasValue, opt);
    var kept := Filter(HasValue, opt);
    if Line(l, v) in kept {
      assert HasValue(Line(l, v)) by {
        var k :| 0 <= k < |kept| && kept[k] == Line(l, v);
      }
    }
    OptionalValues(d, l, v);
  }

  /** The field lines come in WordPress's order, each label at most once. */
  lemma FieldsOrdered(d: Form)
    ensures Increasing(Key, FieldLines(d))
  {
    var opt := Optional(d);
    OptionalRanks();
    assert forall k :: 0 <= k < |opt| ==> Key(opt[k]) == k + 1;
    assert Increasing(Key, opt);
    FilterIncreasing(HasValue, Key, opt);
    var kept := Filter(HasValue, opt);
    forall x | x in kept ensures Key(x) > 0 {
      var k :| 0 <= k < |opt| && opt[k] == x;
    }
    IncreasingCons(Key, Line(PluginName, d.name), kept);
  }

  /** The network line is present exactly when the network field is the string "true". */
  lemma NetworkLine(d: Form)
    ensures Line(Network, "true") in FieldLines(d) <==> d.network == "true"
  {
    FieldPresent(d, Network, "true");
  }

  /** A `Requires Plugins` line is present exactly when a plugin is listed or WooCommerce ticked. */
  lemma RequiresLine(d: Form)
    ensures (exists v :: Line(RequiresPlugins, v) in FieldLines(d))
      <==> NormalizeList(d.requiredPlugins) != [] || d.woocommerce
  {
    var v := FieldValue(d, RequiresPlugins);
    RequiredJoinEmpty(d.requiredPlugins, d.woocommerce);
    if v != [] {
      FieldPresent(d, RequiresPlugins, v);
    } else {
      forall w | Line(RequiresPlugins, w) in FieldLines(d) ensures false {
        FieldPresent(d, RequiresPlugins, w);
      }
    }
  }

  function FieldText(l: Line): string {
    " * " + LabelText(l.tag) + ": " + l.value
  }

  const ClosingLines: seq<string> := [
    " */", "", "// Prevent direct access to this file",
    "if ( ! defined( 'ABSPATH' ) ) {", "\texit;", "}", ""]

  /** The lines `buildHeader` pushes. */
  function HeaderLines(d: Form): seq<string> {
    ["<?php", "/**"] + MapSeq(FieldText, FieldLines(d)) + ClosingLines
  }

  /** `buildHeader(d)`: the lines joined by newlines. */
  function BuildHeader(d: Form): (r: string)
    ensures StartsWith(r, "<?php\n/**\n * Plugin Name: " + d.name)
    ensures EndsWith(r, "\n" + Join(ClosingLines, "\n"))
  {
    var fields := MapSeq(FieldText, FieldLines(d));
    JoinCloses(["<?php", "/**"] + fields, ClosingLines, "\n");
    HeaderStarts(fields, d.name, ClosingLines);
    Join(HeaderLines(d), "\n")
  }

  lemma OpeningText(name: string)
    ensures "<?php" + "\n" + ("/**" + "\n" + (" * " + "Plugin Name" + ": " + name))
      == "<?php\n/**\n * Plugin Name: " + name
  {
    assert " * " + "Plugin Name" + ": " == " * Plugin Name: ";
    assert "<?php" + "\n" + "/**" + "\n" + " * Plugin Name: " == "<?php\n/**\n * Plugin Name: ";
  }

  lemma HeaderStarts(fields: seq<string>, name: string, closing: seq<string>)
    requires |fields| > 0 && fields[0] == " * " + "Plugin Name" + ": " + name
    ensures StartsWith(Join(["<?php", "/**"] + fields + closing, "\n"), "<?php\n/**\n * Plugin Name: " + name)
  {
    var rest := fields + closing;
    assert ["<?php", "/**"] + fields + closing == ["<?php", "/**"] + rest;
    JoinOpens("<?php", "/**", rest, "\n");
    OpeningText(name);
  }

  datatype HeaderError = MissingName

  /** The handler's `clean` of every text field. */
  function Clean(raw: Form): (d: Form)
    ensures d.name == Trim(raw.name) && d.uri == Trim(raw.uri)
    ensures d.description == Trim(raw.description) && d.version == Trim(raw.version)
    ensures d.author == Trim(raw.author) && d.authorUri == Trim(raw.authorUri)
    ensures d.license == Trim(raw.license) && d.licenseUri == Trim(raw.licenseUri)
    ensures d.textDomain == Trim(raw.textDomain) && d.domainPath == Trim(raw.domainPath)
    ensures d.network == Trim(raw.network) && d.requiredPlugins == Trim(raw.requiredPlugins)
    ensures d.woocommerce == raw.woocommerce
  {
    Form(Trim(raw.name), Trim(raw.uri), Trim(raw.description), Trim(raw.version),
         Trim(raw.author), Trim(raw.authorUri), Trim(raw.license), Trim(raw.licenseUri),
         Trim(raw.textDomain), Trim(raw.domainPath), Trim(raw.network),
         Trim(raw.requiredPlugins), raw.woocommerce)
  }

  /** Cleaning a cleaned form changes nothing. */
  lemma CleanIdempotent(raw: Form)
    ensures Clean(Clean(raw)) == Clean(raw)
  {
    TrimIdempotent(raw.name);
    TrimIdempotent(raw.uri);
    TrimIdempotent(raw.description);
    TrimIdempotent(raw.version);
    TrimIdempotent(raw.author);
    TrimIdempotent(raw.authorUri);
    TrimIdempotent(raw.license);
    TrimIdempotent(raw.licenseUri);
    TrimIdempotent(raw.textDomain);
    TrimIdempotent(raw.domainPath);
    TrimIdempotent(raw.network);
    TrimIdempotent(raw.requiredPlugins);
  }

  /**
   * The Generate handler: a blank plugin name is refused; otherwise the header for the cleaned
   * fields, opening with the trimmed name and closing with the ABSPATH guard.
   */
  function Generate(raw: Form): (r: Result<string, HeaderError>)
    ensures r.Err? <==> Trim(raw.name) == []
    ensures r.Ok? ==> StartsWith(r.value, "<?php\n/**\n * Plugin Name: " + Trim(raw.name))
    ensures r.Ok? ==> EndsWith(r.value, "\n" + Join(ClosingLines, "\n"))
  {
    if Trim(raw.name) == [] then Err(MissingName) else Ok(BuildHeader(Clean(raw)))
  }
}

=== FILE: lists.dfy ===
/**
 * Order-preserving de-duplication, the one list algorithm the generators share:
 * `Array.from(new Set(arr))` in the plugin-header generator and the `map[name]`
 * loop that de-duplicates the allowed-column list in the CRUD generator both keep
 * the first occurrence of every element, in first-seen order.
 */
module Lists {

  predicate NoDups<T(==)>(s: seq<T>) {
    forall i, j :: 0 <= i < j < |s| ==> s[i] != s[j]
  }

  /** Position of an element that is known to occur. */
  function IndexOf<T(==)>(s: seq<T>, x: T): (k: nat)
    requires x in s
    ensures k < |s| && s[k] == x
    ensures forall j :: 0 <= j < k ==> s[j] != x
  {
    if s[0] == x then 0 else 1 + IndexOf(s[1..], x)
  }

  /** The first occurrence of every element of `s`, in the order they were first seen. */
  function Uniq<T(==)>(s: seq<T>): (r: seq<T>)
    ensures NoDups(r)
    ensures forall k :: 0 <= k < |r| ==> r[k] in s
    ensures forall i :: 0 <= i < |s| ==> s[i] in r
    ensures |r| <= |s|
    decreases |s|
  {
    if |s| == 0 then []
    else
      var prev := Uniq(s[..|s| - 1]);
      if s[|s| - 1] in s[..|s| - 1] then prev else prev + [s[|s| - 1]]
  }

  /** Reading more input only ever appends to the result: earlier choices are never reordered. */
  lemma {:induction false} UniqPrefix<T>(s: seq<T>, i: nat)
    requires i <= |s|
    ensures Uniq(s[..i]) <= Uniq(s)
    decreases |s| - i
  {
    if i < |s| {
      var t := s[..|s| - 1];
      assert t[..i] == s[..i];
      UniqPrefix(t, i);
      assert s[..|s|] == s;
    } else {
      assert s[..i] == s;
    }
  }

  /** The first element of the input is the first element of the result. */
  lemma UniqHead<T>(s: seq<T>)
    requires |s| > 0
    ensures |Uniq(s)| > 0 && Uniq(s)[0] == s[0]
  {
    UniqPrefix(s, 1);
    assert s[..1][..0] == [];
    assert s[..1] == [s[0]];
  }

  /** A first occurrence lands right after everything seen before it. */
  lemma UniqAt<T>(s: seq<T>, i: nat)
    requires i < |s| && s[i] !in s[..i]
    ensures |Uniq(s[..i])| < |Uniq(s)| && Uniq(s)[|Uniq(s[..i])|] == s[i]
  {
    var t := s[..i + 1];
    assert t[..|t| - 1] == s[..i];
    assert Uniq(t) == Uniq(s[..i]) + [s[i]];
    UniqPrefix(s, i + 1);
  }

  lemma UniqSingle<T>(a: T)
    ensures Uniq([a]) == [a]
  {
    assert [a][..0] == [];
  }

  lemma UniqPair<T>(a: T, b: T)
    ensures Uniq([a, b]) == if a == b then [a] else [a, b]
  {
    assert [a, b][..1] == [a];
    UniqSingle(a);
  }

  /** Elements keep the relative order of their first occurrences. */
  lemma UniqOrder<T>(s: seq<T>, i: nat, j: nat)
    requires i < j < |s|
    requires s[i] !in s[..i] && s[j] !in s[..j]
    ensures s[i] in Uniq(s) && s[j] in Uniq(s)
    ensures IndexOf(Uniq(s), s[i]) < IndexOf(Uniq(s), s[j])
  {
    UniqAt(s, i);
    UniqAt(s, j);
    assert s[..j][..i] == s[..i];
    UniqAt(s[..j], i);
    NoDupsIndex(Uniq(s), |Uniq(s[..i])|);
    NoDupsIndex(Uniq(s), |Uniq(s[..j])|);
  }

  lemma NoDupsIndex<T>(s: seq<T>, k: nat)
    requires NoDups(s) && k < |s|
    ensures IndexOf(s, s[k]) == k
  {
  }

  /** A list without duplicates is left as it is, so de-duplicating twice changes nothing. */
  lemma {:induction false} UniqNoDups<T>(s: seq<T>)
    requires NoDups(s)
    ensures Uniq(s) == s
    decreases |s|
  {
    if |s| > 0 {
      UniqNoDups(s[..|s| - 1]);
      assert s == s[..|s| - 1] + [s[|s| - 1]];
    }
  }

  lemma UniqIdempotent<T>(s: seq<T>)
    ensures Uniq(Uniq(s)) == Uniq(s)
  {
    UniqNoDups(Uniq(s));
  }

  /** `arr.map(f)`. */
  function MapSeq<A, B>(f: A -> B, s: seq<A>): (r: seq<B>)
    ensures |r| == |s|
  {
    seq(|s|, k requires 0 <= k < |s| => f(s[k]))
  }

  lemma MapSeqConcat<A, B>(f: A -> B, a: seq<A>, b: seq<A>)
    ensures MapSeq(f, a + b) == MapSeq(f, a) + MapSeq(f, b)
  {
  }

  /** Every element satisfies `p`. */
  predicate All<T>(p: T -> bool, s: seq<T>) {
    forall k :: 0 <= k < |s| ==> p(s[k])
  }

  lemma AllConcat<T>(p: T -> bool, a: seq<T>, b: seq<T>)
    requires All(p, a) && All(p, b)
    ensures All(p, a + b)
  {
  }

  /** `arr.filter(p)`: the elements satisfying `p`, in order. */
  function Filter<T>(p: T -> bool, s: seq<T>): (r: seq<T>)
    ensures |r| <= |s|
    ensures All(p, r)
    ensures forall x :: x in r ==> x in s
  {
    if |s| == 0 then []
    else
      var prev := Filter(p, s[..|s| - 1]);
      var last := if p(s[|s| - 1]) then [s[|s| - 1]] else [];
      AllConcat(p, prev, last);
      prev + last
  }

  lemma {:induction false} FilterConcat<T>(p: T -> bool, a: seq<T>, b: seq<T>)
    ensures Filter(p, a + b) == Filter(p, a) + Filter(p, b)
    decreases |b|
  {
    if |b| == 0 {
      assert a + b == a;
    } else {
      var init := b[..|b| - 1];
      assert (a + b)[..|a + b| - 1] == a + init;
      assert (a + b)[|a + b| - 1] == b[|b| - 1];
      FilterConcat(p, a, init);
    }
  }

  /** The keys strictly increase along the sequence. */
  predicate Increasing<T>(key: T -> int, s: seq<T>) {
    forall i, j :: 0 <= i < j < |s| ==> key(s[i]) < key(s[j])
  }

  /** An element below everything in an increasing sequence may go in front of it. */
  lemma IncreasingCons<T>(key: T -> int, x: T, s: seq<T>)
    requires Increasing(key, s) && forall y :: y in s ==> key(x) < key(y)
    ensures Increasing(key, [x] + s)
  {
    var r := [x] + s;
    forall i, j | 0 <= i < j < |r| ensures key(r[i]) < key(r[j]) {
      assert r[j] == s[j - 1];
      if i > 0 {
        assert r[i] == s[i - 1];
      }
    }
  }

  /** Filtering keeps the order of what it keeps. */
  lemma {:induction false} FilterIncreasing<T>(p: T -> bool, key: T -> int, s: seq<T>)
    requires Increasing(key, s)
    ensures Increasing(key, Filter(p, s))
    decreases |s|
  {
    if |s| > 0 {
      var init := s[..|s| - 1];
      assert Increasing(key, init);
      FilterIncreasing(p, key, init);
      var prev := Filter(p, init);
      forall x | x in prev ensures key(x) < key(s[|s| - 1]) {
        var i :| 0 <= i < |init| && init[i] == x;
      }
    }
  }

  /** Nothing that satisfies `p` is dropped. */
  lemma {:induction false} FilterKeeps<T>(p: T -> bool, s: seq<T>)
    ensures forall x :: x in s && p(x) ==> x in Filter(p, s)
    decreases |s|
  {
    if |s| > 0 {
      var init := s[..|s| - 1];
      FilterKeeps(p, init);
      assert s == init + [s[|s| - 1]];
    }
  }

  /** A filter that every element passes is the identity. */
  lemma {:induction false} FilterAll<T>(p: T -> bool, s: seq<T>)
    requires All(p, s)
    ensures Filter(p, s) == s
    decreases |s|
  {
    if |s| > 0 {
      FilterAll(p, s[..|s| - 1]);
      assert s == s[..|s| - 1] + [s[|s| - 1]];
    }
  }
}

=== FILE: migration.dfy ===
/**
 * The migration tool: eight `UPDATE … SET col = REPLACE(col, 'from', 'to')` statements that move a
 * WordPress site from one URL to another, over the options, posts, postmeta, termmeta and comments
 * tables under a chosen prefix.
 */
module Migration {
  import opened Strings
  import opened Lists
  import opened Results
  import opened Escaping
  import opened Prefixes

  // ---------------------------------------------------------------------------
  // URLs
  // ---------------------------------------------------------------------------

  predicate NotSpace(c: char) {
    !IsSpace(c)
  }

  /** `.replace(/\s+/g, "")`: every white-space character removed. */
  function RemoveSpace(s: string): (r: string)
    ensures NoSpace(r)
    ensures forall c :: c in r <==> c in s && !IsSpace(c)
  {
    FilterKeeps(NotSpace, s);
    Filter(NotSpace, s)
  }

  /** `.replace(/\/+$/, "")`: the run of `/` at the end removed. */
  function StripSlashes(s: string): (r: string)
    ensures StartsWith(s, r)
    ensures r == [] || r[|r| - 1] != '/'
    ensures forall i :: |r| <= i < |s| ==> s[i] == '/'
  {
    if |s| > 0 && s[|s| - 1] == '/' then
      var r := StripSlashes(s[..|s| - 1]);
      assert s[..|s| - 1][..|r|] == s[..|r|];
      r
    else
      assert s[..|s|] == s;
      s
  }

  /** `normalizeUrl`: trimmed, every white space removed, trailing slashes dropped. */
  function NormalizeUrl(url: string): (r: string)
    ensures NoSpace(r)
    ensures r == [] || r[|r| - 1] != '/'
  {
    var u := RemoveSpace(Trim(url));
    var r := StripSlashes(u);
    NoSpacePrefix(u, r);
    r
  }

  lemma NoSpacePrefix(s: string, p: string)
    requires NoSpace(s) && StartsWith(s, p)
    ensures NoSpace(p)
  {
    forall i | 0 <= i < |p| ensures !IsSpace(p[i]) {
      assert p[i] == s[..|p|][i];
    }
  }

  /** A normalised URL is left as it is. */
  lemma NormalizeUrlIdempotent(url: string)
    ensures NormalizeUrl(NormalizeUrl(url)) == NormalizeUrl(url)
  {
    var r := NormalizeUrl(url);
    NoSpaceTrim(r);
    FilterAll(NotSpace, r);
  }

  /** A URL with no white space and no trailing slash is its own normal form. */
  lemma NormalizeUrlPlain(url: string)
    requires NoSpace(url) && (url == [] || url[|url| - 1] != '/')
    ensures NormalizeUrl(url) == url
  {
    NoSpaceTrim(url);
    FilterAll(NotSpace, url);
  }

  /** A scheme followed by `//` and nothing else normalises to the bare scheme. */
  lemma SchemeSlashes(p: string)
    requires p != [] && p[|p| - 1] != '/'
    requires forall i :: 0 <= i < |p| ==> '!' <= p[i] <= '~'
    ensures NormalizeUrl(p + "//") == p
  {
    var s := p + "//";
    assert NoSpace(s) by {
      forall i | 0 <= i < |s| ensures !IsSpace(s[i]) {
        if i < |p| {
          assert s[i] == p[i];
        }
      }
    }
    NormalizeUrlSpaceFree(s);
    assert s[..|s| - 1] == p + "/";
    assert (p + "/")[..|p|] == p;
  }

  /** `http://` and `https://` normalise to the bare schemes `http:` and `https:`. */
  lemma BareSchemes()
    ensures NormalizeUrl("http://") == "http:"
    ensures NormalizeUrl("https://") == "https:"
  {
    HttpBare();
    HttpsBare();
  }

  lemma HttpBare()
    ensures NormalizeUrl("http://") == "http:"
  {
    var p := "http:";
    assert forall i :: 0 <= i < |p| ==> '!' <= p[i] <= '~';
    SchemeSlashes(p);
    assert p + "//" == "http://";
  }

  lemma HttpsBare()
    ensures NormalizeUrl("https://") == "https:"
  {
    var q := "https:";
    assert forall i :: 0 <= i < |q| ==> '!' <= q[i] <= '~';
    SchemeSlashes(q);
    assert q + "//" == "https://";
  }

  /** Without white space, normalising only drops the trailing slashes. */
  lemma NormalizeUrlSpaceFree(url: string)
    requires NoSpace(url)
    ensures NormalizeUrl(url) == StripSlashes(url)
  {
    NoSpaceTrim(url);
    FilterAll(NotSpace, url);
  }

  // ---------------------------------------------------------------------------
  // The guard
  // ---------------------------------------------------------------------------

  /** The guard as written: empty, `http://` and `https://` are refused. */
  predicate ValidAsWritten(u: string) {
    u != [] && u != "http://" && u != "https://"
  }

  /** A normalised URL never ends in `/`, so the two comparisons of the guard can never succeed. */
  lemma GuardComparisonsDead(url: string)
    ensures ValidAsWritten(NormalizeUrl(url)) <==> NormalizeUrl(url) != []
  {
    var u := NormalizeUrl(url);
    assert "http://"[6] == '/' && "https://"[7] == '/';
  }

  /** What the guard evidently means: refuse what normalises like an empty or scheme-only URL. */
  predicate Valid(u: string) {
    u != [] && u != "http:" && u != "https:"
  }

  /** The corrected guard refuses every input that normalises like `http://` or `https://`. */
  lemma ValidRefusesSchemes(url: string)
    ensures !Valid(NormalizeUrl(url)) <==>
      NormalizeUrl(url) in {NormalizeUrl(""), NormalizeUrl("http://"), NormalizeUrl("https://")}
  {
    BareSchemes();
    NormalizeUrlPlain("");
  }

  // ---------------------------------------------------------------------------
  // The prefix
  // ---------------------------------------------------------------------------

  /**
   * `(value || "wp_").trim()` with `_` appended unless present. An empty field gives `wp_`; a field
   * of white space only is not empty, trims to nothing and gives `_`; otherwise it agrees with the
   * prefix tool's normalisation.
   */
  function EffectivePrefix(value: string): (r: string)
    ensures EndsWith(r, "_")
    ensures value == [] ==> r == "wp_"
    ensures value != [] && Trim(value) == [] ==> r == "_"
    ensures Trim(value) != [] ==> r == NormalizePrefix(value)
  {
    var p := Trim(OrElse(value, "wp_"));
    DefaultPrefix();
    assert value != [] ==> p == Trim(value);
    assert value == [] ==> p == "wp_";
    AppendUnderscore(p);
    if EndsWith(p, "_") then p else p + "_"
  }

  lemma DefaultPrefix()
    ensures Trim("wp_") == "wp_" && EndsWith("wp_", "_")
  {
    NoSpaceTrim("wp_");
  }

  lemma AppendUnderscore(p: string)
    ensures EndsWith(p + "_", "_")
  {
    EndsWithConcat(p, "_");
  }

  // ---------------------------------------------------------------------------
  // The queries
  // ---------------------------------------------------------------------------

  /** Which rows a statement touches. */
  datatype Scope = Everywhere | HomeAndSiteUrl | AttachmentsOnly

  datatype Update = Update(table: string, column: string, scope: Scope)

  /** The eight statements of `buildQueries`, in order. */
  const Updates: seq<Update> := [
    Update("options", "option_value", HomeAndSiteUrl),
    Update("posts", "post_content", Everywhere),
    Update("posts", "post_excerpt", Everywhere),
    Update("postmeta", "meta_value", Everywhere),
    Update("termmeta", "meta_value", Everywhere),
    Update("comments", "comment_content", Everywhere),
    Update("comments", "comment_author_url", Everywhere),
    Update("posts", "guid", AttachmentsOnly)]

  /** The columns of the core tables the statements may rewrite. */
  predicate ColumnOf(table: string, column: string) {
    || (table == "options" && column == "option_value")
    || (table == "posts" && column in {"post_content", "post_excerpt", "guid"})
    || (table in {"postmeta", "termmeta"} && column == "meta_value")
    || (table == "comments" && column in {"comment_content", "comment_author_url"})
  }

  /**
   * Every statement rewrites a real column of its table; only the options statement (restricted
   * to `home` and `siteurl`) and the guid statement (restricted to attachments) are scoped.
   */
  lemma UpdatesShape()
    ensures |Updates| == 8
    ensures forall k :: 0 <= k < 8 ==> ColumnOf(Updates[k].table, Updates[k].column)
    ensures forall k :: 0 <= k < 8 ==> (Updates[k].scope == Everywhere <==> 0 < k < 7)
    ensures Updates[0].table == "options" && Updates[0].scope == HomeAndSiteUrl
    ensures Updates[7].column == "guid" && Updates[7].scope == AttachmentsOnly
  {
  }

  /** `REPLACE(col, 'from', 'to')` with both URLs escaped, built from the right. */
  function ReplaceCall(column: string, f: string, t: string): string {
    var second := SqlEscape(t) + "'" + ")";
    var first := SqlEscape(f) + "'" + (", '" + second);
    "REPLACE(" + column + ", '" + first
  }

  /** Under the standard quote-doubling reading, the SQL literals in a REPLACE call read back as exactly the two URLs. */
  lemma ReplaceCallReads(column: string, f: string, t: string)
    ensures var call := ReplaceCall(column, f, t);
      var head := "REPLACE(" + column + ", '";
      && StartsWith(call, head)
      && ReadSqlQuoted(call[|head|..]) == Some((f, ", '" + SqlEscape(t) + "')"))
      && ReadSqlQuoted((", '" + SqlEscape(t) + "')")[3..]) == Some((t, ")"))
  {
    var head := "REPLACE(" + column + ", '";
    var second := SqlEscape(t) + "'" + ")";
    var rest := ", '" + second;
    var first := SqlEscape(f) + "'" + rest;
    StartsWithConcat(head, first);
    assert (head + first)[|head|..] == first;
    SqlEscapeRoundTrip(f, rest);
    assert rest == ", '" + SqlEscape(t) + "')";
    assert rest[3..] == second;
    SqlEscapeRoundTrip(t, ")");
  }

  function ScopeText(s: Scope): string {
    match s
    case Everywhere => ""
    case HomeAndSiteUrl => "\nWHERE option_name = 'home' OR option_name = 'siteurl'"
    case AttachmentsOnly => "\nWHERE post_type = 'attachment'"
  }

  /** One statement for prefix `p`. */
  function UpdateText(u: Update, f: string, t: string, p: string): (r: string)
    ensures StartsWith(r, "UPDATE " + p + u.table + "\nSET " + u.column + " = ")
    ensures EndsWith(r, ScopeText(u.scope) + ";")
  {
    var head := "UPDATE " + p + u.table + "\nSET " + u.column + " = ";
    var tail := ScopeText(u.scope) + ";";
    var mid := ReplaceCall(u.column, f, t);
    Wrapped(head, mid, tail);
    head + mid + tail
  }

  function Statements(f: string, t: string, p: string): (r: seq<string>)
    ensures |r| == |Updates|
    ensures forall k :: 0 <= k < |r| ==> r[k] == UpdateText(Updates[k], f, t, p)
  {
    seq(|Updates|, k requires 0 <= k < |Updates| => UpdateText(Updates[k], f, t, p))
  }

  /**
   * `buildQueries(from, to, prefix)`: the statements separated by blank lines, ending in a
   * newline; it opens with the options update and closes with the attachments restriction.
   */
  function BuildQueries(f: string, t: string, p: string): (r: string)
    ensures StartsWith(r, "UPDATE " + p + "options\nSET option_value = ")
    ensures EndsWith(r, "\nWHERE post_type = 'attachment';\n")
  {
    var ss := Statements(f, t, p);
    var body := Join(ss, "\n\n");
    JoinFirst(ss, "\n\n");
    JoinLast(ss, "\n\n");
    QueriesEnds(body, ss[7]);
    QueriesStarts(body, ss[0], p);
    body + "\n"
  }

  /**
   * The text is exactly the eight statements in order: statement `k` is preceded by the statements
   * before it and a blank line, and followed by a blank line and the statements after it (the last
   * by the closing newline).
   */
  lemma QueriesAt(f: string, t: string, p: string, k: nat)
    requires k < |Updates|
    ensures var ss := Statements(f, t, p);
      BuildQueries(f, t, p) ==
        (if k == 0 then [] else Join(ss[..k], "\n\n") + "\n\n")
        + UpdateText(Updates[k], f, t, p)
        + (if k == |Updates| - 1 then [] else "\n\n" + Join(ss[k + 1..], "\n\n"))
        + "\n"
  {
    JoinAt(Statements(f, t, p), k, "\n\n");
  }

  lemma QueriesStarts(body: string, first: string, p: string)
    requires StartsWith(body, first)
    requires StartsWith(first, "UPDATE " + p + "options" + "\nSET " + "option_value" + " = ")
    ensures StartsWith(body + "\n", "UPDATE " + p + "options\nSET option_value = ")
  {
    assert "UPDATE " + p + "options" + "\nSET " + "option_value" + " = "
      == "UPDATE " + p + "options\nSET option_value = ";
    assert (body + "\n")[..|body|] == body;
  }

  lemma QueriesEnds(body: string, last: string)
    requires EndsWith(body, last)
    requires EndsWith(last, "\nWHERE post_type = 'attachment'" + ";")
    ensures EndsWith(body + "\n", "\nWHERE post_type = 'attachment';\n")
  {
    var tail := "\nWHERE post_type = 'attachment';";
    assert "\nWHERE post_type = 'attachment'" + ";" == tail;
    assert body[|body| - |tail|..] == tail;
    assert (body + "\n")[|body + "\n"| - |tail + "\n"|..] == body[|body| - |tail|..] + "\n";
  }

  // ---------------------------------------------------------------------------
  // The Generate handler
  // ---------------------------------------------------------------------------

  datatype MigrationError = InvalidFrom | InvalidTo

  /** The handler with its guard as written. */
  function GenerateAsWritten(fromInput: string, toInput: string, prefixInput: string): (r: Result<string, MigrationError>)
    ensures r.Err? <==> NormalizeUrl(fromInput) == [] || NormalizeUrl(toInput) == []
    ensures r == Err(InvalidFrom) <==> NormalizeUrl(fromInput) == []
    ensures r.Ok? ==> r.value == BuildQueries(NormalizeUrl(fromInput), NormalizeUrl(toInput), EffectivePrefix(prefixInput))
  {
    var f := NormalizeUrl(fromInput);
    var t := NormalizeUrl(toInput);
    GuardComparisonsDead(fromInput);
    GuardComparisonsDead(toInput);
    if !ValidAsWritten(f) then Err(InvalidFrom)
    else if !ValidAsWritten(t) then Err(InvalidTo)
    else Ok(BuildQueries(f, t, EffectivePrefix(prefixInput)))
  }

  /** `http://` as the source URL is let through by the guard as written. */
  lemma SchemeOnlyAccepted()
    ensures GenerateAsWritten("http://", "https://example.org", "").Ok?
    ensures Generate("http://", "https://example.org", "") == Err(InvalidFrom)
  {
    BareSchemes();
    var t := "https://example.org";
    assert t[0] == 'h' && t[|t| - 1] == 'g';
  }

  /**
   * The Generate handler: the source URL is checked first, then the target; on success the
   * queries for the normalised URLs under the effective prefix.
   */
  function Generate(fromInput: string, toInput: string, prefixInput: string): (r: Result<string, MigrationError>)
    ensures r == Err(InvalidFrom) <==> !Valid(NormalizeUrl(fromInput))
    ensures r == Err(InvalidTo) <==> Valid(NormalizeUrl(fromInput)) && !Valid(NormalizeUrl(toInput))
    ensures r.Ok? ==> r.value == BuildQueries(NormalizeUrl(fromInput), NormalizeUrl(toInput), EffectivePrefix(prefixInput))
    ensures r.Ok? ==> StartsWith(r.value, "UPDATE " + EffectivePrefix(prefixInput) + "options\nSET option_value = ")
    ensures r.Ok? ==> EndsWith(r.value, "\nWHERE post_type = 'attachment';\n")
  {
    var f := NormalizeUrl(fromInput);
    var t := NormalizeUrl(toInput);
    if !Valid(f) then Err(InvalidFrom)
    else if !Valid(t) then Err(InvalidTo)
    else Ok(BuildQueries(f, t, EffectivePrefix(prefixInput)))
  }

  /**
   * Every accepted request rewrites each of the eight columns with a REPLACE call whose two
   * literals are the normalised source and target URLs (read back by `ReplaceCallReads`).
   */
  lemma GenerateReplaces(fromInput: string, toInput: string, prefixInput: string, k: nat)
    requires Valid(NormalizeUrl(fromInput)) && Valid(NormalizeUrl(toInput)) && k < |Updates|
    ensures Generate(fromInput, toInput, prefixInput).Ok?
    ensures Contains(Generate(fromInput, toInput, prefixInput).value,
      ReplaceCall(Updates[k].column, NormalizeUrl(fromInput), NormalizeUrl(toInput)))
  {
    QueriesCall(NormalizeUrl(fromInput), NormalizeUrl(toInput), EffectivePrefix(prefixInput), k);
  }

  /** Statement `k` of the queries holds the REPLACE call of the two URLs for its column. */
  lemma QueriesCall(f: string, t: string, p: string, k: nat)
    requires k < |Updates|
    ensures Contains(BuildQueries(f, t, p), ReplaceCall(Updates[k].column, f, t))
  {
    var u := Updates[k];
    QueriesAt(f, t, p, k);
    var ss := Statements(f, t, p);
    var before := if k == 0 then [] else Join(ss[..k], "\n\n") + "\n\n";
    var after := if k == |Updates| - 1 then [] else "\n\n" + Join(ss[k + 1..], "\n\n");
    var head := "UPDATE " + p + u.table + "\nSET " + u.column + " = ";
    var call := ReplaceCall(u.column, f, t);
    var tail := ScopeText(u.scope) + ";";
    assert UpdateText(u, f, t, p) == head + call + tail;
    ContainsWithin(before, head, call, tail, after, "\n");
  }
}

=== FILE: prefix.dfy ===
/**
 * `normalizePrefix`, shared word for word by the database prefix tool and the WooCommerce
 * product-delete tool: the trimmed prefix, terminated by `_` unless it already is; blank stays blank.
 */
module Prefixes {
  import opened Strings

  function NormalizePrefix(p: string): (r: string)
    ensures r == [] <==> Trim(p) == []
    ensures r != [] ==> EndsWith(r, "_") && StartsWith(r, Trim(p))
    ensures r == Trim(p) || r == Trim(p) + "_"
    ensures EndsWith(Trim(p), "_") ==> r == Trim(p)
  {
    var t := Trim(p);
    if t == [] then []
    else if EndsWith(t, "_") then t
    else
      StartsWithConcat(t, "_");
      EndsWithConcat(t, "_");
      t + "_"
  }

  /** A normalised prefix is left as it is. */
  lemma NormalizePrefixIdempotent(p: string)
    ensures NormalizePrefix(NormalizePrefix(p)) == NormalizePrefix(p)
  {
    var r := NormalizePrefix(p);
    if r != [] {
      var t := Trim(p);
      assert r[0] == t[0];
      assert r[|r| - 1] == '_';
      TrimNoop(r);
    }
  }

  /** Normalising adds no character but `_`. */
  lemma NormalizePrefixChars(p: string, c: char)
    requires c != '_'
    ensures c !in p ==> c !in NormalizePrefix(p)
  {
    var ab := TrimRange(p);
    if c !in p {
      forall i | 0 <= i < |Trim(p)| ensures Trim(p)[i] != c {
        assert Trim(p)[i] == p[ab.0 + i];
      }
    }
  }
}

/**
 * The database prefix tool: the SQL that renames every WordPress table (and optionally every
 * WooCommerce table, and every multisite subsite's tables) from one prefix to another, and
 * rewrites the option and user-meta keys that embed the prefix.
 */
module PrefixTool {
  import opened Strings
  import opened Results
  import opened Prefixes

  // ---------------------------------------------------------------------------
  // Site IDs: "2, 3, x" -> [2, 3]
  // ---------------------------------------------------------------------------

  /** The length of the optional `+` or `-` that `parseInt` accepts before the digits. */
  function SignLength(s: string): (n: nat)
    ensures n <= 1 && n <= |s|
    ensures n == 1 <==> s != [] && (s[0] == '+' || s[0] == '-')
  {
    if |s| > 0 && (s[0] == '+' || s[0] == '-') then 1 else 0
  }

  /**
   * `parseInt(s, 10)` on a trimmed string: an optional sign and the longest run of ASCII digits
   * after it; whatever follows is ignored, and no digit at all is NaN (None).
   */
  function ParseIntPrefix(s: string): (r: Option<int>)
    ensures r.Some? <==> SignLength(s) < |s| && IsDigit(s[SignLength(s)])
    ensures r.Some? && SignLength(s) == 1 && s[0] == '-' ==> r.value <= 0
    ensures r.Some? && !(SignLength(s) == 1 && s[0] == '-') ==> r.value >= 0
    ensures s != [] && AllDigits(s) ==> r == Some(DigitsValue(s))
  {
    var start := SignLength(s);
    var k := DigitRunEnd(s, start);
    assert s != [] && AllDigits(s) ==> start == 0 && k == |s| && s[start..k] == s;
    if k == start then None
    else
      var v := DigitsValue(s[start..k]);
      Some(if start == 1 && s[0] == '-' then -(v as int) else v as int)
  }

  /**
   * A sign, a run of digits, then anything that does not start with a digit: `parseInt` reads the
   * signed value of the run and ignores the rest.
   */
  lemma ParseIntReads(sign: string, digits: string, rest: string)
    requires sign == [] || sign == "+" || sign == "-"
    requires digits != [] && AllDigits(digits)
    requires rest == [] || !IsDigit(rest[0])
    ensures ParseIntPrefix(sign + digits + rest)
      == Some(if sign == "-" then -(DigitsValue(digits) as int) else DigitsValue(digits) as int)
  {
    var s := sign + digits + rest;
    var m := |sign| + |digits|;
    assert IsDigit(digits[0]) && s[|sign|] == digits[0];
    assert SignLength(s) == |sign|;
    var k := DigitRunEnd(s, |sign|);
    forall j | |sign| <= j < m ensures IsDigit(s[j]) {
      assert s[j] == digits[j - |sign|];
    }
    assert m < |s| ==> s[m] == rest[0];
    assert k == m;
    assert s[|sign|..k] == digits;
  }

  /** The ID an item names: `parseInt(x.trim(), 10)` when it is a positive integer. */
  function SiteId(item: string): (r: Option<nat>)
    ensures r.Some? <==> ParseIntPrefix(Trim(item)).Some? && ParseIntPrefix(Trim(item)).value > 0
    ensures r.Some? ==> r.value > 0 && r.value as int == ParseIntPrefix(Trim(item)).value
  {
    match ParseIntPrefix(Trim(item))
    case Some(n) => if n > 0 then Some(n) else None
    case None => None
  }

  /** Whatever follows the digits is ignored: `" 7abc"` names site 7. */
  lemma SiteIdIgnoresTail()
    ensures SiteId(" 7abc") == Some(7)
  {
    var digits, rest := "7", "abc";
    var w := [] + digits + rest;
    assert Trimmed(w) by {
      assert w[0] == '7' && w[|w| - 1] == 'c';
    }
    TrimSpaceCons(w);
    assert " 7abc" == " " + w;
    ParseIntReads([], digits, rest);
    assert DigitsValue(digits) == 7;
  }

  /** A leading `+` is accepted: `"+5"` names site 5. */
  lemma SiteIdPlus()
    ensures SiteId("+5") == Some(5)
  {
    TrimNoop("+5");
    assert "+5" == "+" + "5" + [];
    ParseIntReads("+", "5", []);
    assert DigitsValue("5") == 5;
  }

  /** A negative number names no site: `"-3"` is dropped. */
  lemma SiteIdNegative()
    ensures SiteId("-3") == None
  {
    TrimNoop("-3");
    assert "-3" == "-" + "3" + [];
    ParseIntReads("-", "3", []);
  }

  /** Zero names no site. */
  lemma SiteIdZero()
    ensures SiteId("0") == None
  {
    TrimNoop("0");
    assert "0" == [] + "0" + [];
    ParseIntReads([], "0", []);
    assert DigitsValue("0") == 0;
  }

  /** An item with no leading digit is NaN and names no site. */
  lemma SiteIdText()
    ensures SiteId("x") == None
  {
    TrimNoop("x");
    assert !IsDigit('x') && SignLength("x") == 0;
  }

  /** The IDs of the items that name one, in order. */
  function CollectIds(items: seq<string>): (r: seq<nat>)
    ensures |r| <= |items|
    ensures forall k :: 0 <= k < |r| ==> r[k] > 0
  {
    if |items| == 0 then []
    else (match SiteId(items[0]) case Some(n) => [n] case None => []) + CollectIds(items[1..])
  }

  /** Collecting is done item by item: the IDs of a concatenation are the IDs of its halves. */
  lemma {:induction false} CollectIdsConcat(a: seq<string>, b: seq<string>)
    ensures CollectIds(a + b) == CollectIds(a) + CollectIds(b)
    decreases |a|
  {
    if |a| > 0 {
      assert (a + b)[1..] == a[1..] + b;
      CollectIdsConcat(a[1..], b);
    } else {
      assert a + b == b;
    }
  }

  /** One item contributes its ID if it names one, and nothing otherwise. */
  lemma CollectIdsOne(item: string)
    ensures CollectIds([item]) == if SiteId(item).Some? then [SiteId(item).value] else []
  {
    assert [item][1..] == [];
  }

  /** An ID is collected exactly when some item names it. */
  lemma {:induction false} CollectIdsMembers(items: seq<string>, x: nat)
    ensures x in CollectIds(items) <==> exists i :: 0 <= i < |items| && SiteId(items[i]) == Some(x)
    decreases |items|
  {
    if |items| > 0 {
      CollectIdsMembers(items[1..], x);
      if x in CollectIds(items[1..]) {
        var i :| 0 <= i < |items[1..]| && SiteId(items[1..][i]) == Some(x);
        assert SiteId(items[i + 1]) == Some(x);
      }
      if exists i :: 0 <= i < |items| && SiteId(items[i]) == Some(x) {
        var i :| 0 <= i < |items| && SiteId(items[i]) == Some(x);
        if i > 0 {
          assert SiteId(items[1..][i - 1]) == Some(x);
        }
      }
    }
  }

  /** `parseSiteIds(input)`: the comma-separated items that parse as positive integers, in order. */
  function ParseSiteIds(input: string): (r: seq<nat>)
    ensures forall k :: 0 <= k < |r| ==> r[k] > 0
    ensures Trim(input) == [] ==> r == []
  {
    var raw := Trim(input);
    if raw == [] then [] else CollectIds(Split(raw, ','))
  }

  /** An ID is in the list exactly when some comma-separated item of the trimmed input names it. */
  lemma ParseSiteIdsMembers(input: string, x: nat)
    ensures x in ParseSiteIds(input) <==>
      (Trim(input) != [] && exists i :: 0 <= i < |Split(Trim(input), ',')| && SiteId(Split(Trim(input), ',')[i]) == Some(x))
  {
    var raw := Trim(input);
    if raw != [] {
      var items := Split(raw, ',');
      assert ParseSiteIds(input) == CollectIds(items);
      CollectIdsMembers(items, x);
      if x in CollectIds(items) {
        var i :| 0 <= i < |items| && SiteId(items[i]) == Some(x);
        assert SiteId(Split(Trim(input), ',')[i]) == Some(x);
      }
    } else {
      assert ParseSiteIds(input) == [];
    }
  }

  /** `parseInt` reads a rendered number back. */
  lemma SiteIdOfNumber(n: nat)
    requires n > 0
    ensures SiteId(NatToString(n)) == Some(n)
  {
    var s := NatToString(n);
    assert NoSpace(s) by {
      forall i | 0 <= i < |s| ensures !IsSpace(s[i]) {
        assert IsDigit(s[i]);
      }
    }
    NoSpaceTrim(s);
    assert DigitRunEnd(s, 0) == |s|;
    assert s[0..|s|] == s;
    NatToStringValue(n);
  }

  function Render(ids: seq<nat>): (r: seq<string>)
    ensures |r| == |ids|
    ensures forall k :: 0 <= k < |ids| ==> r[k] == NatToString(ids[k])
  {
    seq(|ids|, k requires 0 <= k < |ids| => NatToString(ids[k]))
  }

  lemma {:induction false} CollectRendered(ids: seq<nat>)
    requires forall k :: 0 <= k < |ids| ==> ids[k] > 0
    ensures CollectIds(Render(ids)) == ids
    decreases |ids|
  {
    if |ids| > 0 {
      assert Render(ids)[1..] == Render(ids[1..]);
      CollectRendered(ids[1..]);
      SiteIdOfNumber(ids[0]);
      assert CollectIds(Render(ids)) == [ids[0]] + CollectIds(Render(ids)[1..]);
      assert ids == [ids[0]] + ids[1..];
    }
  }

  /** Numbers listed with commas: no white space at either end, no comma inside an item. */
  lemma RenderedList(ids: seq<nat>)
    requires |ids| > 0
    ensures Trim(Join(Render(ids), ",")) == Join(Render(ids), ",")
    ensures forall k :: 0 <= k < |Render(ids)| ==> ',' !in Render(ids)[k]
  {
    var parts := Render(ids);
    var raw := Join(parts, ",");
    JoinFirst(parts, ",");
    JoinLast(parts, ",");
    var first, last := parts[0], parts[|parts| - 1];
    assert raw[0] == first[0];
    assert raw[|raw| - |last|..] == last;
    assert raw[|raw| - 1] == last[|last| - 1];
    assert IsDigit(raw[0]) && IsDigit(raw[|raw| - 1]);
    TrimNoop(raw);
    forall k | 0 <= k < |parts| ensures ',' !in parts[k] {
      var p := parts[k];
      forall i | 0 <= i < |p| ensures p[i] != ',' {
        assert IsDigit(p[i]);
      }
    }
  }

  /** Listing positive IDs with commas and parsing the list gives the same IDs, in the same order. */
  lemma ParseSiteIdsRoundTrip(ids: seq<nat>)
    requires forall k :: 0 <= k < |ids| ==> ids[k] > 0
    ensures ParseSiteIds(Join(Render(ids), ",")) == ids
  {
    if |ids| > 0 {
      var parts := Render(ids);
      RenderedList(ids);
      SplitJoin(parts, ',');
      assert Split(Join(parts, ","), ',') == parts;
      CollectRendered(ids);
    }
  }

  // ---------------------------------------------------------------------------
  // Statements
  // ---------------------------------------------------------------------------

  /** The tables every site has, in the order they are renamed. */
  const BaseTables: seq<string> := [
    "comments", "commentmeta", "options", "postmeta", "posts",
    "terms", "termmeta", "term_relationships", "term_taxonomy"]

  /** The `wc_` tables of WooCommerce. */
  const WcTables: seq<string> := WcAdminTables + WcOrderTables + WcProductTables

  const WcAdminTables: seq<string> := [
    "wc_admin_notes", "wc_admin_note_actions", "wc_category_lookup", "wc_customer_lookup",
    "wc_download_log"]

  const WcOrderTables: seq<string> := [
    "wc_orders", "wc_orders_meta", "wc_order_addresses", "wc_order_coupon_lookup",
    "wc_order_operational_data", "wc_order_product_lookup", "wc_order_stats", "wc_order_tax_lookup"]

  const WcProductTables: seq<string> := [
    "wc_product_attributes_lookup", "wc_product_download_directories", "wc_product_meta_lookup",
    "wc_rate_limits", "wc_reserved_stock", "wc_tax_rate_classes", "wc_webhooks"]

  /** The `woocommerce_` tables. */
  const WooCommerceTables: seq<string> := WooCommerceShopTables + WooCommerceShippingTables

  const WooCommerceShopTables: seq<string> := [
    "woocommerce_api_keys", "woocommerce_attribute_taxonomies",
    "woocommerce_downloadable_product_permissions", "woocommerce_log",
    "woocommerce_order_itemmeta", "woocommerce_order_items", "woocommerce_payment_tokenmeta",
    "woocommerce_payment_tokens"]

  const WooCommerceShippingTables: seq<string> := [
    "woocommerce_sessions", "woocommerce_shipping_zones",
    "woocommerce_shipping_zone_locations", "woocommerce_shipping_zone_methods",
    "woocommerce_tax_rates", "woocommerce_tax_rate_locations"]

  /** The Action Scheduler tables WooCommerce installs. */
  const ActionSchedulerTables: seq<string> := [
    "actionscheduler_actions", "actionscheduler_claims", "actionscheduler_groups",
    "actionscheduler_logs"]

  /** `woocommerceSuffixes()`: the 38 WooCommerce tables, in the order they are renamed. */
  const WooTables: seq<string> := WcTables + WooCommerceTables + ActionSchedulerTables

  /** One statement of the script. */
  datatype Stmt =
    | Rename(from: string, to: string)
    | UpdateOptions(table: string, oldPrefix: string, newPrefix: string)
    | UpdateUsermeta(table: string, oldPrefix: string, newPrefix: string)

  /** `renameLine`, `updateOptionsLine`, `updateUsermetaLine`. */
  function RenderStmt(s: Stmt): string {
    match s
    case Rename(from, to) => "RENAME TABLE " + from + " TO " + to + ";"
    case UpdateOptions(t, o, n) =>
      "UPDATE " + t + " SET option_name = REPLACE(option_name, '" + o + "', '" + n
      + "') WHERE option_name LIKE '" + o + "%';"
    case UpdateUsermeta(t, o, n) =>
      "UPDATE " + t + " SET meta_key = REPLACE(meta_key, '" + o + "', '" + n
      + "') WHERE meta_key LIKE '" + o + "%';"
  }

  /** A rename keeps the suffix: it moves `o + T` to `n + T` for one and the same `T`. */
  predicate Paired(s: Stmt, o: string, n: string)
    requires s.Rename?
  {
    |o| <= |s.from| && s.from[..|o|] == o && s.to == n + s.from[|o|..]
  }

  /** One rename per table, `o + t` to `n + t`, in table order. */
  function Renames(o: string, n: string, tables: seq<string>): (r: seq<Stmt>)
    ensures |r| == |tables|
    ensures forall k :: 0 <= k < |r| ==> r[k] == Rename(o + tables[k], n + tables[k])
  {
    seq(|tables|, k requires 0 <= k < |tables| => Rename(o + tables[k], n + tables[k]))
  }

  /** A rename of `o + x + t` to `n + x + t` also pairs `o` with `n`. */
  lemma PairedWiden(o: string, n: string, x: string, t: string)
    ensures Paired(Rename(o + x + t, n + x + t), o, n)
  {
    var from := o + x + t;
    assert from == o + (x + t);
    assert from[..|o|] == o;
    assert from[|o|..] == x + t;
    assert n + x + t == n + (x + t);
  }

  lemma RenamesPaired(o: string, n: string, x: string, tables: seq<string>)
    ensures forall s :: s in Renames(o + x, n + x, tables) ==> s.Rename? && Paired(s, o, n)
  {
    var r := Renames(o + x, n + x, tables);
    forall s | s in r ensures s.Rename? && Paired(s, o, n) {
      var k :| 0 <= k < |r| && r[k] == s;
      PairedWiden(o, n, x, tables[k]);
    }
  }

  function WooCount(woo: bool): nat {
    if woo then 38 else 0
  }

  /** The main site's statements: tables, options, users and user meta, then WooCommerce tables if asked. */
  function MainStatements(o: string, n: string, woo: bool): (r: seq<Stmt>)
    ensures |r| == 13 + WooCount(woo)
  {
    Renames(o, n, BaseTables)
    + [UpdateOptions(n + "options", o, n), Rename(o + "usermeta", n + "usermeta"),
       Rename(o + "users", n + "users"), UpdateUsermeta(n + "usermeta", o, n)]
    + (if woo then Renames(o, n, WooTables) else [])
  }

  /** A subsite's prefix: `p + id + "_"`. */
  function SitePrefix(p: string, id: nat): string {
    p + NatToString(id) + "_"
  }

  /**
   * One subsite's statements, renaming `o<id>_` tables to `n<id>_`; its user-meta keys live in the
   * network-wide `n + "usermeta"` table.
   */
  function SiteStatements(o: string, n: string, id: nat, woo: bool): (r: seq<Stmt>)
    ensures |r| == 11 + WooCount(woo)
  {
    var os, ns := SitePrefix(o, id), SitePrefix(n, id);
    Renames(os, ns, BaseTables)
    + [UpdateOptions(ns + "options", os, ns), UpdateUsermeta(n + "usermeta", os, ns)]
    + (if woo then Renames(os, ns, WooTables) else [])
  }

  /** The subsites' statements, site after site. */
  function AllSites(o: string, n: string, ids: seq<nat>, woo: bool): (r: seq<Stmt>)
    ensures |r| == Times(|ids|, 11 + WooCount(woo))
  {
    Blocks(ids, id => SiteStatements(o, n, id, woo), 11 + WooCount(woo))
  }

  /** The blocks `f(id)` of size `size`, one per ID, laid end to end in ID order. */
  function Blocks<T>(ids: seq<nat>, f: nat -> seq<T>, size: nat): (r: seq<T>)
    requires forall id :: |f(id)| == size
    ensures |r| == Times(|ids|, size)
  {
    if |ids| == 0 then []
    else Blocks(ids[..|ids| - 1], f, size) + f(ids[|ids| - 1])
  }

  /** `buildSql` as a list of statements. */
  function Statements(o: string, n: string, woo: bool, multisite: bool, ids: seq<nat>): (r: seq<Stmt>)
    ensures |r| == 13 + WooCount(woo) + (if multisite then Times(|ids|, 11 + WooCount(woo)) else 0)
    ensures !multisite || ids == [] ==> r == MainStatements(o, n, woo)
  {
    MainStatements(o, n, woo) + (if multisite && |ids| > 0 then AllSites(o, n, ids, woo) else [])
  }

  /** `count * size`, as `count` blocks of `size` laid end to end. */
  function Times(count: nat, size: nat): nat {
    if count == 0 then 0 else Times(count - 1, size) + size
  }

  /** One statement per line: 13 for the main site, 11 per subsite, 38 more per site with WooCommerce. */
  lemma StatementsCount(o: string, n: string, woo: bool, multisite: bool, ids: seq<nat>)
    ensures |Statements(o, n, woo, multisite, ids)| ==
      13 + WooCount(woo) + (if multisite then |ids| * (11 + WooCount(woo)) else 0)
  {
    TimesIsProduct(|ids|, 11 + WooCount(woo));
  }

  lemma TimesIsProduct(count: nat, size: nat)
    ensures Times(count, size) == count * size
  {
  }

  /** The first `j + 1` blocks fit in the first `m` when `j < m`. */
  lemma {:induction false} TimesGrows(j: nat, m: nat, size: nat)
    requires j < m
    ensures Times(j + 1, size) <= Times(m, size)
    decreases m
  {
    if j + 1 < m {
      TimesGrows(j, m - 1, size);
    }
  }

  /** Block `j` sits right after the blocks before it. */
  lemma {:induction false} BlockAt<T>(ids: seq<nat>, f: nat -> seq<T>, size: nat, j: nat)
    requires forall id :: |f(id)| == size
    requires j < |ids|
    ensures Times(j + 1, size) <= |Blocks(ids, f, size)|
    ensures Blocks(ids, f, size)[Times(j, size)..Times(j + 1, size)] == f(ids[j])
    decreases |ids|
  {
    var init := ids[..|ids| - 1];
    var prev := Blocks(init, f, size);
    var last := f(ids[|ids| - 1]);
    assert Blocks(ids, f, size) == prev + last;
    if j < |ids| - 1 {
      BlockAt(init, f, size, j);
      SliceBefore(prev, last, Times(j, size), Times(j + 1, size));
    } else {
      assert ids[j] == ids[|ids| - 1];
      SliceAfter(prev, last, 0, size);
    }
  }

  /** Site `j`'s block sits right after the blocks of the sites before it. */
  lemma AllSitesBlock(o: string, n: string, ids: seq<nat>, woo: bool, j: nat)
    requires j < |ids|
    ensures var b := 11 + WooCount(woo);
      Times(j + 1, b) <= |AllSites(o, n, ids, woo)| &&
      AllSites(o, n, ids, woo)[Times(j, b)..Times(j + 1, b)] == SiteStatements(o, n, ids[j], woo)
  {
    BlockAt(ids, id => SiteStatements(o, n, id, woo), 11 + WooCount(woo), j);
  }

  lemma SliceBefore<T>(a: seq<T>, c: seq<T>, i: nat, k: nat)
    requires i <= k <= |a|
    ensures (a + c)[i..k] == a[i..k]
  {
  }

  lemma SliceAfter<T>(a: seq<T>, c: seq<T>, i: nat, k: nat)
    requires i <= k <= |c|
    ensures (a + c)[|a| + i..|a| + k] == c[i..k]
  {
  }

  /**
   * Every subsite's statements appear in site order after the main site's: site `ids[j]` renames
   * `o<id>_` tables to `n<id>_`.
   */
  lemma SiteBlockPlacement(o: string, n: string, woo: bool, ids: seq<nat>, j: nat)
    requires j < |ids|
    ensures var b := 11 + WooCount(woo); var start := 13 + WooCount(woo) + j * b;
      var r := Statements(o, n, woo, true, ids);
      start + b <= |r| && r[start..start + b] == SiteStatements(o, n, ids[j], woo)
  {
    SiteBlockAt(o, n, woo, ids, j);
    TimesIsProduct(j, 11 + WooCount(woo));
  }

  lemma SiteBlockAt(o: string, n: string, woo: bool, ids: seq<nat>, j: nat)
    requires j < |ids|
    ensures var b := 11 + WooCount(woo); var start := 13 + WooCount(woo) + Times(j, b);
      var r := Statements(o, n, woo, true, ids);
      start + b <= |r| && r[start..start + b] == SiteStatements(o, n, ids[j], woo)
  {
    var b := 11 + WooCount(woo);
    var m := MainStatements(o, n, woo);
    var all := AllSites(o, n, ids, woo);
    AllSitesBlock(o, n, ids, woo, j);
    assert Statements(o, n, woo, true, ids) == m + all;
    SliceAfter(m, all, Times(j, b), Times(j + 1, b));
    assert Times(j + 1, b) == Times(j, b) + b;
  }

  lemma MainPaired(o: string, n: string, woo: bool)
    ensures forall s :: s in MainStatements(o, n, woo) && s.Rename? ==> Paired(s, o, n)
    ensures forall s :: s in MainStatements(o, n, woo) && s.UpdateUsermeta? ==> s.table == n + "usermeta"
  {
    assert o + [] == o && n + [] == n;
    RenamesPaired(o, n, [], BaseTables);
    RenamesPaired(o, n, [], WooTables);
    PairedWiden(o, n, [], "usermeta");
    PairedWiden(o, n, [], "users");
  }

  lemma SitePaired(o: string, n: string, id: nat, woo: bool)
    ensures forall s :: s in SiteStatements(o, n, id, woo) && s.Rename? ==> Paired(s, o, n)
    ensures forall s :: s in SiteStatements(o, n, id, woo) && s.UpdateUsermeta? ==> s.table == n + "usermeta"
  {
    var x := NatToString(id) + "_";
    assert SitePrefix(o, id) == o + x && SitePrefix(n, id) == n + x;
    RenamesPaired(o, n, x, BaseTables);
    RenamesPaired(o, n, x, WooTables);
  }

  lemma {:induction false} AllSitesPaired(o: string, n: string, ids: seq<nat>, woo: bool)
    ensures forall s :: s in AllSites(o, n, ids, woo) && s.Rename? ==> Paired(s, o, n)
    ensures forall s :: s in AllSites(o, n, ids, woo) && s.UpdateUsermeta? ==> s.table == n + "usermeta"
    decreases |ids|
  {
    if |ids| > 0 {
      AllSitesPaired(o, n, ids[..|ids| - 1], woo);
      SitePaired(o, n, ids[|ids| - 1], woo);
    }
  }

  /**
   * Every RENAME moves `o + T` to `n + T` for the same `T` (site tables included, with
   * `T = id + "_" + table`), and every user-meta update targets the network table `n + "usermeta"`.
   */
  lemma StatementsPaired(o: string, n: string, woo: bool, multisite: bool, ids: seq<nat>)
    ensures forall s :: s in Statements(o, n, woo, multisite, ids) && s.Rename? ==> Paired(s, o, n)
    ensures forall s :: s in Statements(o, n, woo, multisite, ids) && s.UpdateUsermeta? ==> s.table == n + "usermeta"
  {
    MainPaired(o, n, woo);
    AllSitesPaired(o, n, ids, woo);
  }

  // ---------------------------------------------------------------------------
  // The script
  // ---------------------------------------------------------------------------

  function RenderAll(stmts: seq<Stmt>): (r: seq<string>)
    ensures |r| == |stmts|
    ensures forall k :: 0 <= k < |stmts| ==> r[k] == RenderStmt(stmts[k])
  {
    seq(|stmts|, k requires 0 <= k < |stmts| => RenderStmt(stmts[k]))
  }

  /** `buildSql(...)`: one line per statement, joined by newlines. */
  function BuildSql(o: string, n: string, woo: bool, multisite: bool, ids: seq<nat>): string {
    Join(RenderAll(Statements(o, n, woo, multisite, ids)), "\n")
  }

  /** No newline occurs in any field of a statement. */
  predicate OneLine(s: Stmt) {
    match s
    case Rename(from, to) => '\n' !in from && '\n' !in to
    case UpdateOptions(t, o, n) => '\n' !in t && '\n' !in o && '\n' !in n
    case UpdateUsermeta(t, o, n) => '\n' !in t && '\n' !in o && '\n' !in n
  }

  lemma NoNewlineDigits(s: string)
    requires AllDigits(s)
    ensures '\n' !in s
  {
    forall i | 0 <= i < |s| ensures s[i] != '\n' {
      assert IsDigit(s[i]);
    }
  }

  lemma TablesOneLine(o: string, n: string, tables: seq<string>)
    requires '\n' !in o && '\n' !in n
    requires NoNewlines(tables)
    ensures forall s :: s in Renames(o, n, tables) ==> OneLine(s)
  {
  }

  lemma BaseTablesOneLine()
    ensures NoNewlines(BaseTables) && NoNewlines(WooTables)
  {
    assert NoNewlines(BaseTables);
    assert NoNewlines(ActionSchedulerTables);
    WcTablesOneLine();
    WooCommerceTablesOneLine();
    NoNewlinesConcat(WcTables, WooCommerceTables);
    NoNewlinesConcat(WcTables + WooCommerceTables, ActionSchedulerTables);
  }

  predicate NoNewlines(tables: seq<string>) {
    forall k :: 0 <= k < |tables| ==> '\n' !in tables[k]
  }

  lemma NoNewlinesConcat(a: seq<string>, b: seq<string>)
    requires NoNewlines(a) && NoNewlines(b)
    ensures NoNewlines(a + b)
  {
    forall k | 0 <= k < |a + b| ensures '\n' !in (a + b)[k] {
      if k < |a| {
        assert (a + b)[k] == a[k];
      } else {
        assert (a + b)[k] == b[k - |a|];
      }
    }
  }

  lemma WcTablesOneLine()
    ensures NoNewlines(WcTables)
  {
    WcAdminOneLine();
    WcOrderOneLine();
    WcProductOneLine();
    NoNewlinesConcat(WcAdminTables, WcOrderTables);
    NoNewlinesConcat(WcAdminTables + WcOrderTables, WcProductTables);
  }

  lemma WcAdminOneLine()
    ensures NoNewlines(WcAdminTables)
  {
  }

  lemma WcOrderOneLine()
    ensures NoNewlines(WcOrderTables)
  {
  }

  lemma WcProductOneLine()
    ensures NoNewlines(WcProductTables)
  {
  }

  lemma WooCommerceTablesOneLine()
    ensures NoNewlines(WooCommerceTables)
  {
    WooCommerceShopOneLine();
    WooCommerceShippingOneLine();
    NoNewlinesConcat(WooCommerceShopTables, WooCommerceShippingTables);
  }

  lemma WooCommerceShopOneLine()
    ensures NoNewlines(WooCommerceShopTables)
  {
  }

  lemma WooCommerceShippingOneLine()
    ensures NoNewlines(WooCommerceShippingTables)
  {
  }

  lemma {:induction false} StatementsOneLine(o: string, n: string, woo: bool, multisite: bool, ids: seq<nat>)
    requires '\n' !in o && '\n' !in n
    ensures forall s :: s in Statements(o, n, woo, multisite, ids) ==> OneLine(s)
  {
    BaseTablesOneLine();
    TablesOneLine(o, n, BaseTables);
    TablesOneLine(o, n, WooTables);
    AllSitesOneLine(o, n, ids, woo);
  }

  lemma {:induction false} AllSitesOneLine(o: string, n: string, ids: seq<nat>, woo: bool)
    requires '\n' !in o && '\n' !in n
    ensures forall s :: s in AllSites(o, n, ids, woo) ==> OneLine(s)
    decreases |ids|
  {
    if |ids| > 0 {
      AllSitesOneLine(o, n, ids[..|ids| - 1], woo);
      var id := ids[|ids| - 1];
      NoNewlineDigits(NatToString(id));
      var os, ns := SitePrefix(o, id), SitePrefix(n, id);
      BaseTablesOneLine();
      TablesOneLine(os, ns, BaseTables);
      TablesOneLine(os, ns, WooTables);
    }
  }

  lemma RenderOneLine(s: Stmt)
    requires OneLine(s)
    ensures '\n' !in RenderStmt(s) && RenderStmt(s) != []
  {
    match s
    case Rename(_, _) =>
    case UpdateOptions(t, o, n) => OptionsOneLine(t, o, n);
    case UpdateUsermeta(t, o, n) => UsermetaOneLine(t, o, n);
  }

  lemma OptionsOneLine(t: string, o: string, n: string)
    requires '\n' !in t && '\n' !in o && '\n' !in n
    ensures '\n' !in RenderStmt(UpdateOptions(t, o, n))
  {
    OptionsPiecesOneLine();
    ReplaceOneLine("UPDATE ", t, " SET option_name = REPLACE(option_name, '", o, n, "') WHERE option_name LIKE '");
  }

  lemma OptionsPiecesOneLine()
    ensures '\n' !in " SET option_name = REPLACE(option_name, '"
    ensures '\n' !in "') WHERE option_name LIKE '"
  {
  }

  lemma UsermetaPiecesOneLine()
    ensures '\n' !in " SET meta_key = REPLACE(meta_key, '"
    ensures '\n' !in "') WHERE meta_key LIKE '"
  {
  }

  lemma UsermetaOneLine(t: string, o: string, n: string)
    requires '\n' !in t && '\n' !in o && '\n' !in n
    ensures '\n' !in RenderStmt(UpdateUsermeta(t, o, n))
  {
    UsermetaPiecesOneLine();
    ReplaceOneLine("UPDATE ", t, " SET meta_key = REPLACE(meta_key, '", o, n, "') WHERE meta_key LIKE '");
  }

  /** The shape both UPDATE statements share, newline-free when every piece is. */
  lemma ReplaceOneLine(a: string, t: string, b: string, o: string, n: string, c: string)
    requires '\n' !in a && '\n' !in t && '\n' !in b && '\n' !in o && '\n' !in n && '\n' !in c
    ensures '\n' !in a + t + b + o + "', '" + n + c + o + "%';"
  {
    assert '\n' !in "', '" && '\n' !in "%';";
  }

  /**
   * For prefixes without a line break, the script splits at newlines into exactly one line per
   * statement: `13 + 38·woo + multisite·|ids|·(11 + 38·woo)` lines, none of them empty, so there
   * is no trailing newline.
   */
  lemma BuildSqlLines(o: string, n: string, woo: bool, multisite: bool, ids: seq<nat>)
    requires '\n' !in o && '\n' !in n
    ensures var lines := Split(BuildSql(o, n, woo, multisite, ids), '\n');
      && lines == RenderAll(Statements(o, n, woo, multisite, ids))
      && |lines| == 13 + WooCount(woo) + (if multisite then |ids| * (11 + WooCount(woo)) else 0)
      && forall k :: 0 <= k < |lines| ==> lines[k] != []
  {
    var stmts := Statements(o, n, woo, multisite, ids);
    var lines := RenderAll(stmts);
    StatementsCount(o, n, woo, multisite, ids);
    StatementsOneLine(o, n, woo, multisite, ids);
    forall k | 0 <= k < |lines| ensures '\n' !in lines[k] && lines[k] != [] {
      assert stmts[k] in stmts;
      RenderOneLine(stmts[k]);
    }
    SplitJoin(lines, '\n');
  }

  lemma BuildSqlLinesIf(o: string, n: string, woo: bool, multisite: bool, ids: seq<nat>)
    ensures '\n' !in o && '\n' !in n ==>
      |Split(BuildSql(o, n, woo, multisite, ids), '\n')| == 13 + WooCount(woo) + (if multisite then |ids| * (11 + WooCount(woo)) else 0)
  {
    if '\n' !in o && '\n' !in n {
      BuildSqlLines(o, n, woo, multisite, ids);
    }
  }

  // ---------------------------------------------------------------------------
  // Generating
  // ---------------------------------------------------------------------------

  datatype PrefixError = InvalidOldPrefix | InvalidNewPrefix

  /**
   * The Generate handler: both prefixes normalised and required; site IDs are read only for a
   * multisite network.
   */
  function Generate(oldInput: string, newInput: string, woo: bool, multisite: bool, sites: string)
    : (r: Result<string, PrefixError>)
    ensures r == Err(InvalidOldPrefix) <==> Trim(oldInput) == []
    ensures r == Err(InvalidNewPrefix) <==> Trim(oldInput) != [] && Trim(newInput) == []
    ensures r.Ok? && '\n' !in oldInput && '\n' !in newInput ==>
      |Split(r.value, '\n')| == 13 + WooCount(woo) + (if multisite then |ParseSiteIds(sites)| * (11 + WooCount(woo)) else 0)
  {
    var o, n := NormalizePrefix(oldInput), NormalizePrefix(newInput);
    if o == [] then Err(InvalidOldPrefix)
    else if n == [] then Err(InvalidNewPrefix)
    else
      var ids := if multisite then ParseSiteIds(sites) else [];
      NormalizePrefixChars(oldInput, '\n');
      NormalizePrefixChars(newInput, '\n');
      BuildSqlLinesIf(o, n, woo, multisite, ids);
      Ok(BuildSql(o, n, woo, multisite, ids))
  }
}

=== FILE: rest.dfy ===
/**
 * The REST route generator: from a namespace, a route that may hold `(?P<name>pattern)`
 * groups, an HTTP method, a permission mode and a table of arguments it emits the
 * `register_rest_route` call, either with a plain callback function or wrapped in a
 * `WP_REST_Controller` subclass.
 *
 * Modelled: the route and method normalisers, the permission body, the path-parameter scan
 * and its type inference, the arguments table (reading, merging detected parameters, the
 * PHP `args` array), the two generated identifiers, the curl example's method branch and the
 * generate-time checks. The PHP templates are modelled by the values placed into them.
 */
module RestRoute {
  import opened Strings
  import opened Lists
  import opened Slugs
  import opened Escaping
  import opened Results

  // ---------------------------------------------------------------------------
  // Route and method
  // ---------------------------------------------------------------------------

  /** `ensureLeadingSlash`: the trimmed route with `/` put in front unless it is there already; blank stays blank. */
  function EnsureLeadingSlash(route: string): (r: string)
    ensures r == [] <==> Trim(route) == []
    ensures r != [] ==> r[0] == '/' && (r == Trim(route) || r[1..] == Trim(route))
    ensures Trim(route) != [] && Trim(route)[0] == '/' ==> r == Trim(route)
  {
    var t := Trim(route);
    if t == [] then [] else if t[0] == '/' then t else "/" + t
  }

  /** A normalised route is left as it is. */
  lemma EnsureLeadingSlashIdempotent(route: string)
    ensures EnsureLeadingSlash(EnsureLeadingSlash(route)) == EnsureLeadingSlash(route)
  {
    var r := EnsureLeadingSlash(route);
    var t := Trim(route);
    if r != [] {
      assert r[|r| - 1] == t[|t| - 1];
      assert Trimmed(r);
      TrimNoop(r);
    }
  }

  /** The `WP_REST_Server` constants the generator chooses from. */
  datatype WpMethods = Readable | Creatable | Editable | Deletable

  /** `methodToWpConst`: the method as selected, compared without case folding. */
  function MethodToWpConst(m: string): (r: WpMethods)
    ensures r == Creatable <==> m == "POST"
    ensures r == Editable <==> m == "PUT" || m == "PATCH"
    ensures r == Deletable <==> m == "DELETE"
    ensures r == Readable <==> m != "POST" && m != "PUT" && m != "PATCH" && m != "DELETE"
  {
    match m
    case "GET" => Readable
    case "POST" => Creatable
    case "PUT" => Editable
    case "PATCH" => Editable
    case "DELETE" => Deletable
    case _ => Readable
  }

  function WpConstName(c: WpMethods): string {
    match c
    case Readable => "WP_REST_Server::READABLE"
    case Creatable => "WP_REST_Server::CREATABLE"
    case Editable => "WP_REST_Server::EDITABLE"
    case Deletable => "WP_REST_Server::DELETABLE"
  }

  /** The methods WordPress registers for each constant (`GET`; `POST`; `POST, PUT, PATCH`; `DELETE`). */
  function ConstMethods(c: WpMethods): set<string> {
    match c
    case Readable => {"GET"}
    case Creatable => {"POST"}
    case Editable => {"POST", "PUT", "PATCH"}
    case Deletable => {"DELETE"}
  }

  /** The registered route answers the method it was generated for, for each of the five methods offered. */
  lemma MethodAccepted(m: string)
    requires m in {"GET", "POST", "PUT", "PATCH", "DELETE"}
    ensures m in ConstMethods(MethodToWpConst(m))
  {
  }

  // ---------------------------------------------------------------------------
  // Permission callback
  // ---------------------------------------------------------------------------

  /** Who may call the route. */
  datatype Permission = Public | LoggedIn | Capability(cap: string)

  /** The permission mode as `buildPermissionCallback` reads it: a blank capability becomes `manage_options`. */
  function PermissionFor(mode: string, capability: string): (p: Permission)
    ensures p == Public <==> mode == "public"
    ensures p == LoggedIn <==> mode == "logged_in"
    ensures p.Capability? ==> p.cap == OrDefault(capability, "manage_options") && Trimmed(p.cap) && p.cap != []
  {
    if mode == "public" then Public
    else if mode == "logged_in" then LoggedIn
    else Capability(OrDefault(capability, "manage_options"))
  }

  function PermissionBody(p: Permission): string {
    match p
    case Public => "return true;"
    case LoggedIn => "return is_user_logged_in();"
    case Capability(cap) => "return current_user_can( '" + PhpString(cap) + "' );"
  }

  /** `buildPermissionCallback(mode, capability, indent)`; a missing indent is five tabs. */
  function BuildPermissionCallback(mode: string, capability: string, indent: string): string {
    (if indent == [] then "\t\t\t\t\t" else indent) + PermissionBody(PermissionFor(mode, capability))
  }

  /**
   * In capability mode the PHP literal passed to `current_user_can` reads back as exactly the
   * cleaned capability, or `manage_options` when it is blank, whatever quotes it holds.
   */
  lemma CapabilityReadBack(mode: string, capability: string, indent: string)
    requires mode != "public" && mode != "logged_in"
    ensures var r := BuildPermissionCallback(mode, capability, indent);
      var head := (if indent == [] then "\t\t\t\t\t" else indent) + "return current_user_can( '";
      StartsWith(r, head) && ReadPhpQuoted(r[|head|..]) == Some((OrDefault(capability, "manage_options"), " );"))
  {
    var pad := if indent == [] then "\t\t\t\t\t" else indent;
    assert PermissionFor(mode, capability) == Capability(OrDefault(capability, "manage_options"));
    CapabilityLine(pad, OrDefault(capability, "manage_options"));
  }

  /** The capability line read back from any indentation. */
  lemma CapabilityLine(pad: string, cap: string)
    ensures var r := pad + PermissionBody(Capability(cap));
      var head := pad + "return current_user_can( '";
      StartsWith(r, head) && ReadPhpQuoted(r[|head|..]) == Some((cap, " );"))
  {
    var head := pad + "return current_user_can( '";
    var lit := PhpString(cap);
    ConcatAssoc4(pad, "return current_user_can( '", lit, "' );");
    assert head + lit + "' );" == head + lit + "'" + " );";
    PhpLiteralAt(head, cap, " );");
  }

  // ---------------------------------------------------------------------------
  // Path parameters: /\(\?P<([a-zA-Z0-9_]+)>([^)]+)\)/g
  // ---------------------------------------------------------------------------

  /** One `(?P<name>pattern)` group. */
  datatype PathParam = PathParam(name: string, pattern: string)

  /** What the expression can match: a non-empty `[a-zA-Z0-9_]` name and a non-empty pattern without `)`. */
  predicate ValidParam(p: PathParam) {
    p.name != [] && AllIn(p.name, AnyCaseIdent) && p.pattern != [] && ')' !in p.pattern
  }

  /** The text of a group. */
  function RenderParam(p: PathParam): string {
    "(?P<" + p.name + ">" + p.pattern + ")"
  }

  /** Length of the `[a-zA-Z0-9_]` run at the start of `s`. */
  function IdentRun(s: string): (n: nat)
    ensures n <= |s|
    ensures forall i :: 0 <= i < n ==> InClass(s[i], AnyCaseIdent)
    ensures n == |s| || !InClass(s[n], AnyCaseIdent)
  {
    if |s| == 0 || !InClass(s[0], AnyCaseIdent) then 0 else 1 + IdentRun(s[1..])
  }

  /** Index of the first `)` in `s`, or `|s|`. */
  function CloseParen(s: string): (n: nat)
    ensures n <= |s|
    ensures forall i :: 0 <= i < n ==> s[i] != ')'
    ensures n == |s| || s[n] == ')'
  {
    if |s| == 0 || s[0] == ')' then 0 else 1 + CloseParen(s[1..])
  }

  /**
   * A match of the expression at the start of `s`, with the text after it. The name class
   * excludes `>` and the pattern class excludes `)`, so the only way to match is the whole
   * name run followed by `>`, and the pattern up to the first `)`.
   */
  function MatchParam(s: string): (m: Option<(PathParam, string)>)
    ensures m.Some? ==> ValidParam(m.value.0) && s == RenderParam(m.value.0) + m.value.1
    ensures m.Some? ==> |m.value.1| < |s|
  {
    if !StartsWith(s, "(?P<") then None
    else
      var a := s[4..];
      var n := IdentRun(a);
      var name, after := a[..n], a[n..];
      if n == 0 || after == [] || after[0] != '>' then None
      else
        var b := after[1..];
        var q := CloseParen(b);
        var pattern, c := b[..q], b[q..];
        if q == 0 || c == [] then None
        else
          MatchParamParts(s, a, name, after, b, pattern, c);
          Some((PathParam(name, pattern), c[1..]))
  }

  lemma MatchParamParts(s: string, a: string, name: string, after: string, b: string, pattern: string, c: string)
    requires StartsWith(s, "(?P<") && a == s[4..]
    requires |name| <= |a| && name == a[..|name|] && after == a[|name|..] && name != []
    requires forall k :: 0 <= k < |name| ==> InClass(a[k], AnyCaseIdent)
    requires after != [] && after[0] == '>' && b == after[1..]
    requires |pattern| <= |b| && pattern == b[..|pattern|] && c == b[|pattern|..] && pattern != []
    requires forall k :: 0 <= k < |pattern| ==> b[k] != ')'
    requires c != [] && c[0] == ')'
    ensures ValidParam(PathParam(name, pattern))
    ensures s == RenderParam(PathParam(name, pattern)) + c[1..]
  {
    assert s == "(?P<" + a;
    assert a == name + after;
    assert after == ">" + b;
    assert b == pattern + c;
    assert c == ")" + c[1..];
    ConcatAssoc5("(?P<", name, ">", pattern, ")", c[1..]);
  }

  /** Every group is recognised where it starts, whatever follows it. */
  lemma MatchRender(p: PathParam, t: string)
    requires ValidParam(p)
    ensures MatchParam(RenderParam(p) + t) == Some((p, t))
  {
    var s := RenderParam(p) + t;
    var b := p.pattern + (")" + t);
    var after := ">" + b;
    var a := p.name + after;
    ConcatAssoc5("(?P<", p.name, ">", p.pattern, ")", t);
    assert s == "(?P<" + a;
    StartsWithConcat("(?P<", a);
    assert s[4..] == a;
    IdentRunOf(p.name, after);
    assert a[..|p.name|] == p.name && a[|p.name|..] == after;
    CloseParenOf(p.pattern, ")" + t);
    assert b[..|p.pattern|] == p.pattern && b[|p.pattern|..] == ")" + t;
  }

  lemma {:induction false} IdentRunOf(w: string, t: string)
    requires AllIn(w, AnyCaseIdent) && t != [] && !InClass(t[0], AnyCaseIdent)
    ensures IdentRun(w + t) == |w|
    decreases |w|
  {
    if |w| > 0 {
      assert (w + t)[1..] == w[1..] + t;
      IdentRunOf(w[1..], t);
    } else {
      assert w + t == t;
    }
  }

  lemma {:induction false} CloseParenOf(w: string, t: string)
    requires ')' !in w && t != [] && t[0] == ')'
    ensures CloseParen(w + t) == |w|
    decreases |w|
  {
    if |w| > 0 {
      assert (w + t)[1..] == w[1..] + t;
      CloseParenOf(w[1..], t);
    } else {
      assert w + t == t;
    }
  }

  /** The groups `re.exec` finds, left to right: a match is taken where it starts, the scan resumes after it. */
  function DetectParams(s: string): (r: seq<PathParam>)
    ensures forall k :: 0 <= k < |r| ==> ValidParam(r[k])
    decreases |s|
  {
    if |s| == 0 then []
    else
      var m := MatchParam(s);
      if m.Some? then [m.value.0] + DetectParams(m.value.1) else DetectParams(s[1..])
  }

  /** Text without `(` holds no group and is skipped. */
  lemma {:induction false} DetectLiteral(lit: string, t: string)
    requires '(' !in lit
    ensures DetectParams(lit + t) == DetectParams(t)
    decreases |lit|
  {
    if |lit| > 0 {
      assert (lit + t)[0] == lit[0];
      assert MatchParam(lit + t) == None;
      assert (lit + t)[1..] == lit[1..] + t;
      DetectLiteral(lit[1..], t);
    } else {
      assert lit + t == t;
    }
  }

  /** A route of literal segments around groups: `segs[0] (?P<…>…) segs[1] … segs[n]`. */
  function RouteOf(segs: seq<string>, ps: seq<PathParam>): string
    requires |segs| == |ps| + 1
    decreases |ps|
  {
    if |ps| == 0 then segs[0] else segs[0] + RenderParam(ps[0]) + RouteOf(segs[1..], ps[1..])
  }

  /** The scan finds exactly the groups the route was built from, in order. */
  lemma {:induction false} DetectRoute(segs: seq<string>, ps: seq<PathParam>)
    requires |segs| == |ps| + 1
    requires forall k :: 0 <= k < |segs| ==> '(' !in segs[k]
    requires forall k :: 0 <= k < |ps| ==> ValidParam(ps[k])
    ensures DetectParams(RouteOf(segs, ps)) == ps
    decreases |ps|
  {
    if |ps| == 0 {
      DetectLiteral(segs[0], []);
      assert segs[0] + [] == segs[0];
    } else {
      var rest := RouteOf(segs[1..], ps[1..]);
      DetectRoute(segs[1..], ps[1..]);
      assert RouteOf(segs, ps) == segs[0] + (RenderParam(ps[0]) + rest);
      DetectLiteral(segs[0], RenderParam(ps[0]) + rest);
      MatchRender(ps[0], rest);
      assert ps == [ps[0]] + ps[1..];
    }
  }

  /** The type test of `detectPathParams`: `\d`, `[0-9]`, or exactly `\d+` (already covered by the first). */
  predicate IntegerPattern(pattern: string) {
    Contains(pattern, "\\d") || Contains(pattern, "[0-9]") || pattern == "\\d+"
  }

  /** One row of the arguments table, read: name, location (`in`), type, required flag, sanitize callback. */
  datatype Arg = Arg(name: string, loc: string, typ: string, required: bool, sanitize: string, fromPath: bool)

  /** The argument `detectPathParams` proposes for a group. */
  function DetectedArg(p: PathParam): (a: Arg)
    ensures a.name == p.name && a.loc == "path" && a.required && a.fromPath
    ensures a.typ == "integer" <==> IntegerPattern(p.pattern)
    ensures a.typ == "integer" || a.typ == "string"
    ensures a.sanitize == (if a.typ == "integer" then "absint" else "sanitize_text_field")
  {
    if IntegerPattern(p.pattern) then Arg(p.name, "path", "integer", true, "absint", true)
    else Arg(p.name, "path", "string", true, "sanitize_text_field", true)
  }

  /** `detectPathParams(route)`: one required path argument per group, in route order. */
  function DetectPathParams(route: string): (r: seq<Arg>)
    ensures |r| == |DetectParams(route)|
    ensures forall k :: 0 <= k < |r| ==> r[k] == DetectedArg(DetectParams(route)[k])
    ensures forall a :: a in r ==> FromRoute(a)
  {
    var ps := DetectParams(route);
    forall k | 0 <= k < |ps| ensures FromRoute(DetectedArg(ps[k])) {
      DetectedNamed(ps[k]);
    }
    MapSeq(DetectedArg, ps)
  }

  /** A detected argument passes the table's blank-name filter and is already clean. */
  lemma DetectedNamed(p: PathParam)
    requires ValidParam(p)
    ensures Named(DetectedArg(p))
  {
    assert !IsSpace(p.name[0]) && !IsSpace(p.name[|p.name| - 1]) by {
      assert InClass(p.name[0], AnyCaseIdent) && InClass(p.name[|p.name| - 1], AnyCaseIdent);
    }
  }

  // ---------------------------------------------------------------------------
  // The arguments table
  // ---------------------------------------------------------------------------

  /** A row of the arguments table as the form holds it: the raw field values. */
  datatype ArgRow = ArgRow(name: string, loc: string, typ: string, required: string, sanitize: string, fromPath: bool)

  /** An argument as the table reads it: text fields cleaned, location and type never blank. */
  predicate WellRead(a: Arg) {
    && Trimmed(a.name) && Trimmed(a.sanitize)
    && a.loc != [] && Trimmed(a.loc) && a.typ != [] && Trimmed(a.typ)
  }

  /** An argument that also survives the blank-name filter. */
  predicate Named(a: Arg) {
    a.name != [] && WellRead(a)
  }

  /** One row as `readArgsFromTable` reads it, before blank names are dropped. */
  function ReadArg(row: ArgRow): (a: Arg)
    ensures WellRead(a)
    ensures a.required <==> Trim(row.required) == "yes"
  {
    DefaultsTrimmed();
    Arg(Trim(row.name), OrDefault(row.loc, "query"), OrDefault(row.typ, "string"),
      Trim(row.required) == "yes", Trim(row.sanitize), row.fromPath)
  }

  lemma DefaultsTrimmed()
    ensures Trimmed("query") && Trimmed("string")
  {
  }

  predicate HasName(a: Arg) {
    a.name != []
  }

  /** `readArgsFromTable`: every row read in order, rows whose cleaned name is blank dropped. */
  function ReadArgs(rows: seq<ArgRow>): (r: seq<Arg>)
    ensures |r| <= |rows|
    ensures All(Named, r)
  {
    var read := MapSeq(ReadArg, rows);
    var r := Filter(HasName, read);
    assert forall a :: a in read ==> WellRead(a);
    r
  }

  lemma ReadArgsConcat(a: seq<ArgRow>, b: seq<ArgRow>)
    ensures ReadArgs(a + b) == ReadArgs(a) + ReadArgs(b)
  {
    MapSeqConcat(ReadArg, a, b);
    FilterConcat(HasName, MapSeq(ReadArg, a), MapSeq(ReadArg, b));
  }

  /**
   * The filter keeps exactly the rows with a name: every row whose cleaned name is not blank is
   * read into the result, and everything in the result was read from some row.
   */
  lemma ReadArgsMembers(rows: seq<ArgRow>)
    ensures forall j :: 0 <= j < |rows| && ReadArg(rows[j]).name != [] ==> ReadArg(rows[j]) in ReadArgs(rows)
    ensures forall a :: a in ReadArgs(rows) ==> exists j :: 0 <= j < |rows| && ReadArg(rows[j]) == a
  {
    var read := MapSeq(ReadArg, rows);
    FilterKeeps(HasName, read);
    forall j | 0 <= j < |rows| ensures ReadArg(rows[j]) == read[j] {
    }
  }

  /** `createArgRow(root, data)`: the row the form shows for an argument. */
  function RowFor(a: Arg): ArgRow {
    ArgRow(a.name, OrElse(a.loc, "query"), OrElse(a.typ, "string"),
      if a.required then "yes" else "no", a.sanitize, a.fromPath)
  }

  /**
   * Reading back the row shown for an argument that was itself read from the table gives the
   * argument. The location, type and required cells are `<select>` elements in the form, and a
   * select set to a value it has no option for reads back as `""`; this lemma treats them as text,
   * so it speaks for the form only when those values are among the listed options.
   */
  lemma RowRoundTrip(a: Arg)
    requires WellRead(a)
    ensures ReadArg(RowFor(a)) == a
  {
    var row := RowFor(a);
    TrimNoop(a.name);
    TrimNoop(a.loc);
    TrimNoop(a.typ);
    TrimNoop(a.sanitize);
    YesNoTrimmed();
    assert a.required <==> Trim(row.required) == "yes";
    var b := ReadArg(row);
    assert b.name == a.name && b.sanitize == a.sanitize;
    assert b.loc == a.loc && b.typ == a.typ;
    assert b.required == a.required && b.fromPath == a.fromPath;
  }

  lemma YesNoTrimmed()
    ensures Trim("yes") == "yes" && Trim("no") == "no"
  {
    TrimNoop("yes");
    TrimNoop("no");
  }

  /** The names of the arguments, in order. */
  function ArgNames(args: seq<Arg>): (r: seq<string>)
    ensures |r| == |args|
  {
    MapSeq((a: Arg) => a.name, args)
  }

  /** The detected arguments whose name is not among `names`, in order. */
  function Missing(ds: seq<Arg>, names: seq<string>): (r: seq<Arg>)
    ensures forall k :: 0 <= k < |r| ==> r[k] in ds && r[k].name !in names
    ensures forall k :: 0 <= k < |ds| && ds[k].name !in names ==> ds[k] in r
  {
    if |ds| == 0 then []
    else
      var rest := Missing(ds[1..], names);
      assert forall k :: 1 <= k < |ds| ==> ds[k] == ds[1..][k - 1];
      (if ds[0].name in names then [] else [ds[0]]) + rest
  }

  /** An argument proposed by the route scan: named, clean, in the path, tagged as detected. */
  predicate FromRoute(a: Arg) {
    Named(a) && a.loc == "path" && a.fromPath
  }

  /**
   * `mergePathParamsIntoTable(table, route)`: the existing rows stay as they are, and a row is
   * appended for each detected parameter whose name no existing row carries.
   */
  function MergePathParams(rows: seq<ArgRow>, route: string): (r: seq<ArgRow>)
    ensures |rows| <= |r| && r[..|rows|] == rows
    ensures forall k :: |rows| <= k < |r| ==>
      r[k].fromPath && r[k].loc == "path" && r[k].name !in ArgNames(ReadArgs(rows))
  {
    MergeDetected(rows, DetectPathParams(route))
  }

  /** The merge for a given list of detected arguments; an empty list returns early. */
  function MergeDetected(rows: seq<ArgRow>, detected: seq<Arg>): (r: seq<ArgRow>)
    requires forall a :: a in detected ==> FromRoute(a)
    ensures |rows| <= |r| && r[..|rows|] == rows
    ensures forall k :: |rows| <= k < |r| ==>
      r[k].fromPath && r[k].loc == "path" && r[k].name !in ArgNames(ReadArgs(rows))
  {
    if |detected| == 0 then rows else rows + Appended(detected, ArgNames(ReadArgs(rows)))
  }

  /** The rows merging appends: one per detected argument whose name is not among `names`. */
  function Appended(detected: seq<Arg>, names: seq<string>): (r: seq<ArgRow>)
    requires forall a :: a in detected ==> FromRoute(a)
    ensures forall k :: 0 <= k < |r| ==> r[k].fromPath && r[k].loc == "path" && r[k].name !in names
  {
    var m := Missing(detected, names);
    var added := MapSeq(RowFor, m);
    forall i | 0 <= i < |added|
      ensures added[i].fromPath && added[i].loc == "path" && added[i].name !in names
    {
      assert added[i] == RowFor(m[i]);
      assert FromRoute(m[i]);
    }
    added
  }

  /** Reading the rows shown for clean, named arguments gives those arguments back. */
  lemma ReadRowsFor(m: seq<Arg>)
    requires All(Named, m)
    ensures ReadArgs(MapSeq(RowFor, m)) == m
  {
    var read := MapSeq(ReadArg, MapSeq(RowFor, m));
    forall k | 0 <= k < |m| ensures read[k] == m[k] {
      RowRoundTrip(m[k]);
    }
    assert read == m;
    FilterAll(HasName, m);
  }

  /** Every detected name is either already known or carried by a missing argument. */
  lemma NamesCover(ds: seq<Arg>, names: seq<string>)
    ensures forall k :: 0 <= k < |ds| ==> ds[k].name in names + ArgNames(Missing(ds, names))
  {
    var m := Missing(ds, names);
    forall k | 0 <= k < |ds| ensures ds[k].name in names + ArgNames(m) {
      if ds[k].name !in names {
        var i :| 0 <= i < |m| && m[i] == ds[k];
        assert ArgNames(m)[i] == ds[k].name;
        assert (names + ArgNames(m))[|names| + i] == ds[k].name;
      }
    }
  }

  /** Nothing is missing when every detected name is already known. */
  lemma {:induction false} NoneMissing(ds: seq<Arg>, names: seq<string>)
    requires forall k :: 0 <= k < |ds| ==> ds[k].name in names
    ensures Missing(ds, names) == []
    decreases |ds|
  {
    if |ds| > 0 {
      NoneMissing(ds[1..], names);
    }
  }

  /** After merging, the table reads every detected name. */
  lemma MergeDetectedCovers(rows: seq<ArgRow>, detected: seq<Arg>)
    requires forall a :: a in detected ==> FromRoute(a)
    ensures forall k :: 0 <= k < |detected| ==> detected[k].name in ArgNames(ReadArgs(MergeDetected(rows, detected)))
  {
    if |detected| > 0 {
      var names := ArgNames(ReadArgs(rows));
      var m := Missing(detected, names);
      assert All(Named, m);
      assert Appended(detected, names) == MapSeq(RowFor, m);
      ReadArgsConcat(rows, MapSeq(RowFor, m));
      ReadRowsFor(m);
      MapSeqConcat((a: Arg) => a.name, ReadArgs(rows), m);
      NamesCover(detected, names);
    }
  }

  /** Merging changes nothing when the table already reads every detected name. */
  lemma MergeDetectedNoop(rows: seq<ArgRow>, detected: seq<Arg>)
    requires forall a :: a in detected ==> FromRoute(a)
    requires forall k :: 0 <= k < |detected| ==> detected[k].name in ArgNames(ReadArgs(rows))
    ensures MergeDetected(rows, detected) == rows
  {
    if |detected| > 0 {
      NoneMissing(detected, ArgNames(ReadArgs(rows)));
      assert rows + [] == rows;
    }
  }

  /** After merging, every parameter of the route is named by some argument the table reads. */
  lemma MergeComplete(rows: seq<ArgRow>, route: string)
    ensures forall p :: p in DetectParams(route) ==> p.name in ArgNames(ReadArgs(MergePathParams(rows, route)))
  {
    var ps, ds := DetectParams(route), DetectPathParams(route);
    MergeDetectedCovers(rows, ds);
    var names := ArgNames(ReadArgs(MergePathParams(rows, route)));
    forall p | p in ps ensures p.name in names {
      var k :| 0 <= k < |ps| && ps[k] == p;
      assert ds[k].name == p.name;
    }
  }

  /** Merging a second time with the same route adds nothing. */
  lemma MergeIdempotent(rows: seq<ArgRow>, route: string)
    ensures MergePathParams(MergePathParams(rows, route), route) == MergePathParams(rows, route)
  {
    var ds := DetectPathParams(route);
    MergeDetectedCovers(rows, ds);
    MergeDetectedNoop(MergeDetected(rows, ds), ds);
  }

  // ---------------------------------------------------------------------------
  // The PHP `args` array
  // ---------------------------------------------------------------------------

  const TypeHead := "'type'     => '"
  const SanitizeHead := "'sanitize_callback' => '"

  /**
   * The lines of one entry: the type (`string` when none is set), the required flag and, only when
   * the cleaned callback is not blank, the sanitize callback. Each literal reads back to its value.
   */
  function ArgItemLines(a: Arg): (lines: seq<string>)
    ensures |lines| == (if Trim(a.sanitize) == [] then 2 else 3)
    ensures StartsWith(lines[0], TypeHead)
    ensures ReadPhpQuoted(lines[0][|TypeHead|..]) == Some((OrElse(a.typ, "string"), []))
    ensures lines[1] == "'required' => " + (if a.required then "true" else "false")
    ensures |lines| == 3 ==> StartsWith(lines[2], SanitizeHead)
    ensures |lines| == 3 ==> ReadPhpQuoted(lines[2][|SanitizeHead|..]) == Some((Trim(a.sanitize), []))
  {
    var typ, san := OrElse(a.typ, "string"), Trim(a.sanitize);
    var typeLine := TypeHead + PhpString(typ) + "'";
    var sanLine := SanitizeHead + PhpString(san) + "'";
    PhpLiteralAt(TypeHead, typ, []);
    PhpLiteralAt(SanitizeHead, san, []);
    assert typeLine + [] == typeLine && sanLine + [] == sanLine;
    [typeLine, "'required' => " + (if a.required then "true" else "false")] + (if san == [] then [] else [sanLine])
  }

  /** One entry: the quoted name at `indent2`, then the lines one tab deeper. The name reads back cleaned. */
  function ArgItem(a: Arg, indent2: string): (r: string)
    ensures StartsWith(r, indent2 + "'")
    ensures ReadPhpQuoted(r[|indent2| + 1..]).Some? && ReadPhpQuoted(r[|indent2| + 1..]).value.0 == Trim(a.name)
  {
    var indent3 := indent2 + "\t";
    var rest := " => array(\n" + indent3 + Join(ArgItemLines(a), ",\n" + indent3) + "\n" + indent2 + ")";
    PhpLiteralAt(indent2 + "'", Trim(a.name), rest);
    indent2 + "'" + PhpString(Trim(a.name)) + "'" + rest
  }

  /** An argument `argsToPhpArray` writes an entry for: its cleaned name is not blank. */
  predicate Listed(a: Arg) {
    Trim(a.name) != []
  }

  /** `argsToPhpArray(args, baseIndent)`: `array()` when no argument is listed, else one entry per listed argument. */
  function ArgsToPhpArray(args: seq<Arg>, baseIndent: string): (r: string)
    ensures r == "array()" <==> Filter(Listed, args) == []
    ensures r != "array()" ==> StartsWith(r, "array(\n") && EndsWith(r, "\n" + OrElse(baseIndent, "\t\t\t") + ")")
  {
    var indent1 := OrElse(baseIndent, "\t\t\t");
    var items := MapSeq((a: Arg) => ArgItem(a, indent1 + "\t"), Filter(Listed, args));
    if items == [] then "array()"
    else
      var body := Join(items, ",\n");
      var close := "\n" + indent1 + ")";
      Wrapped("array(\n", body, close);
      OpenArray(body + close);
      "array(\n" + body + close
  }

  lemma OpenArray(x: string)
    ensures "array(\n" + x != "array()"
  {
    assert ("array(\n" + x)[6] == '\n';
  }

  /** The array is `array()` exactly when every argument's cleaned name is blank. */
  lemma PhpArrayEmpty(args: seq<Arg>, baseIndent: string)
    ensures ArgsToPhpArray(args, baseIndent) == "array()" <==> forall k :: 0 <= k < |args| ==> Trim(args[k].name) == []
  {
    FilterKeeps(Listed, args);
    if Filter(Listed, args) != [] {
      var x := Filter(Listed, args)[0];
      assert x in args && Listed(x);
      var k :| 0 <= k < |args| && args[k] == x;
    } else {
      forall k | 0 <= k < |args| ensures Trim(args[k].name) == [] {
        assert args[k] in args;
      }
    }
  }

  /** Every argument the table reads gets its entry, in order. */
  lemma ReadArgsListed(rows: seq<ArgRow>)
    ensures Filter(Listed, ReadArgs(rows)) == ReadArgs(rows)
  {
    var r := ReadArgs(rows);
    forall k | 0 <= k < |r| ensures Listed(r[k]) {
      assert Named(r[k]);
      TrimNoop(r[k].name);
    }
    FilterAll(Listed, r);
  }

  // ---------------------------------------------------------------------------
  // Generated identifiers
  // ---------------------------------------------------------------------------

  /** `makeFunctionName(namespace, route, method)`: a lower-case PHP identifier under `tfd_rest_`. */
  function FunctionName(namespace: string, route: string, verb: string): (r: string)
    ensures StartsWith(r, "tfd_rest_") && IsSlug(r[9..])
    ensures AllIn(r, LowerIdent)
  {
    var tail := IdentSlug(namespace + "_" + route + "_" + verb);
    var head := "tfd_rest_";
    assert AllIn(head, LowerIdent) by {
      forall i | 0 <= i < |head| ensures InClass(head[i], LowerIdent) {
        assert i < 9;
      }
    }
    AllInConcat(head, tail, LowerIdent);
    StartsWithConcat(head, tail);
    assert (head + tail)[9..] == tail;
    head + tail
  }

  /** The callback name keeps every ASCII letter and digit of the namespace, route and method, lower-cased, in order. */
  lemma FunctionNameLetters(namespace: string, route: string, verb: string)
    ensures Alnums(FunctionName(namespace, route, verb)[9..]) == Lower(Alnums(namespace) + Alnums(route) + Alnums(verb))
  {
    var s := namespace + "_" + route + "_" + verb;
    assert FunctionName(namespace, route, verb)[9..] == IdentSlug(s);
    IdentSlugAlnums(s);
    AlnumsUnderscored(namespace, route, verb);
  }

  /** The words of the controller name: the `_`-separated words of the identifier slug, capitalised. */
  function ControllerBase(namespace: string, route: string): string {
    Join(CapitalWords(IdentSlug(namespace + "_" + route)), "_")
  }

  /** `makeControllerClassName(namespace, route)`. */
  function ControllerClassName(namespace: string, route: string): (r: string)
    ensures StartsWith(r, "TFD_REST_") && EndsWith(r, "_Controller")
  {
    var base := ControllerBase(namespace, route);
    Wrapped("TFD_REST_", base, "_Controller");
    "TFD_REST_" + base + "_Controller"
  }

  /**
   * Splitting the controller name's middle at `_` gives back capitalised words, one per non-empty
   * word of the lower-cased identifier slug and equal to it up to case.
   */
  lemma ControllerWords(namespace: string, route: string)
    requires ControllerBase(namespace, route) != []
    ensures var ws := Words(IdentSlug(namespace + "_" + route));
      var parts := Split(ControllerBase(namespace, route), '_');
      |parts| == |ws| && forall k :: 0 <= k < |parts| ==> IsCapitalisedWord(parts[k]) && Lower(parts[k]) == ws[k]
  {
    CapitalWordsSplit(IdentSlug(namespace + "_" + route));
  }

  /** The `rest_base` guess: the first path segment of the route without its leading slash, or `items`. */
  function RestBase(route: string): (r: string)
    ensures r != [] && '/' !in r
  {
    var t := Trim(route);
    var u := if StartsWith(t, "/") then t[1..] else t;
    var first := Split(u, '/')[0];
    if first == [] then "items" else first
  }

  /** A route that starts with a slash and a segment takes that segment as its base. */
  lemma RestBaseSegment(seg: string, tail: string)
    requires seg != [] && '/' !in seg && Trimmed("/" + seg + tail)
    requires tail == [] || tail[0] == '/'
    ensures RestBase("/" + seg + tail) == seg
  {
    var t := "/" + seg + tail;
    TrimNoop(t);
    assert t[1..] == seg + tail;
    SplitPrefix(seg, tail, '/');
    if tail != [] {
      assert tail == [tail[0]] + tail[1..];
    }
    assert Split(tail, '/')[0] == [];
    assert seg + [] == seg;
  }

  /** A blank route, or one whose first segment is empty, falls back to `items`. */
  lemma RestBaseItems(route: string)
    requires Trim(route) == [] || Trim(route) == "/" || StartsWith(Trim(route), "//")
    ensures RestBase(route) == "items"
  {
    var t := Trim(route);
    var u := if StartsWith(t, "/") then t[1..] else t;
    if t == "/" {
      assert StartsWith(t, "/") && u == [];
    } else if t != [] {
      assert t[..2] == "//" && t[..1] == "/";
      assert u[0] == '/';
    }
    SplitLeading(u, '/');
  }

  /** Text that is empty or opens with the separator splits into an empty first piece. */
  lemma SplitLeading(u: string, d: char)
    requires u == [] || u[0] == d
    ensures Split(u, d)[0] == []
  {
  }

  // ---------------------------------------------------------------------------
  // The curl example
  // ---------------------------------------------------------------------------

  /** The sample JSON value the curl body gives an argument of each type. */
  datatype Sample = IntSample | NumberSample | BoolSample | ArraySample | ObjectSample | StringSample

  /** `1`, `1.5`, `true`, `[]`, `{}` or `"value"` by type; the type defaults to `string`. */
  function SampleFor(typ: string): (v: Sample)
    ensures v == StringSample <==> OrElse(typ, "string") !in ["integer", "number", "boolean", "array", "object"]
  {
    match OrElse(typ, "string")
    case "integer" => IntSample
    case "number" => NumberSample
    case "boolean" => BoolSample
    case "array" => ArraySample
    case "object" => ObjectSample
    case _ => StringSample
  }

  /** The arguments the curl body includes: sent in the body, with a name that is not blank. */
  predicate InBody(a: Arg) {
    OrElse(a.loc, "query") == "body" && Trim(a.name) != []
  }

  /**
   * The body arguments that become keys. Assigning `json["__proto__"]` replaces the object's
   * prototype (or is ignored for a primitive sample) instead of adding an own property, so
   * `JSON.stringify` never shows that name.
   */
  predicate Keyed(a: Arg) {
    InBody(a) && a.name != "__proto__"
  }

  /** The JSON object of the curl body: each keyed body argument in turn sets its name to its sample. */
  function BodyJson(args: seq<Arg>): map<string, Sample> {
    if |args| == 0 then map[]
    else
      var init, a := args[..|args| - 1], args[|args| - 1];
      var prev := BodyJson(init);
      if Keyed(a) then prev[a.name := SampleFor(a.typ)] else prev
  }

  /** The body's keys are exactly the names of the body arguments, except `__proto__`. */
  lemma BodyJsonKeys(args: seq<Arg>)
    ensures forall k :: k in BodyJson(args) ==> exists i :: 0 <= i < |args| && Keyed(args[i]) && args[i].name == k
    ensures forall i :: 0 <= i < |args| && Keyed(args[i]) ==> args[i].name in BodyJson(args)
  {
    BodyKeysNamed(args);
    BodyNamesKept(args);
  }

  lemma {:induction false} BodyKeysNamed(args: seq<Arg>)
    ensures forall k :: k in BodyJson(args) ==> exists i :: 0 <= i < |args| && Keyed(args[i]) && args[i].name == k
    decreases |args|
  {
    if |args| > 0 {
      var init, a := args[..|args| - 1], args[|args| - 1];
      var prev := BodyJson(init);
      BodyKeysNamed(init);
      assert BodyJson(args) == if Keyed(a) then prev[a.name := SampleFor(a.typ)] else prev;
      forall k | k in BodyJson(args)
        ensures exists i :: 0 <= i < |args| && Keyed(args[i]) && args[i].name == k
      {
        if Keyed(a) && k == a.name {
          assert args[|args| - 1] == a;
        } else {
          assert k in prev;
          var i :| 0 <= i < |init| && Keyed(init[i]) && init[i].name == k;
          assert args[i] == init[i];
        }
      }
    }
  }

  lemma {:induction false} BodyNamesKept(args: seq<Arg>)
    ensures forall i :: 0 <= i < |args| && Keyed(args[i]) ==> args[i].name in BodyJson(args)
    decreases |args|
  {
    if |args| > 0 {
      var init, a := args[..|args| - 1], args[|args| - 1];
      var prev := BodyJson(init);
      BodyNamesKept(init);
      assert forall x :: x in prev ==> x in BodyJson(args);
      forall i | 0 <= i < |args| && Keyed(args[i]) ensures args[i].name in BodyJson(args) {
        if i < |init| {
          assert args[i] == init[i];
        }
      }
    }
  }

  /** The last keyed body argument with a name decides that key's value: later rows overwrite earlier ones. */
  lemma {:induction false} BodyLastWins(args: seq<Arg>, i: nat)
    requires i < |args| && Keyed(args[i])
    requires forall j :: i < j < |args| ==> !(Keyed(args[j]) && args[j].name == args[i].name)
    ensures args[i].name in BodyJson(args) && BodyJson(args)[args[i].name] == SampleFor(args[i].typ)
    decreases |args|
  {
    if i < |args| - 1 {
      var init := args[..|args| - 1];
      assert init[i] == args[i];
      BodyLastWins(init, i);
    }
  }

  /** An argument named `__proto__` never becomes a key of the body, whatever its location. */
  lemma BodyProtoDropped(args: seq<Arg>)
    ensures "__proto__" !in BodyJson(args)
  {
    BodyKeysNamed(args);
  }

  /** The example request: the method upper-cased, and a JSON body unless it is GET or DELETE. */
  datatype Curl = Curl(verb: string, body: Option<map<string, Sample>>)

  /** `buildCurlExample(d)` without the URL. */
  function CurlExample(verb: string, args: seq<Arg>): (c: Curl)
    ensures c.verb == Upper(verb)
    ensures c.body.None? <==> Upper(verb) == "GET" || Upper(verb) == "DELETE"
    ensures c.body.Some? ==> c.body.value == BodyJson(args)
  {
    var m := Upper(verb);
    if m == "GET" || m == "DELETE" then Curl(m, None) else Curl(m, Some(BodyJson(args)))
  }

  // ---------------------------------------------------------------------------
  // Generating
  // ---------------------------------------------------------------------------

  /** What the Generate button refuses: a blank namespace, then a blank route. */
  datatype RestError = MissingNamespace | MissingRoute

  /** The record the templates are filled from (`d` in the source). */
  datatype Request = Request(namespace: string, route: string, verb: string, permissionMode: string, capability: string, args: seq<Arg>)

  /** The slots of the emitted PHP: a callback function, or a `WP_REST_Controller` subclass. */
  datatype Code =
    | Simple(functionName: string, wpMethod: WpMethods, argsPhp: string, permission: string, curl: Curl)
    | Controller(className: string, restBase: string, wpMethod: WpMethods, argsPhp: string, permission: string, curl: Curl)

  /** `buildSimpleCode(d)` / `buildControllerCode(d)`: the values placed into the template. */
  function BuildCode(d: Request, controller: bool): (c: Code)
    ensures c.Controller? <==> controller
    ensures c.wpMethod == MethodToWpConst(d.verb)
    ensures c.Simple? ==> StartsWith(c.functionName, "tfd_rest_")
    ensures c.Controller? ==> StartsWith(c.className, "TFD_REST_") && EndsWith(c.className, "_Controller")
    ensures c.argsPhp == "array()" <==> forall k :: 0 <= k < |d.args| ==> Trim(d.args[k].name) == []
  {
    PhpArrayEmpty(d.args, "\t\t\t");
    PhpArrayEmpty(d.args, "\t\t\t\t\t");
    var curl := CurlExample(d.verb, d.args);
    if controller then
      Controller(ControllerClassName(d.namespace, d.route), RestBase(d.route), MethodToWpConst(d.verb),
        ArgsToPhpArray(d.args, "\t\t\t\t\t"), BuildPermissionCallback(d.permissionMode, d.capability, "\t\t"), curl)
    else
      Simple(FunctionName(d.namespace, d.route, d.verb), MethodToWpConst(d.verb),
        ArgsToPhpArray(d.args, "\t\t\t"), BuildPermissionCallback(d.permissionMode, d.capability, "\t\t\t\t\t"), curl)
  }

  /**
   * The Generate handler: the cleaned namespace and slash-led route must not be blank; the
   * route's parameters are merged into the table, which is then read as the arguments; a
   * blank method is `GET` and a blank permission mode `public`.
   */
  function Generate(ns: string, route: string, verb: string, perm: string, cap: string, rows: seq<ArgRow>)
    : (r: Result<(Request, seq<ArgRow>), RestError>)
    ensures r == Err(MissingNamespace) <==> Trim(ns) == []
    ensures r == Err(MissingRoute) <==> Trim(ns) != [] && Trim(route) == []
    ensures r.Ok? ==> var (d, table) := r.value;
      && d.namespace == Trim(ns) && d.route == EnsureLeadingSlash(route) && d.route[0] == '/'
      && d.verb == OrDefault(verb, "GET") && d.permissionMode == OrDefault(perm, "public")
      && d.capability == Trim(cap)
      && table == MergePathParams(rows, d.route) && d.args == ReadArgs(table)
      && forall p :: p in DetectParams(d.route) ==> p.name in ArgNames(d.args)
  {
    var namespace := Trim(ns);
    var routePath := EnsureLeadingSlash(route);
    if namespace == [] then Err(MissingNamespace)
    else if routePath == [] then Err(MissingRoute)
    else
      var table := MergePathParams(rows, routePath);
      MergeComplete(rows, routePath);
      Ok((Request(namespace, routePath, OrDefault(verb, "GET"), OrDefault(perm, "public"), Trim(cap), ReadArgs(table)), table))
  }
}

=== FILE: slugs.dfy ===
/**
 * Identifier normalisation shared by the generators:
 *   slug / slugify        trim, lower-case, every run outside [a-z0-9_] becomes `_`, strip `_` at both ends
 *   pascal (CRUD)         capitalised slug words joined with `_`
 *   pascalCase (ACF)      capitalised slug words joined with nothing
 *   identifier slug       the REST generator's variant: replace runs outside [a-zA-Z0-9_] first,
 *                         strip `_`, lower-case last
 * Case mapping is ASCII only (see Strings).
 */
module Slugs {
  import opened Strings

  /** `[a-z0-9_]` or `[a-zA-Z0-9_]`: the two character classes the regular expressions keep. */
  datatype CharClass = LowerIdent | AnyCaseIdent

  predicate InClass(c: char, k: CharClass) {
    IsLowerAscii(c) || IsDigit(c) || c == '_' || (k == AnyCaseIdent && IsUpperAscii(c))
  }

  predicate AllIn(s: string, k: CharClass) {
    forall i :: 0 <= i < |s| ==> InClass(s[i], k)
  }

  predicate IsAlnum(c: char) {
    IsLowerAscii(c) || IsUpperAscii(c) || IsDigit(c)
  }

  /** The ASCII letters and digits of `s`, in order. */
  function Alnums(s: string): string
  {
    if |s| == 0 then []
    else (if IsAlnum(s[0]) then [s[0]] else []) + Alnums(s[1..])
  }

  lemma {:induction false} AlnumsConcat(a: string, b: string)
    ensures Alnums(a + b) == Alnums(a) + Alnums(b)
    decreases |a|
  {
    if |a| > 0 {
      assert (a + b)[1..] == a[1..] + b;
      AlnumsConcat(a[1..], b);
    } else {
      assert a + b == b;
    }
  }

  /** Underscores carry no letters or digits. */
  lemma AlnumsUnderscored(x: string, y: string, z: string)
    ensures Alnums(x + "_" + y + "_" + z) == Alnums(x) + Alnums(y) + Alnums(z)
  {
    var u := "_";
    assert Alnums(u) == [] by {
      assert u[1..] == [];
    }
    var a, b, c := x + u, x + u + y, x + u + y + u;
    AlnumsConcat(x, u);
    assert Alnums(a) == Alnums(x);
    AlnumsConcat(a, y);
    AlnumsConcat(b, u);
    assert Alnums(c) == Alnums(b);
    AlnumsConcat(c, z);
  }

  lemma {:induction false} AlnumsNone(s: string)
    requires forall i :: 0 <= i < |s| ==> !IsAlnum(s[i])
    ensures Alnums(s) == []
    decreases |s|
  {
    if |s| > 0 {
      AlnumsNone(s[1..]);
    }
  }

  lemma {:induction false} AlnumsAll(s: string)
    requires forall i :: 0 <= i < |s| ==> IsAlnum(s[i])
    ensures Alnums(s) == s
    decreases |s|
  {
    if |s| > 0 {
      AlnumsAll(s[1..]);
    }
  }

  // ---------------------------------------------------------------------------
  // .replace(/[^class]+/g, "_")
  // ---------------------------------------------------------------------------

  /** The first index at or after `i` holding a character of the class (or `|s|`). */
  function RunEnd(s: string, k: CharClass, i: nat): (n: nat)
    requires i <= |s|
    ensures i <= n <= |s|
    ensures forall j :: i <= j < n ==> !InClass(s[j], k)
    ensures n == |s| || InClass(s[n], k)
    decreases |s| - i
  {
    if i < |s| && !InClass(s[i], k) then RunEnd(s, k, i + 1) else i
  }

  /** `s[i..]` with every maximal run of characters outside the class replaced by a single `_`. */
  function ReplaceRunsFrom(s: string, k: CharClass, i: nat): (r: string)
    requires i <= |s|
    ensures AllIn(r, k)
    ensures |r| <= |s| - i
    decreases |s| - i
  {
    if i == |s| then []
    else if InClass(s[i], k) then [s[i]] + ReplaceRunsFrom(s, k, i + 1)
    else "_" + ReplaceRunsFrom(s, k, RunEnd(s, k, i + 1))
  }

  /** `.replace(/[^class]+/g, "_")`. */
  function ReplaceRuns(s: string, k: CharClass): (r: string)
    ensures AllIn(r, k)
    ensures |r| <= |s|
  {
    ReplaceRunsFrom(s, k, 0)
  }

  lemma {:induction false} ReplaceRunsFromInClass(s: string, k: CharClass, i: nat)
    requires i <= |s| && AllIn(s, k)
    ensures ReplaceRunsFrom(s, k, i) == s[i..]
    decreases |s| - i
  {
    if i < |s| {
      ReplaceRunsFromInClass(s, k, i + 1);
      assert s[i..] == [s[i]] + s[i + 1..];
    }
  }

  /** A string already inside the class is left unchanged. */
  lemma ReplaceRunsInClass(s: string, k: CharClass)
    requires AllIn(s, k)
    ensures ReplaceRuns(s, k) == s
  {
    ReplaceRunsFromInClass(s, k, 0);
    assert s[0..] == s;
  }

  lemma AlnumsStep(s: string, i: nat)
    requires i < |s|
    ensures Alnums(s[i..]) == (if IsAlnum(s[i]) then [s[i]] else []) + Alnums(s[i + 1..])
  {
    assert s[i..][1..] == s[i + 1..];
  }

  lemma {:induction false} ReplaceRunsFromAlnums(s: string, k: CharClass, i: nat)
    requires i <= |s|
    requires forall j :: 0 <= j < |s| && IsAlnum(s[j]) ==> InClass(s[j], k)
    ensures Alnums(ReplaceRunsFrom(s, k, i)) == Alnums(s[i..])
    decreases |s| - i
  {
    if i < |s| {
      AlnumsStep(s, i);
      if InClass(s[i], k) {
        ReplaceRunsFromAlnums(s, k, i + 1);
        AlnumsConcat([s[i]], ReplaceRunsFrom(s, k, i + 1));
      } else {
        var n := RunEnd(s, k, i + 1);
        ReplaceRunsFromAlnums(s, k, n);
        AlnumsConcat("_", ReplaceRunsFrom(s, k, n));
        assert s[i + 1..][n - (i + 1)..] == s[n..];
        AlnumsDropPrefix(s[i + 1..], n - (i + 1));
      }
    }
  }

  /** No letter or digit the class keeps is lost or invented: only `_` are inserted. */
  lemma ReplaceRunsAlnums(s: string, k: CharClass)
    requires forall j :: 0 <= j < |s| && IsAlnum(s[j]) ==> InClass(s[j], k)
    ensures Alnums(ReplaceRuns(s, k)) == Alnums(s)
  {
    ReplaceRunsFromAlnums(s, k, 0);
    assert s[0..] == s;
  }

  // ---------------------------------------------------------------------------
  // .replace(/^_+|_+$/g, "")
  // ---------------------------------------------------------------------------

  function UnderscoreRunEnd(s: string, i: nat): (n: nat)
    requires i <= |s|
    ensures i <= n <= |s|
    ensures forall j :: i <= j < n ==> s[j] == '_'
    ensures n == |s| || s[n] != '_'
    decreases |s| - i
  {
    if i < |s| && s[i] == '_' then UnderscoreRunEnd(s, i + 1) else i
  }

  function UnderscoreRunStart(s: string, j: nat): (n: nat)
    requires j <= |s|
    ensures n <= j
    ensures forall x :: n <= x < j ==> s[x] == '_'
    ensures n == 0 || s[n - 1] != '_'
  {
    if j > 0 && s[j - 1] == '_' then UnderscoreRunStart(s, j - 1) else j
  }

  /** The bounds of `s` once the `_` at both ends are stripped. */
  function UnderscoreRange(s: string): (ab: (nat, nat))
    ensures ab.0 <= ab.1 <= |s|
    ensures forall j :: 0 <= j < ab.0 ==> s[j] == '_'
    ensures forall j :: ab.1 <= j < |s| ==> s[j] == '_'
    ensures ab.0 < ab.1 ==> s[ab.0] != '_' && s[ab.1 - 1] != '_'
  {
    var a := UnderscoreRunEnd(s, 0);
    if a == |s| then (|s|, |s|) else (a, UnderscoreRunStart(s, |s|))
  }

  /** Strips every `_` at either end and nothing else. */
  function TrimUnderscores(s: string): (r: string)
    ensures |r| <= |s|
    ensures r == [] || (r[0] != '_' && r[|r| - 1] != '_')
    ensures AllIn(s, LowerIdent) ==> AllIn(r, LowerIdent)
    ensures AllIn(s, AnyCaseIdent) ==> AllIn(r, AnyCaseIdent)
  {
    var ab := UnderscoreRange(s);
    AllInSlice(s, ab.0, ab.1, LowerIdent);
    AllInSlice(s, ab.0, ab.1, AnyCaseIdent);
    s[ab.0..ab.1]
  }

  lemma AllInSlice(s: string, i: nat, j: nat, k: CharClass)
    requires i <= j <= |s|
    ensures AllIn(s, k) ==> AllIn(s[i..j], k)
  {
    if AllIn(s, k) {
      forall m | 0 <= m < j - i ensures InClass(s[i..j][m], k) {
        assert s[i..j][m] == s[i + m];
      }
    }
  }

  lemma {:induction false} AlnumsDropPrefix(s: string, a: nat)
    requires a <= |s|
    requires forall i :: 0 <= i < a ==> !IsAlnum(s[i])
    ensures Alnums(s[a..]) == Alnums(s)
    decreases a
  {
    if a > 0 {
      assert s[1..][a - 1..] == s[a..];
      AlnumsDropPrefix(s[1..], a - 1);
    }
  }

  lemma AlnumsDropSuffix(s: string, b: nat)
    requires b <= |s|
    requires forall i :: b <= i < |s| ==> !IsAlnum(s[i])
    ensures Alnums(s[..b]) == Alnums(s)
  {
    assert s == s[..b] + s[b..];
    AlnumsConcat(s[..b], s[b..]);
    AlnumsNone(s[b..]);
  }

  lemma {:induction false} AlnumsNoneFrom(s: string, b: nat)
    requires b <= |s|
    requires forall i :: b <= i < |s| ==> !IsAlnum(s[i])
    ensures Alnums(s[b..]) == []
    decreases |s| - b
  {
    if b < |s| {
      AlnumsStep(s, b);
      AlnumsNoneFrom(s, b + 1);
    }
  }

  /** Removing letter-free ends keeps the letters and digits. */
  lemma AlnumsSlice(s: string, a: nat, b: nat)
    requires a <= b <= |s|
    requires forall i :: 0 <= i < a ==> !IsAlnum(s[i])
    requires forall i :: b <= i < |s| ==> !IsAlnum(s[i])
    ensures Alnums(s[a..b]) == Alnums(s)
  {
    assert s[a..] == s[a..b] + s[b..];
    AlnumsConcat(s[a..b], s[b..]);
    AlnumsNoneFrom(s, b);
    AlnumsDropPrefix(s, a);
  }

  lemma AlnumsTrimUnderscores(s: string)
    ensures Alnums(TrimUnderscores(s)) == Alnums(s)
  {
    var ab := UnderscoreRange(s);
    AlnumsSlice(s, ab.0, ab.1);
  }

  // ---------------------------------------------------------------------------
  // slug / slugify
  // ---------------------------------------------------------------------------

  /** The range of `slug`: only `[a-z0-9_]`, no `_` at either end. */
  lemma AllInConcat(a: string, b: string, k: CharClass)
    requires AllIn(a, k) && AllIn(b, k)
    ensures AllIn(a + b, k)
  {
    forall i | 0 <= i < |a + b| ensures InClass((a + b)[i], k) {
      if i < |a| {
        assert (a + b)[i] == a[i];
      } else {
        assert (a + b)[i] == b[i - |a|];
      }
    }
  }

  predicate IsSlug(s: string) {
    AllIn(s, LowerIdent) && (s == [] || (s[0] != '_' && s[|s| - 1] != '_'))
  }

  /** `slug(v)` of the CRUD generator and `slugify(s)` of the ACF generator (the same expression). */
  function Slug(v: string): (r: string)
    ensures IsSlug(r)
  {
    TrimUnderscores(ReplaceRuns(Lower(Trim(v)), LowerIdent))
  }

  /** A slug is a fixed point of `Slug`. */
  lemma SlugOfSlug(s: string)
    requires IsSlug(s)
    ensures Slug(s) == s
  {
    assert NoSpace(s);
    NoSpaceTrim(s);
    assert Lower(s) == s;
    ReplaceRunsInClass(s, LowerIdent);
  }

  /** `slug(slug(x)) == slug(x)`. */
  lemma SlugIdempotent(v: string)
    ensures Slug(Slug(v)) == Slug(v)
  {
    SlugOfSlug(Slug(v));
  }

  lemma {:induction false} AlnumsLower(s: string)
    ensures Alnums(Lower(s)) == Lower(Alnums(s))
    decreases |s|
  {
    if |s| > 0 {
      AlnumsLower(s[1..]);
      assert Lower(s)[1..] == Lower(s[1..]);
      var h: string := if IsAlnum(s[0]) then [s[0]] else [];
      LowerConcat(h, Alnums(s[1..]));
    }
  }

  lemma AlnumsTrim(s: string)
    ensures Alnums(Trim(s)) == Alnums(s)
  {
    var ab := TrimRange(s);
    AlnumsSlice(s, ab.0, ab.1);
  }

  /** `Slug` keeps exactly the ASCII letters (lower-cased) and digits of its input, in order. */
  lemma SlugAlnums(v: string)
    ensures Alnums(Slug(v)) == Lower(Alnums(v))
  {
    var t := Lower(Trim(v));
    ReplaceRunsAlnums(t, LowerIdent);
    AlnumsTrimUnderscores(ReplaceRuns(t, LowerIdent));
    AlnumsLower(Trim(v));
    AlnumsTrim(v);
  }

  // ---------------------------------------------------------------------------
  // Words, capitalisation, pascal / pascalCase
  // ---------------------------------------------------------------------------

  /** `.split("_").filter(Boolean)`. */
  function Words(s: string): (r: seq<string>)
    ensures forall k :: 0 <= k < |r| ==> r[k] != [] && '_' !in r[k]
  {
    var pieces := Split(s, '_');
    var r := NonEmpty(pieces);
    assert forall k :: 0 <= k < |r| ==> r[k] in pieces;
    r
  }

  /** `w.charAt(0).toUpperCase() + w.slice(1)`. */
  function Capitalize(w: string): string {
    if w == [] then [] else [UpperChar(w[0])] + w[1..]
  }

  function CapitalizeAll(ws: seq<string>): (r: seq<string>)
    ensures |r| == |ws|
    ensures forall k :: 0 <= k < |ws| ==> r[k] == Capitalize(ws[k])
  {
    seq(|ws|, k requires 0 <= k < |ws| => Capitalize(ws[k]))
  }

  /** A capitalised lower-case word: an upper-case letter or digit, then lower-case letters and digits. */
  predicate IsCapitalisedWord(w: string) {
    && w != []
    && (IsUpperAscii(w[0]) || IsDigit(w[0]))
    && forall i :: 1 <= i < |w| ==> IsLowerAscii(w[i]) || IsDigit(w[i])
  }

  predicate IsLowerWord(w: string) {
    w != [] && forall i :: 0 <= i < |w| ==> IsLowerAscii(w[i]) || IsDigit(w[i])
  }

  lemma CapitalizeLowerWord(w: string)
    requires IsLowerWord(w)
    ensures IsCapitalisedWord(Capitalize(w))
    ensures Lower(Capitalize(w)) == w
  {
  }

  /** The words of a slug are non-empty runs of `[a-z0-9]`. */
  lemma SlugWordsLower(s: string)
    requires IsSlug(s)
    ensures forall k :: 0 <= k < |Words(s)| ==> IsLowerWord(Words(s)[k])
  {
    var pieces := Split(s, '_');
    forall k | 0 <= k < |Words(s)|
      ensures IsLowerWord(Words(s)[k])
    {
      var w := Words(s)[k];
      assert w in pieces;
      var j :| 0 <= j < |pieces| && pieces[j] == w;
      SplitChars(s, '_', j);
    }
  }

  lemma {:induction false} SplitChars(s: string, d: char, j: nat)
    requires j < |Split(s, d)|
    ensures forall i :: 0 <= i < |Split(s, d)[j]| ==> Split(s, d)[j][i] in s
    decreases |s|
  {
    if |s| > 0 {
      var rest := Split(s[1..], d);
      if s[0] == d {
        if j > 0 {
          SplitChars(s[1..], d, j - 1);
        }
      } else if j == 0 {
        SplitChars(s[1..], d, 0);
      } else {
        SplitChars(s[1..], d, j);
      }
    }
  }

  /** `.split("_").filter(Boolean).map(capitalise)` on a slug: its words, each capitalised. */
  function CapitalWords(s: string): (r: seq<string>)
    requires IsSlug(s)
    ensures |r| == |Words(s)|
    ensures forall k :: 0 <= k < |r| ==> IsCapitalisedWord(r[k]) && Lower(r[k]) == Words(s)[k]
  {
    var ws := Words(s);
    SlugWordsLower(s);
    forall k | 0 <= k < |ws| ensures IsCapitalisedWord(Capitalize(ws[k])) && Lower(Capitalize(ws[k])) == ws[k] {
      CapitalizeLowerWord(ws[k]);
    }
    CapitalizeAll(ws)
  }

  /** Joining capitalised words with `_` and splitting on `_` gives the words back. */
  lemma CapitalWordsSplit(s: string)
    requires IsSlug(s) && |CapitalWords(s)| > 0
    ensures Split(Join(CapitalWords(s), "_"), '_') == CapitalWords(s)
  {
    var ws := CapitalWords(s);
    forall k | 0 <= k < |ws| ensures '_' !in ws[k] {
      assert IsCapitalisedWord(ws[k]);
    }
    SplitJoin(ws, '_');
  }

  /** The capitalised words `pascal` and `pascalCase` are built from. */
  function PascalWords(v: string): (r: seq<string>)
    ensures |r| == |Words(Slug(v))|
    ensures forall k :: 0 <= k < |r| ==> IsCapitalisedWord(r[k]) && Lower(r[k]) == Words(Slug(v))[k]
  {
    CapitalWords(Slug(v))
  }

  lemma {:induction false} ConcatChars(ws: seq<string>, i: nat)
    requires i < |Concat(ws)|
    ensures exists k, j :: 0 <= k < |ws| && 0 <= j < |ws[k]| && Concat(ws)[i] == ws[k][j]
    decreases |ws|
  {
    if i < |ws[0]| {
      assert Concat(ws)[i] == ws[0][i];
    } else {
      ConcatChars(ws[1..], i - |ws[0]|);
      var k, j :| 0 <= k < |ws[1..]| && 0 <= j < |ws[1..][k]| && Concat(ws[1..])[i - |ws[0]|] == ws[1..][k][j];
      assert Concat(ws)[i] == ws[k + 1][j];
    }
  }

  /** `pascalCase(s)` of the ACF generator: capitalised slug words joined with nothing. */
  function PascalCase(v: string): (r: string)
    ensures forall i :: 0 <= i < |r| ==> IsAlnum(r[i])
  {
    var ws := PascalWords(v);
    var r := Concat(ws);
    forall i | 0 <= i < |r| ensures IsAlnum(r[i]) {
      ConcatChars(ws, i);
    }
    r
  }

  /** `pascal(v)` of the CRUD generator: capitalised slug words joined with `_`. */
  function Pascal(v: string): string {
    Join(PascalWords(v), "_")
  }

  /** The `_` of `pascal` are exactly the word separators: splitting gives the capitalised words back. */
  lemma PascalSplit(v: string)
    requires |PascalWords(v)| > 0
    ensures Split(Pascal(v), '_') == PascalWords(v)
  {
    CapitalWordsSplit(Slug(v));
  }

  lemma {:induction false} LowerConcatAll(ws: seq<string>)
    ensures Lower(Concat(ws)) == Concat(seq(|ws|, k requires 0 <= k < |ws| => Lower(ws[k])))
    decreases |ws|
  {
    if |ws| > 0 {
      LowerConcatAll(ws[1..]);
      LowerConcat(ws[0], Concat(ws[1..]));
      var l := seq(|ws|, k requires 0 <= k < |ws| => Lower(ws[k]));
      assert l[1..] == seq(|ws[1..]|, k requires 0 <= k < |ws[1..]| => Lower(ws[1..][k]));
    }
  }

  lemma ConcatCons(x: string, t: seq<string>)
    ensures Concat([x] + t) == x + Concat(t)
  {
    assert ([x] + t)[1..] == t;
  }

  lemma ConcatNonEmptyHead(xs: seq<string>)
    requires |xs| > 0
    ensures Concat(NonEmpty(xs)) == xs[0] + Concat(NonEmpty(xs[1..]))
  {
    if xs[0] != [] {
      ConcatCons(xs[0], NonEmpty(xs[1..]));
    }
  }

  lemma WordsLetter(c: char, t: string)
    requires c != '_'
    ensures Concat(Words([c] + t)) == [c] + Concat(Words(t))
  {
    var st := Split(t, '_');
    assert ([c] + t)[1..] == t;
    var first := [c] + st[0];
    assert Split([c] + t, '_') == [first] + st[1..];
    assert ([first] + st[1..])[1..] == st[1..];
    assert Words([c] + t) == [first] + NonEmpty(st[1..]);
    ConcatCons(first, NonEmpty(st[1..]));
    ConcatNonEmptyHead(st);
  }

  lemma WordsUnderscore(t: string)
    ensures Words("_" + t) == Words(t)
  {
    var st := Split(t, '_');
    assert ("_" + t)[1..] == t;
    assert Split("_" + t, '_') == [[]] + st;
    assert ([[]] + st)[1..] == st;
  }

  /** The words of a `[a-z0-9_]` string, glued together, are its letters and digits. */
  lemma {:induction false} ConcatWords(s: string)
    requires AllIn(s, LowerIdent)
    ensures Concat(Words(s)) == Alnums(s)
    decreases |s|
  {
    if |s| > 0 {
      assert AllIn(s[1..], LowerIdent);
      ConcatWords(s[1..]);
      assert s == [s[0]] + s[1..];
      if s[0] != '_' {
        WordsLetter(s[0], s[1..]);
      } else {
        WordsUnderscore(s[1..]);
      }
    }
  }

  /** `pascalCase` keeps exactly the letters and digits of its input, up to case. */
  lemma PascalCaseLetters(v: string)
    ensures Lower(PascalCase(v)) == Lower(Alnums(v))
  {
    var ws := PascalWords(v);
    var slug := Slug(v);
    var words := Words(slug);
    LowerConcatAll(ws);
    var lowered := seq(|ws|, k requires 0 <= k < |ws| => Lower(ws[k]));
    assert lowered == words by {
      forall k | 0 <= k < |ws| ensures lowered[k] == words[k] {
      }
    }
    ConcatWords(slug);
    SlugAlnums(v);
    assert Lower(PascalCase(v)) == Lower(Concat(ws));
  }

  // ---------------------------------------------------------------------------
  // The REST generator's identifier slug
  // ---------------------------------------------------------------------------

  lemma LowerIdentClass(s: string)
    requires AllIn(s, AnyCaseIdent)
    ensures AllIn(Lower(s), LowerIdent)
  {
  }

  /** `.replace(/[^a-zA-Z0-9_]+/g, "_").replace(/^_+|_+$/g, "").toLowerCase()`. */
  function IdentSlug(s: string): (r: string)
    ensures IsSlug(r)
  {
    var t := TrimUnderscores(ReplaceRuns(s, AnyCaseIdent));
    LowerIdentClass(t);
    Lower(t)
  }

  /** The identifier slug keeps exactly the ASCII letters (lower-cased) and digits of its input, in order. */
  lemma IdentSlugAlnums(s: string)
    ensures Alnums(IdentSlug(s)) == Lower(Alnums(s))
  {
    var t := ReplaceRuns(s, AnyCaseIdent);
    ReplaceRunsAlnums(s, AnyCaseIdent);
    AlnumsTrimUnderscores(t);
    AlnumsLower(TrimUnderscores(t));
  }
}

=== FILE: strings.dfy ===
/**
 * String primitives the generators are built from, in the meaning JavaScript gives them:
 * `String.prototype.trim`, ASCII case mapping, `split` on one character, `join`,
 * `startsWith` / `endsWith` / `includes`, and decimal rendering of integers.
 */
module Strings {

  /** JavaScript's WhiteSpace and LineTerminator code points: what `trim()` strips and `\s` matches. */
  predicate IsSpace(c: char) {
    || c == ' '
    || ('\t' <= c <= '\r')
    || c == '\U{00A0}' || c == '\U{1680}'
    || ('\U{2000}' <= c <= '\U{200A}')
    || c == '\U{2028}' || c == '\U{2029}' || c == '\U{202F}'
    || c == '\U{205F}' || c == '\U{3000}' || c == '\U{FEFF}'
  }

  predicate NoSpace(s: string) {
    forall i :: 0 <= i < |s| ==> !IsSpace(s[i])
  }

  /** The first index at or after `i` that does not hold white space (or `|s|`). */
  function SpaceRunEnd(s: string, i: nat): (n: nat)
    requires i <= |s|
    ensures i <= n <= |s|
    ensures forall j :: i <= j < n ==> IsSpace(s[j])
    ensures n == |s| || !IsSpace(s[n])
    decreases |s| - i
  {
    if i < |s| && IsSpace(s[i]) then SpaceRunEnd(s, i + 1) else i
  }

  /** The least `n <= j` such that `s[n..j]` is all white space. */
  function SpaceRunStart(s: string, j: nat): (n: nat)
    requires j <= |s|
    ensures n <= j
    ensures forall x :: n <= x < j ==> IsSpace(s[x])
    ensures n == 0 || !IsSpace(s[n - 1])
  {
    if j > 0 && IsSpace(s[j - 1]) then SpaceRunStart(s, j - 1) else j
  }

  /** The bounds `trim` keeps: white space before the first and after the second, none at either edge. */
  function TrimRange(s: string): (ab: (nat, nat))
    ensures ab.0 <= ab.1 <= |s|
    ensures forall j :: 0 <= j < ab.0 ==> IsSpace(s[j])
    ensures forall j :: ab.1 <= j < |s| ==> IsSpace(s[j])
    ensures ab.0 < ab.1 ==> !IsSpace(s[ab.0]) && !IsSpace(s[ab.1 - 1])
  {
    var a := SpaceRunEnd(s, 0);
    if a == |s| then (|s|, |s|) else (a, SpaceRunStart(s, |s|))
  }

  /** Neither starts nor ends with white space. */
  predicate Trimmed(s: string) {
    s == [] || (!IsSpace(s[0]) && !IsSpace(s[|s| - 1]))
  }

  /** `s.trim()`: the slice of `s` between its leading and its trailing white space. */
  function Trim(s: string): (r: string)
    ensures |r| <= |s|
    ensures Trimmed(r)
  {
    s[TrimRange(s).0..TrimRange(s).1]
  }

  /** A string is blank when trimming leaves nothing: `!clean(v)` in the generators. */
  predicate IsBlank(s: string) {
    Trim(s) == []
  }

  /** `clean(v) || fallback`: the trimmed value, or the fallback when that is empty. */
  function OrDefault(v: string, fallback: string): (r: string)
    ensures Trim(v) != [] ==> r == Trim(v)
    ensures Trim(v) == [] ==> r == fallback
    ensures fallback != [] ==> r != []
    ensures Trimmed(fallback) ==> Trimmed(r)
  {
    if Trim(v) == [] then fallback else Trim(v)
  }

  /** `v || fallback` on a string that is not cleaned first: only the empty string falls back. */
  function OrElse(v: string, fallback: string): (r: string)
    ensures v != [] ==> r == v
    ensures v == [] ==> r == fallback
  {
    if v == [] then fallback else v
  }

  /** Trimming leaves a string alone exactly when it neither starts nor ends with white space. */
  lemma TrimNoop(s: string)
    ensures Trim(s) == s <==> Trimmed(s)
  {
    if s != [] && Trimmed(s) {
      assert SpaceRunEnd(s, 0) == 0;
      assert SpaceRunStart(s, |s|) == |s|;
      assert s[0..|s|] == s;
    }
  }

  /** A concatenation that opens and closes with non-space characters is left alone by `trim`. */
  lemma TrimNoopConcat(a: string, b: string)
    requires |a| > 0 && !IsSpace(a[0])
    requires if b == [] then !IsSpace(a[|a| - 1]) else !IsSpace(b[|b| - 1])
    ensures Trim(a + b) == a + b
  {
    TrimNoop(a + b);
  }

  /** `trim` is idempotent. */
  lemma TrimIdempotent(s: string)
    ensures Trim(Trim(s)) == Trim(s)
  {
    TrimNoop(Trim(s));
  }

  lemma NoSpaceTrim(s: string)
    requires NoSpace(s)
    ensures Trim(s) == s
  {
    TrimNoop(s);
  }

  /** `(" " + w).trim()` gives back a trimmed, non-empty `w`. */
  lemma TrimSpaceCons(w: string)
    requires w != [] && Trimmed(w)
    ensures Trim(" " + w) == w
  {
    var s := " " + w;
    assert SpaceRunEnd(s, 1) == 1;
    assert SpaceRunEnd(s, 0) == 1;
    assert SpaceRunStart(s, |s|) == |s|;
    assert s[1..|s|] == w;
  }

  /** A blank string is one made of white space only. */
  lemma BlankIffAllSpace(s: string)
    ensures IsBlank(s) <==> forall i :: 0 <= i < |s| ==> IsSpace(s[i])
  {
  }

  // ---------------------------------------------------------------------------
  // ASCII case mapping (toLowerCase / toUpperCase restricted to A-Z / a-z)
  // ---------------------------------------------------------------------------

  predicate IsUpperAscii(c: char) { 'A' <= c <= 'Z' }
  predicate IsLowerAscii(c: char) { 'a' <= c <= 'z' }
  predicate IsDigit(c: char) { '0' <= c <= '9' }

  function LowerChar(c: char): (r: char)
    ensures IsUpperAscii(c) ==> IsLowerAscii(r) && r as int == c as int + 32
    ensures !IsUpperAscii(c) ==> r == c
  {
    if IsUpperAscii(c) then (c as int + 32) as char else c
  }

  function UpperChar(c: char): (r: char)
    ensures IsLowerAscii(c) ==> IsUpperAscii(r) && r as int == c as int - 32
    ensures !IsLowerAscii(c) ==> r == c
  {
    if IsLowerAscii(c) then (c as int - 32) as char else c
  }

  function Lower(s: string): (r: string)
    ensures |r| == |s|
    ensures forall i :: 0 <= i < |s| ==> r[i] == LowerChar(s[i])
  {
    seq(|s|, i requires 0 <= i < |s| => LowerChar(s[i]))
  }

  function Upper(s: string): (r: string)
    ensures |r| == |s|
    ensures forall i :: 0 <= i < |s| ==> r[i] == UpperChar(s[i])
  {
    seq(|s|, i requires 0 <= i < |s| => UpperChar(s[i]))
  }

  /** Lower-casing undoes upper-casing on strings with no upper-case letter to begin with. */
  lemma LowerUpper(s: string)
    requires forall i :: 0 <= i < |s| ==> !IsUpperAscii(s[i])
    ensures Lower(Upper(s)) == s
  {
  }

  lemma LowerConcat(a: string, b: string)
    ensures Lower(a + b) == Lower(a) + Lower(b)
  {
  }

  lemma UpperConcat(a: string, b: string)
    ensures Upper(a + b) == Upper(a) + Upper(b)
  {
  }

  // ---------------------------------------------------------------------------
  // Prefixes, suffixes, substrings
  // ---------------------------------------------------------------------------

  predicate StartsWith(s: string, p: string) {
    |p| <= |s| && s[..|p|] == p
  }

  predicate EndsWith(s: string, p: string) {
    |p| <= |s| && s[|s| - |p|..] == p
  }

  lemma StartsWithConcat(a: string, b: string)
    ensures StartsWith(a + b, a)
  {
    assert (a + b)[..|a|] == a;
  }

  lemma StartsWithPrepend(x: string, s: string, p: string)
    requires StartsWith(s, p)
    ensures StartsWith(x + s, x + p)
  {
    assert (x + s)[..|x + p|] == x + s[..|p|];
  }

  lemma EndsWithConcat(a: string, b: string)
    ensures EndsWith(a + b, b)
  {
    assert (a + b)[|a + b| - |b|..] == b;
  }

  lemma ConcatAssoc4(a: string, b: string, c: string, d: string)
    ensures a + (b + c + d) == a + b + c + d
  {
  }

  lemma ConcatAssoc5(a: string, b: string, c: string, d: string, e: string, f: string)
    ensures a + b + c + d + e + f == a + (b + (c + (d + (e + f))))
  {
  }

  /** `s.includes(sub)`. */
  predicate Contains(s: string, sub: string)
    decreases |s|
  {
    StartsWith(s, sub) || (|s| > 0 && Contains(s[1..], sub))
  }

  lemma {:induction false} ContainsAt(s: string, sub: string, i: nat)
    requires i + |sub| <= |s| && s[i..i + |sub|] == sub
    ensures Contains(s, sub)
    decreases i
  {
    if i > 0 {
      assert s[1..][i - 1..i - 1 + |sub|] == s[i..i + |sub|];
      ContainsAt(s[1..], sub, i - 1);
    }
  }

  // ---------------------------------------------------------------------------
  // join / split
  // ---------------------------------------------------------------------------

  /** `parts.join(sep)`. */
  function Join(parts: seq<string>, sep: string): (r: string)
    ensures |parts| == 1 ==> r == parts[0]
    ensures |parts| == 0 ==> r == []
  {
    if |parts| == 0 then []
    else if |parts| == 1 then parts[0]
    else parts[0] + sep + Join(parts[1..], sep)
  }

  lemma JoinCons(x: string, rest: seq<string>, sep: string)
    requires |rest| > 0
    ensures Join([x] + rest, sep) == x + sep + Join(rest, sep)
  {
    assert ([x] + rest)[1..] == rest;
  }

  lemma {:induction false} JoinAppend(parts: seq<string>, x: string, sep: string)
    requires |parts| > 0
    ensures Join(parts + [x], sep) == Join(parts, sep) + sep + x
    decreases |parts|
  {
    if |parts| == 1 {
      assert parts + [x] == [parts[0]] + [x];
      JoinCons(parts[0], [x], sep);
    } else {
      assert (parts + [x])[1..] == parts[1..] + [x];
      JoinAppend(parts[1..], x, sep);
    }
  }

  /** Joining two non-empty lists is joining their joins. */
  lemma {:induction false} JoinConcat(a: seq<string>, b: seq<string>, sep: string)
    requires |a| > 0 && |b| > 0
    ensures Join(a + b, sep) == Join(a, sep) + sep + Join(b, sep)
    decreases |a|
  {
    if |a| == 1 {
      assert a + b == [a[0]] + b;
      JoinCons(a[0], b, sep);
    } else {
      assert a + b == [a[0]] + (a[1..] + b);
      JoinCons(a[0], a[1..] + b, sep);
      JoinConcat(a[1..], b, sep);
      JoinCons(a[0], a[1..], sep);
      assert a == [a[0]] + a[1..];
    }
  }

  /** Part `k` of a join sits between the join of the parts before it and the join of those after it. */
  lemma JoinAt(parts: seq<string>, k: nat, sep: string)
    requires k < |parts|
    ensures Join(parts, sep) ==
      (if k == 0 then [] else Join(parts[..k], sep) + sep)
      + parts[k]
      + (if k == |parts| - 1 then [] else sep + Join(parts[k + 1..], sep))
  {
    var before, after := parts[..k], parts[k + 1..];
    assert parts == before + ([parts[k]] + after);
    if k > 0 && k < |parts| - 1 {
      JoinConcat(before, [parts[k]] + after, sep);
      JoinCons(parts[k], after, sep);
    } else if k > 0 {
      assert after == [];
      assert parts == before + [parts[k]];
      JoinAppend(before, parts[k], sep);
    } else if k < |parts| - 1 {
      JoinCons(parts[k], after, sep);
    }
  }

  /** A text occurs in any text built around it. */
  lemma ContainsWithin(a: string, h: string, b: string, t: string, c: string, d: string)
    ensures Contains(a + (h + b + t) + c + d, b)
  {
    var s := a + (h + b + t) + c + d;
    assert s == (a + h) + b + (t + c + d);
    assert s[|a + h|..|a + h| + |b|] == b;
    ContainsAt(s, b, |a + h|);
  }

  /** An inner part of a join occurs in it with a separator on either side. */
  lemma JoinContains(parts: seq<string>, k: nat, sep: string)
    requires 0 < k < |parts| - 1
    ensures Contains(Join(parts, sep), sep + parts[k] + sep)
  {
    JoinAt(parts, k, sep);
    var before, after := Join(parts[..k], sep), Join(parts[k + 1..], sep);
    var mid := sep + parts[k] + sep;
    assert Join(parts, sep) == before + mid + after;
    ContainsAt(Join(parts, sep), mid, |before|);
  }

  /** A join opens with its first part. */
  lemma JoinFirst(parts: seq<string>, sep: string)
    requires |parts| > 0
    ensures StartsWith(Join(parts, sep), parts[0])
  {
    if |parts| > 1 {
      StartsWithConcat(parts[0], sep + Join(parts[1..], sep));
      assert parts[0] + sep + Join(parts[1..], sep) == parts[0] + (sep + Join(parts[1..], sep));
    } else {
      StartsWithConcat(parts[0], []);
      assert parts[0] + [] == parts[0];
    }
  }

  /** A join closes with its last part. */
  lemma {:induction false} JoinLast(parts: seq<string>, sep: string)
    requires |parts| > 0
    ensures EndsWith(Join(parts, sep), parts[|parts| - 1])
    decreases |parts|
  {
    if |parts| > 1 {
      JoinLast(parts[1..], sep);
      var rest := Join(parts[1..], sep);
      var last := parts[|parts| - 1];
      assert parts[1..][|parts[1..]| - 1] == last;
      var r := parts[0] + sep + rest;
      assert r[|r| - |last|..] == rest[|rest| - |last|..];
    } else {
      assert parts[0][|parts[0]| - |parts[0]|..] == parts[0];
    }
  }

  /** A join of two lists closes with the separator and the join of the second. */
  lemma JoinCloses(front: seq<string>, tail: seq<string>, sep: string)
    requires |front| > 0 && |tail| > 0
    ensures EndsWith(Join(front + tail, sep), sep + Join(tail, sep))
  {
    JoinConcat(front, tail, sep);
    EndsWithTail(Join(front, sep), sep, Join(tail, sep));
  }

  lemma EndsWithTail(a: string, b: string, c: string)
    ensures EndsWith(a + b + c, b + c)
  {
    assert a + b + c == a + (b + c);
    EndsWithConcat(a, b + c);
  }

  /** A join opens with its first two parts and the start of the third. */
  lemma JoinOpens(a: string, b: string, rest: seq<string>, sep: string)
    requires |rest| > 0
    ensures StartsWith(Join([a, b] + rest, sep), a + sep + (b + sep + rest[0]))
  {
    assert ([a, b] + rest)[1..] == [b] + rest;
    assert ([b] + rest)[1..] == rest;
    JoinFirst(rest, sep);
    StartsWithPrepend(b + sep, Join(rest, sep), rest[0]);
    StartsWithPrepend(a + sep, b + sep + Join(rest, sep), b + sep + rest[0]);
  }

  /** `s.split(d)` for a one-character separator: `""` splits into `[""]`. */
  function Split(s: string, d: char): (r: seq<string>)
    ensures |r| >= 1
    ensures forall k :: 0 <= k < |r| ==> d !in r[k]
    decreases |s|
  {
    if |s| == 0 then [[]]
    else
      var rest := Split(s[1..], d);
      if s[0] == d then [[]] + rest
      else [[s[0]] + rest[0]] + rest[1..]
  }

  /** The first piece of a split is the text before the first separator. */
  lemma {:induction false} SplitFirst(s: string, d: char)
    ensures StartsWith(s, Split(s, d)[0])
    ensures |Split(s, d)[0]| < |s| ==> s[|Split(s, d)[0]|] == d
    decreases |s|
  {
    if |s| > 0 && s[0] != d {
      SplitFirst(s[1..], d);
    }
  }

  /** Splitting and joining back with the same separator gives the string back. */
  lemma {:induction false} JoinSplit(s: string, d: char)
    ensures Join(Split(s, d), [d]) == s
    decreases |s|
  {
    if |s| > 0 {
      var rest := Split(s[1..], d);
      JoinSplit(s[1..], d);
      if s[0] == d {
        JoinCons([], rest, [d]);
      } else if |rest| == 1 {
      } else {
        JoinCons(rest[0], rest[1..], [d]);
        assert rest == [rest[0]] + rest[1..];
        JoinCons([s[0]] + rest[0], rest[1..], [d]);
      }
    }
  }

  lemma {:induction false} SplitPrefix(w: string, t: string, d: char)
    requires d !in w
    ensures Split(w + t, d) == [w + Split(t, d)[0]] + Split(t, d)[1..]
    decreases |w|
  {
    if |w| > 0 {
      assert (w + t)[1..] == w[1..] + t;
      SplitPrefix(w[1..], t, d);
      assert [w[0]] + (w[1..] + Split(t, d)[0]) == w + Split(t, d)[0];
    } else {
      var st := Split(t, d);
      assert w + t == t;
      assert w + st[0] == st[0];
      assert st == [st[0]] + st[1..];
    }
  }

  /** Joining words that do not contain the separator and splitting again gives the words back. */
  lemma {:induction false} SplitJoin(ws: seq<string>, d: char)
    requires |ws| > 0
    requires forall k :: 0 <= k < |ws| ==> d !in ws[k]
    ensures Split(Join(ws, [d]), d) == ws
    decreases |ws|
  {
    if |ws| == 1 {
      SplitPrefix(ws[0], [], d);
      assert ws[0] + [] == ws[0];
    } else {
      SplitJoin(ws[1..], d);
      var tail := [d] + Join(ws[1..], [d]);
      assert Join(ws, [d]) == ws[0] + tail;
      SplitPrefix(ws[0], tail, d);
      assert tail[1..] == Join(ws[1..], [d]);
      assert Split(tail, d) == [[]] + ws[1..];
      assert ws[0] + [] == ws[0];
      assert ws == [ws[0]] + ws[1..];
    }
  }

  /** The non-empty elements, in order: `.filter(Boolean)` on strings. */
  function NonEmpty(xs: seq<string>): (r: seq<string>)
    ensures |r| <= |xs|
    ensures forall k :: 0 <= k < |r| ==> r[k] != [] && r[k] in xs
    ensures forall x :: x in xs && x != [] ==> x in r
  {
    if |xs| == 0 then []
    else if xs[0] == [] then NonEmpty(xs[1..])
    else [xs[0]] + NonEmpty(xs[1..])
  }

  /** Every string of the list is non-empty, so the falsy filter keeps them all. */
  lemma {:induction false} NonEmptyKeeps(xs: seq<string>)
    requires forall k :: 0 <= k < |xs| ==> xs[k] != []
    ensures NonEmpty(xs) == xs
  {
    if |xs| > 0 {
      NonEmptyKeeps(xs[1..]);
      assert xs == [xs[0]] + xs[1..];
    }
  }

  /** Concatenation of all parts: `parts.join("")`. */
  function Concat(parts: seq<string>): (r: string)
    ensures |parts| == 0 ==> r == []
  {
    if |parts| == 0 then [] else parts[0] + Concat(parts[1..])
  }

  lemma {:induction false} ConcatIsJoin(parts: seq<string>)
    ensures Join(parts, []) == Concat(parts)
  {
    if |parts| > 1 {
      ConcatIsJoin(parts[1..]);
    }
  }

  // ---------------------------------------------------------------------------
  // Decimal numbers
  // ---------------------------------------------------------------------------

  predicate AllDigits(s: string) {
    forall i :: 0 <= i < |s| ==> IsDigit(s[i])
  }

  /** The first index at or after `i` that is not an ASCII digit (or `|s|`). */
  function DigitRunEnd(s: string, i: nat): (n: nat)
    requires i <= |s|
    ensures i <= n <= |s|
    ensures forall j :: i <= j < n ==> IsDigit(s[j])
    ensures n == |s| || !IsDigit(s[n])
    decreases |s| - i
  {
    if i < |s| && IsDigit(s[i]) then DigitRunEnd(s, i + 1) else i
  }

  function DigitChar(d: nat): (r: char)
    requires d < 10
    ensures IsDigit(r) && r as int - '0' as int == d
  {
    ('0' as int + d) as char
  }

  /** The value of a string of decimal digits. */
  function DigitsValue(s: string): (r: nat)
    requires AllDigits(s)
  {
    if |s| == 0 then 0
    else DigitsValue(s[..|s| - 1]) * 10 + (s[|s| - 1] as int - '0' as int)
  }

  /** Decimal rendering of a natural number, as a template literal `${n}` prints it. */
  function NatToString(n: nat): (r: string)
    ensures |r| > 0 && AllDigits(r)
    ensures r[0] == '0' ==> n == 0 && r == "0"
  {
    if n < 10 then [DigitChar(n)] else NatToString(n / 10) + [DigitChar(n % 10)]
  }

  /** Reading back the rendered digits gives the number. */
  lemma {:induction false} NatToStringValue(n: nat)
    ensures DigitsValue(NatToString(n)) == n
  {
    if n >= 10 {
      NatToStringValue(n / 10);
      var r := NatToString(n);
      assert r[..|r| - 1] == NatToString(n / 10);
    }
  }

  /** A string opens with its first part and closes with its last. */
  lemma Wrapped(head: string, mid: string, tail: string)
    ensures StartsWith(head + mid + tail, head) && EndsWith(head + mid + tail, tail)
  {
    assert head + mid + tail == head + (mid + tail);
    StartsWithConcat(head, mid + tail);
    EndsWithConcat(head + mid, tail);
  }
}

=== FILE: wcdelete.dfy ===
/**
 * The WooCommerce product-delete tool: a fixed SQL script that removes every product and
 * variation (their term relationships, their meta, attachments parented to them, then the posts
 * themselves) inside one transaction, and then clears six lookup tables with either TRUNCATE or
 * DELETE.
 */
module WcDelete {
  import opened Strings
  import opened Results
  import opened Prefixes

  /** The lookup tables the script clears, in order. */
  const LookupTables: seq<string> := [
    "wc_product_meta_lookup", "wc_product_attributes_lookup", "wc_category_lookup",
    "wc_download_log", "wc_rate_limits", "wc_reserved_stock"]

  /** Every table suffix the script may name. */
  const Suffixes: set<string> := {
    "term_relationships", "posts", "postmeta",
    "wc_product_meta_lookup", "wc_product_attributes_lookup", "wc_category_lookup",
    "wc_download_log", "wc_rate_limits", "wc_reserved_stock"}

  /** The statements of the script that change data. */
  datatype Purge =
    | TermRelationships
    | Postmeta
    | Attachments
    | Products
    | Clear(table: string, truncate: bool)

  /** The comment lines of the script. */
  datatype Comment =
    | RuleLine
    | Title
    | PrefixLine(prefix: string)
    | Warning
    | AboutTermRelationships
    | AboutPostmeta
    | AboutAttachments
    | AboutProducts
    | AboutClears(truncate: bool)

  /** One entry of the `lines` array. */
  datatype Entry = Note(comment: Comment) | Blank | Begin | Commit | Run(purge: Purge)

  /** The tables a statement names, as suffixes of the prefix. */
  function PurgeTables(s: Purge): seq<string> {
    match s
    case TermRelationships => ["term_relationships", "posts"]
    case Postmeta => ["postmeta", "posts"]
    case Attachments => ["posts", "posts"]
    case Products => ["posts"]
    case Clear(t, _) => [t]
  }

  const ProductTypes := "WHERE p2.post_type IN ('product','product_variation');"

  /** The text of a statement for prefix `p`. */
  function RenderPurge(s: Purge, p: string): string {
    match s
    case TermRelationships =>
      "DELETE tr FROM " + p + "term_relationships" + " tr\nINNER JOIN " + p + "posts"
      + " p2 ON p2.ID = tr.object_id\n" + ProductTypes
    case Postmeta =>
      "DELETE pm FROM " + p + "postmeta" + " pm\nINNER JOIN " + p + "posts"
      + " p2 ON p2.ID = pm.post_id\n" + ProductTypes
    case Attachments =>
      "DELETE a FROM " + p + "posts" + " a\nINNER JOIN " + p + "posts"
      + AttachmentsTail
    case Products =>
      "DELETE FROM " + p + "posts" + ProductsTail
    case Clear(t, truncate) =>
      (if truncate then "TRUNCATE TABLE " else "DELETE FROM ") + p + t + ";"
  }

  const AttachmentsTail := " parent ON parent.ID = a.post_parent\nWHERE a.post_type = 'attachment'\n"
    + "  AND parent.post_type IN ('product','product_variation');"
  const ProductsTail := "\nWHERE post_type IN ('product','product_variation');"

  /**
   * Fixed text pieces with the prefixed tables in the gaps between them:
   * `gaps[0] + p + tables[0] + gaps[1] + … + p + tables[n-1] + gaps[n]`.
   */
  function Fill(gaps: seq<string>, tables: seq<string>, p: string): string
    requires |gaps| == |tables| + 1
    decreases |tables|
  {
    if tables == [] then gaps[0]
    else gaps[0] + p + tables[0] + Fill(gaps[1..], tables[1..], p)
  }

  /** The text of a statement around its tables; it does not depend on the prefix. */
  function PurgeGaps(s: Purge): (r: seq<string>)
    ensures |r| == |PurgeTables(s)| + 1
  {
    match s
    case TermRelationships =>
      ["DELETE tr FROM ", " tr\nINNER JOIN ", " p2 ON p2.ID = tr.object_id\n" + ProductTypes]
    case Postmeta =>
      ["DELETE pm FROM ", " pm\nINNER JOIN ", " p2 ON p2.ID = pm.post_id\n" + ProductTypes]
    case Attachments =>
      ["DELETE a FROM ", " a\nINNER JOIN ", AttachmentsTail]
    case Products =>
      ["DELETE FROM ", ProductsTail]
    case Clear(t, truncate) =>
      [if truncate then "TRUNCATE TABLE " else "DELETE FROM ", ";"]
  }

  /**
   * A statement's text is its fixed pieces with the prefix and one of its listed tables in
   * every gap: the prefixed names are exactly those of `PurgeTables`, in order.
   */
  lemma PurgeText(s: Purge, p: string)
    ensures RenderPurge(s, p) == Fill(PurgeGaps(s), PurgeTables(s), p)
  {
    var g, ts := PurgeGaps(s), PurgeTables(s);
    if |ts| == 1 {
      FillOne(g, ts, p);
    } else {
      FillTwo(g, ts, p);
    }
  }

  lemma PurgeTexts(p: string)
    ensures forall s: Purge :: RenderPurge(s, p) == Fill(PurgeGaps(s), PurgeTables(s), p)
  {
    forall s: Purge ensures RenderPurge(s, p) == Fill(PurgeGaps(s), PurgeTables(s), p) {
      PurgeText(s, p);
    }
  }

  lemma FillOne(g: seq<string>, ts: seq<string>, p: string)
    requires |g| == 2 && |ts| == 1
    ensures Fill(g, ts, p) == g[0] + p + ts[0] + g[1]
  {
    assert Fill(g[1..], ts[1..], p) == g[1];
  }

  lemma FillTwo(g: seq<string>, ts: seq<string>, p: string)
    requires |g| == 3 && |ts| == 2
    ensures Fill(g, ts, p) == g[0] + p + ts[0] + g[1] + p + ts[1] + g[2]
  {
    FillOne(g[1..], ts[1..], p);
  }

  function CommentText(c: Comment): string {
    match c
    case RuleLine => "-- ========================================="
    case Title => "-- WooCommerce: Delete ALL products + variations"
    case PrefixLine(p) => "-- Prefix: " + p
    case Warning => "-- WARNING: destructive operation. Backup first."
    case AboutTermRelationships => "-- Remove term relationships for products/variations"
    case AboutPostmeta => "-- Remove postmeta for products/variations"
    case AboutAttachments => "-- Remove attachments whose parent is a product/variation (optional)"
    case AboutProducts => "-- Delete products and variations"
    case AboutClears(truncate) =>
      if truncate then "-- Clear WooCommerce lookup tables (TRUNCATE)"
      else "-- Clear WooCommerce lookup tables (DELETE)"
  }

  function RenderEntry(e: Entry, p: string): string {
    match e
    case Note(c) => CommentText(c)
    case Blank => ""
    case Begin => "START TRANSACTION;"
    case Commit => "COMMIT;"
    case Run(s) => RenderPurge(s, p)
  }

  /** The six lookup clears, all in the one form chosen. */
  function Clears(truncate: bool): (r: seq<Entry>)
    ensures |r| == 6
    ensures forall k :: 0 <= k < 6 ==> r[k] == Run(Clear(LookupTables[k], truncate))
  {
    seq(6, k requires 0 <= k < 6 => Run(Clear(LookupTables[k], truncate)))
  }

  /** The header, the transaction start, the four deletes and the comment before the clears. */
  function Head(p: string, truncate: bool): (r: seq<Entry>)
    ensures |r| == 21
  {
    [Note(RuleLine), Note(Title), Note(PrefixLine(p)), Note(Warning), Note(RuleLine), Blank,
     Begin, Blank,
     Note(AboutTermRelationships), Run(TermRelationships), Blank,
     Note(AboutPostmeta), Run(Postmeta), Blank,
     Note(AboutAttachments), Run(Attachments), Blank,
     Note(AboutProducts), Run(Products), Blank,
     Note(AboutClears(truncate))]
  }

  const Tail: seq<Entry> := [Blank, Commit, Blank]

  /** The entries of `sql(prefix, useTruncate)`, in order. */
  function Entries(p: string, truncate: bool): (r: seq<Entry>)
    ensures |r| == 30
  {
    Head(p, truncate) + Clears(truncate) + Tail
  }

  /** Which part of the script entry `k` comes from. */
  lemma EntryAt(p: string, truncate: bool, k: nat)
    requires k < 30
    ensures k < 21 ==> Entries(p, truncate)[k] == Head(p, truncate)[k]
    ensures 21 <= k < 27 ==> Entries(p, truncate)[k] == Run(Clear(LookupTables[k - 21], truncate))
    ensures 27 <= k ==> Entries(p, truncate)[k] == Tail[k - 27]
  {
    var h, c := Head(p, truncate), Clears(truncate);
    assert Entries(p, truncate) == h + c + Tail;
    if 21 <= k < 27 {
      assert (h + c + Tail)[k] == c[k - 21];
    }
  }

  /** Where the data-changing statements sit: the four deletes in order, then the six clears. */
  predicate RunAt(k: nat) {
    k == 9 || k == 12 || k == 15 || k == 18 || 21 <= k < 27
  }

  /** One `START TRANSACTION;`, as entry 6, before every statement. */
  lemma BeginOnce(p: string, truncate: bool)
    ensures forall k :: 0 <= k < 30 ==> (Entries(p, truncate)[k] == Begin <==> k == 6)
  {
    forall k | 0 <= k < 30 ensures Entries(p, truncate)[k] == Begin <==> k == 6 {
      EntryAt(p, truncate, k);
    }
  }

  /** One `COMMIT;`, as entry 28, after every statement. */
  lemma CommitOnce(p: string, truncate: bool)
    ensures forall k :: 0 <= k < 30 ==> (Entries(p, truncate)[k] == Commit <==> k == 28)
  {
    forall k | 0 <= k < 30 ensures Entries(p, truncate)[k] == Commit <==> k == 28 {
      EntryAt(p, truncate, k);
    }
  }

  /** The data-changing statements are exactly the entries between the two, at `RunAt`. */
  lemma RunsInside(p: string, truncate: bool)
    ensures forall k :: 0 <= k < 30 ==> (Entries(p, truncate)[k].Run? <==> RunAt(k))
    ensures forall k :: 0 <= k < 30 && RunAt(k) ==> 6 < k < 28
  {
    forall k | 0 <= k < 30 ensures Entries(p, truncate)[k].Run? <==> RunAt(k) {
      EntryAt(p, truncate, k);
    }
  }

  /**
   * Term relationships, postmeta, attachments and products are deleted in that order; then
   * exactly six lookup tables are cleared, all by TRUNCATE or all by DELETE as chosen.
   */
  lemma PurgeOrder(p: string, truncate: bool)
    ensures var r := Entries(p, truncate);
      && r[9] == Run(TermRelationships) && r[12] == Run(Postmeta)
      && r[15] == Run(Attachments) && r[18] == Run(Products)
      && (forall k :: 21 <= k < 27 ==> r[k] == Run(Clear(LookupTables[k - 21], truncate)))
  {
    EntryAt(p, truncate, 9);
    EntryAt(p, truncate, 12);
    EntryAt(p, truncate, 15);
    EntryAt(p, truncate, 18);
    forall k | 21 <= k < 27 ensures Entries(p, truncate)[k] == Run(Clear(LookupTables[k - 21], truncate)) {
      EntryAt(p, truncate, k);
    }
  }

  /** Each statement names only tables of the form prefix + one of the fixed suffixes. */
  lemma TablesFixed(p: string, truncate: bool)
    ensures forall e :: e in Entries(p, truncate) && e.Run? ==>
      && RenderPurge(e.purge, p) == Fill(PurgeGaps(e.purge), PurgeTables(e.purge), p)
      && forall t :: t in PurgeTables(e.purge) ==> t in Suffixes
  {
    var r := Entries(p, truncate);
    PurgeTexts(p);
    forall e | e in r && e.Run? ensures forall t :: t in PurgeTables(e.purge) ==> t in Suffixes {
      var k :| 0 <= k < |r| && r[k] == e;
      EntryTables(p, truncate, k);
    }
  }

  lemma EntryTables(p: string, truncate: bool, k: nat)
    requires k < 30 && Entries(p, truncate)[k].Run?
    ensures forall t :: t in PurgeTables(Entries(p, truncate)[k].purge) ==> t in Suffixes
  {
    EntryAt(p, truncate, k);
  }

  /** The clear lines as emitted: `TRUNCATE TABLE p+t;` or `DELETE FROM p+t;` for each lookup table. */
  lemma ClearLines(p: string, truncate: bool, k: nat)
    requires k < 6
    ensures RenderEntry(Entries(p, truncate)[21 + k], p) ==
      (if truncate then "TRUNCATE TABLE " else "DELETE FROM ") + p + LookupTables[k] + ";"
  {
    EntryAt(p, truncate, 21 + k);
  }

  function RenderAll(es: seq<Entry>, p: string): (r: seq<string>)
    ensures |r| == |es|
    ensures forall k :: 0 <= k < |es| ==> r[k] == RenderEntry(es[k], p)
  {
    seq(|es|, k requires 0 <= k < |es| => RenderEntry(es[k], p))
  }

  /** `sql(prefix, useTruncate)`: the entries joined by newlines. */
  function Sql(p: string, truncate: bool): string {
    Join(RenderAll(Entries(p, truncate), p), "\n")
  }

  /** The script ends with the commit and one newline. */
  lemma SqlEnds(p: string, truncate: bool)
    ensures EndsWith(Sql(p, truncate), "\n" + "COMMIT;" + "\n")
  {
    var lines := RenderAll(Entries(p, truncate), p);
    EntryAt(p, truncate, 28);
    EntryAt(p, truncate, 29);
    assert lines[28] == RenderEntry(Commit, p) == "COMMIT;";
    assert lines[29] == RenderEntry(Blank, p) == "";
    EndsWithLine(lines, "COMMIT;", "\n");
  }

  /** Lines whose last two are `c` and the empty line join to text ending in `\n` + `c` + `\n`. */
  lemma EndsWithLine(lines: seq<string>, c: string, sep: string)
    requires |lines| > 2 && lines[|lines| - 2] == c && lines[|lines| - 1] == []
    ensures EndsWith(Join(lines, sep), sep + c + sep)
  {
    var front, tail := lines[..|lines| - 2], lines[|lines| - 2..];
    assert lines == front + tail;
    assert tail == [c] + [[]];
    JoinCons(c, [[]], sep);
    assert Join(tail, sep) == c + sep + [];
    assert sep + (c + sep + []) == sep + c + sep;
    JoinCloses(front, tail, sep);
  }

  /** The header names the prefix the script uses. */
  lemma PrefixNote(p: string, truncate: bool)
    ensures Entries(p, truncate)[2] == Note(PrefixLine(p))
  {
    EntryAt(p, truncate, 2);
  }

  datatype WcError = InvalidPrefix

  /**
   * The Generate handler: a blank prefix is refused; otherwise the script for the normalised
   * prefix, in the chosen TRUNCATE/DELETE form, whose header names that prefix and which ends
   * with the commit.
   */
  function Generate(prefixInput: string, truncate: bool): (r: Result<string, WcError>)
    ensures r.Err? <==> Trim(prefixInput) == []
    ensures r.Ok? ==> r.value == Sql(NormalizePrefix(prefixInput), truncate)
    ensures r.Ok? ==> EndsWith(r.value, "\n" + "COMMIT;" + "\n")
    ensures r.Ok? ==> var p := NormalizePrefix(prefixInput);
      && EndsWith(p, "_")
      && StartsWith(r.value, CommentText(RuleLine) + "\n" + (CommentText(Title) + "\n" + "-- Prefix: " + p))
  {
    var p := NormalizePrefix(prefixInput);
    if p == [] then Err(InvalidPrefix)
    else
      SqlEnds(p, truncate);
      SqlOpens(p, truncate);
      Ok(Sql(p, truncate))
  }

  /** The script opens with the rule line, the title and the line naming the prefix. */
  lemma SqlOpens(p: string, truncate: bool)
    ensures StartsWith(Sql(p, truncate), CommentText(RuleLine) + "\n" + (CommentText(Title) + "\n" + "-- Prefix: " + p))
  {
    var lines := RenderAll(Entries(p, truncate), p);
    HeadLines(p, truncate);
    JoinOpensThree(lines, "\n");
  }

  lemma HeadLines(p: string, truncate: bool)
    ensures var lines := RenderAll(Entries(p, truncate), p);
      lines[0] == CommentText(RuleLine) && lines[1] == CommentText(Title) && lines[2] == "-- Prefix: " + p
  {
    var es := Entries(p, truncate);
    assert es[..3] == Head(p, truncate)[..3];
    assert es[0] == Note(RuleLine) && es[1] == Note(Title) && es[2] == Note(PrefixLine(p));
  }

  lemma JoinOpensThree(lines: seq<string>, sep: string)
    requires |lines| >= 3
    ensures StartsWith(Join(lines, sep), lines[0] + sep + (lines[1] + sep + lines[2]))
  {
    assert lines == [lines[0], lines[1]] + lines[2..];
    JoinOpens(lines[0], lines[1], lines[2..], sep);
  }

  /**
   * The accepted script clears every lookup table, on a line of its own, in the form chosen:
   * `TRUNCATE TABLE p+t;` or `DELETE FROM p+t;` for the normalised prefix `p`.
   */
  lemma GenerateClears(prefixInput: string, truncate: bool, k: nat)
    requires Trim(prefixInput) != [] && k < 6
    ensures Generate(prefixInput, truncate).Ok?
    ensures Contains(Generate(prefixInput, truncate).value,
      "\n" + ((if truncate then "TRUNCATE TABLE " else "DELETE FROM ") + NormalizePrefix(prefixInput) + LookupTables[k] + ";") + "\n")
  {
    var p := NormalizePrefix(prefixInput);
    var lines := RenderAll(Entries(p, truncate), p);
    ClearLines(p, truncate, k);
    JoinContains(lines, 21 + k, "\n");
  }
}
